=== FILE: README.md ===
# esh7rni storefront core, modelled in Dafny

esh7rni is a Next.js storefront for social-media marketing services. It mirrors a provider's
service list into its own catalog with a markup. Customers place orders, which are forwarded
to the provider, and pay for them:

- by PayPal, Binance Pay or NOWPayments; or
- from a credit ledger topped up with USDT on Optimism, PayPal or NOWPayments.

Webhooks from the three payment providers mark payments completed and submit the paid order.
Every API route can be wrapped in `apiSecurity`, a guard that does three things:

- sanitizes the JSON body;
- checks `Origin` and `Referer` against the site's own origins (CSRF);
- stamps security headers on the response.

A rate limiter and the page middleware sit beside it.

## How the system is represented

- **State.** The database is one immutable value, `Store.Db`.
  - Tables read with "first match" semantics are sequences in insertion order: services, categories, payments, credits and credit transactions.
  - Orders, looked up only by key, are a map.
- **Routes.** Every route handler is a pure function from the database and the request to a status and a new database.
- **Error paths.** These are modelled branch for branch, with the status codes the code returns.
- **Money.** Money is `real`. Quantities and times (milliseconds) are `int`.
- **Outside code as parameters.** Whatever depends on code outside the core is a parameter of the operation:
  - `calculatePriceWithMarkup` (`price`) and `toFixed(2)` (`fmt2`);
  - HMAC-SHA512 (`hmac`) and `encodeURI`;
  - the reply of the provider's `placeOrder` and the reply of each payment provider;
  - whether a database write succeeded (`stored`, `orderStored`, `userStored`), and which write of a sequence fails first (`failAt`);
  - a placement the provider made that the store then failed to record (`Orders.Unrecorded`);
  - fresh ids (`newId`, `Mint`) and the current time (`now`).
- **JavaScript truthiness.** `Store.Present` models it: an empty string and a missing field are both "absent".
- **Modules.** They follow the source:

  | source | modules |
  |---|---|
  | `services.ts` | `Catalog` |
  | `orders.ts` | `Orders` |
  | `payments.ts` | `Payments` |
  | `nowpayments.ts` | `NowPaymentsClient` |
  | credit routes | `Ledger`, `CreditOrder`, `Purchases` |
  | payment routes | `Checkout`, `Webhooks` |
  | markup route | `MarkupRoute` |
  | `sanitize.ts` | `Sanitize` |
  | `csrf.ts` | `Csrf` |
  | `headers.ts` | `SecurityHeaders` |
  | `security/api.ts` | `SecurityApi` |
  | `middleware.ts` | `RouteGuard` |

- **Shared helpers.** `Wrappers`, `Store`, `Tables`, `Sorting`, `Json`, `Text` and `Http` hold the shared datatypes and sequence helpers.

## Model

| member | source | states |
|---|---|---|
| Catalog.GroupNames | src/lib/api/services.ts:30-56 | Grouping the upstream list gives one bucket per distinct category, and the set of bucket names is exactly the set of upstream categories |
| Catalog.GroupItems | src/lib/api/services.ts:30-56 | A category's bucket holds exactly that category's upstream entries, in upstream order |
| Catalog.GroupFlatten | src/lib/api/services.ts:30-56 | The buckets together are a permutation of the upstream list: no entry is lost or duplicated |
| Catalog.UpsertAllSpec | src/lib/api/services.ts:68-95 | After the upserts, each existing row is either refreshed from the last upstream entry with its id, keeping its key and description, or untouched. Each appended row is the created form of an upstream id that was not stored before |
| Catalog.UpsertCategoriesSpec | src/lib/api/services.ts:59-65 | The category upserts keep every existing category in place, and the stored names become the old names plus the bucket names |
| Catalog.UpsertKeepsIds | src/lib/api/services.ts:68-95 | Every upstream service id has a row after the sync |
| Catalog.SyncServices | src/lib/api/services.ts:15-104 | The sync fails exactly when the provider list could not be fetched, and then nothing changes. Orders, payments, credits and the markup setting are never touched, and no service row is removed |
| Catalog.SyncServicesSpec | src/lib/api/services.ts:15-104 | A successful sync keeps the key, upstream id and description of every existing row. It leaves rows the provider no longer lists unchanged, and prices every listed row from its original rate with the stored markup (default 30). New rows have no description, every upstream id is present, and the category names gain the upstream categories |
| Catalog.UpdateServiceMarkup | src/lib/api/services.ts:184-211 | Success holds exactly when no write fails. A failed setting write changes nothing. Otherwise the setting becomes `m`, and the services written before the failing write are repriced from their original rates while the rest keep their rows. No service is added or removed, and nothing outside the setting and the rates changes |
| Catalog.PartialMarkupMixesRates | src/lib/api/services.ts:187-210 | A write failure at service k reports failure, yet keeps the new setting and the repriced rows before k. The catalog is left with a mix of old and new rates |
| Catalog.MarkupThenSync | src/lib/api/services.ts:15-104 | After a markup change, a later sync prices every row it touches, and every old row, with the new markup |
| Catalog.MarkupLastWins | src/lib/api/services.ts:184-211 | A complete markup update after any other update, even a partly failed one, equals the complete update alone |
| Catalog.GetServiceById | src/lib/api/services.ts:152-179 | No result exactly when no row has the upstream id. A result is the view of a stored row with that id |
| Catalog.UpdateServiceDescription | src/lib/api/services.ts:216-228 | Fails with "Failed to update description" exactly when no row has the upstream id or the store's update throws. Otherwise only the matching rows get the new description, and everything else is unchanged |
| Catalog.DescriptionSurvivesSync | src/lib/api/services.ts:70-82 | A description set by the admin survives a later provider sync |
| Catalog.ViewOf | src/lib/api/services.ts:123-145 | A category view carries the category's id and name, and its services are a permutation of that category's rows, sorted by name |
| Catalog.GetAllCategories | src/lib/api/services.ts:109-147 | The views are the stored categories, reordered by name: each category appears as often as it is stored. Each view's services are exactly that category's rows, sorted by name |
| Catalog.ListedUnderOwnCategory | src/lib/api/services.ts:109-147 | Every service listed in the category listing belongs to the category it is listed under |
| Orders.CreateOrder | src/lib/api/orders.ts:11-57 | An unknown service gives "Service not found", a quantity outside min..max the bounds message, and an insert that throws "Failed to create order". Success holds exactly when the service exists, min <= quantity <= max and the insert succeeds. A failure leaves the database unchanged. Success adds exactly one pending, unsubmitted order whose amount is rate * quantity / 1000 |
| Orders.QuantityBounds | src/lib/api/orders.ts:26-31 | Quantities min and max are accepted; min - 1 and max + 1 are refused |
| Orders.AmountFrozen | src/lib/api/orders.ts:34 | Repricing the catalog after an order is placed, completely or partly, does not change the order's amount |
| Orders.AmountLinear | src/lib/api/orders.ts:34 | the amount `rate * quantity / 1000` is additive in the quantity, and more units never cost less at a rate that is not negative |
| Orders.SubmitOrder | src/lib/api/orders.ts:62-104 | A missing order or an already submitted one is refused without calling the provider. The provider is called exactly when the order exists, is unsubmitted and has its service row, and the call carries that service's provider id and the order's link and quantity. Success holds exactly when the placement is recorded, and then the order holds the provider id and becomes processing. Every failure leaves the database unchanged, a placement the store failed to record included |
| Orders.SubmitExactlyOnce | src/lib/api/orders.ts:75-77 | After a successful submission, a second submission is refused and sends nothing |
| Orders.SubmitRetryAfterFailure | src/lib/api/orders.ts:100-103 | A provider failure leaves the order unsubmitted, so a retry calls the provider again |
| Orders.UnrecordedPlacementRepeats | src/lib/api/orders.ts:80-103 | When the provider placed the order but the order update failed, the order stays unsubmitted and a retry sends the same call again |
| Orders.MapStatus | src/lib/api/orders.ts:206-229 | Completed and Partial map to completed; Canceled to canceled; Failed to failed; every other status to processing, never pending |
| Orders.UnknownStatusIsNotTerminal | src/lib/api/orders.ts:206-229 | An unrecognised provider status never ends an order |
| Orders.SyncOrderStatus | src/lib/api/orders.ts:192-246 | Succeeds exactly when the order exists, was submitted and the provider answered. Then only that order's status changes, to the mapped status. Every failure leaves the database unchanged |
| Orders.SyncAllOrderStatuses | src/lib/api/orders.ts:251-319 | The provider is queried exactly when some order is submitted and not finished. A failed query changes nothing. Otherwise each selected order the provider reports on gets the mapped status, and every other order and table is unchanged. A failed order update inside the loop is not modelled |
| Orders.SyncAllAgreesWithSyncOne | src/lib/api/orders.ts:251-319 | The batch sync never touches a finished order, and on a selected order it agrees with the single-order sync |
| Ledger.BalanceIsCreditsMinusDebits | src/app/api/credits/route.ts:35-42 | The balance is the sum of purchase and bonus entries minus the sum of usage and refund entries |
| Ledger.OtherKindsIgnored | src/app/api/credits/route.ts:35-42 | Entries of any other type do not affect the balance |
| Ledger.BalancePermutation | src/app/api/credits/route.ts:25-42 | The balance does not depend on the order in which the rows are read |
| Ledger.ForUser | src/app/api/credits/route.ts:25-32 | Keeps exactly the entries of the given user |
| Ledger.OtherUsersIgnored | src/app/api/credits/route.ts:25-42 | Another user's entry does not change a user's balance |
| Ledger.AppendOwn | src/app/api/credits/route.ts:35-42 | A user's own new entry moves the balance by that entry's signed amount |
| Ledger.NewestTen | src/app/api/credits/route.ts:45 | The recent list has min(10, n) entries taken from the user's entries, newest first, and no dropped entry is newer than a listed one |
| Ledger.GetCredits | src/app/api/credits/route.ts:13-61 | 401 exactly when nobody is signed in. Otherwise the reply is the user's balance and their ten newest entries |
| CreditOrder.ServiceByKey | src/app/api/orders/credit/route.ts:34-43 | Finds a stored service with the given key, or none exactly when no row has that key |
| CreditOrder.Check | src/app/api/orders/credit/route.ts:26-79 | Missing fields give 400, an unknown service 404, and a quantity outside the bounds 400. The order is accepted exactly when all fields are given, the service exists, the quantity is within bounds and the amount does not exceed the balance. An accepted order carries that amount and balance |
| CreditOrder.PostCreditOrder | src/app/api/orders/credit/route.ts:11-147 | 401 exactly when signed out. A refused request writes nothing and never replies 200. For an accepted one, a throwing order insert gives 500 with nothing written, and a throwing debit insert gives 500 with the pending order stored and no debit; neither calls the provider. Otherwise it stores exactly one order for the user and one usage entry for its amount, then calls the provider. The reply is 200 exactly when the placement is recorded, and it reports the remaining balance, balance - amount, which is never negative. A failed or unrecorded placement keeps the order pending and the credits spent |
| CreditOrder.DebitMatchesRemaining | src/app/api/orders/credit/route.ts:82-137 | After an accepted order whose inserts succeed, the ledger balance is exactly the old balance minus the amount, it is not negative, and it equals the remaining credits the reply reports. When an insert throws, the balance is unchanged |
| CreditOrder.OrphanOrderWithoutDebit | src/app/api/orders/credit/route.ts:82-102 | When the debit insert throws, the reply is 500 and the provider is not called. The pending order stays stored, the credits are unchanged, and the same request is accepted again |
| CreditOrder.ExactBalanceSuffices | src/app/api/orders/credit/route.ts:74-79 | A balance equal to the amount is enough. A balance below it gives 400 and writes nothing |
| CreditOrder.PostCreditOrderAsWritten | src/app/api/orders/credit/route.ts:104-110 | As written, the route never replies 200 and never reaches the provider |
| CreditOrder.AsWrittenChargesWithoutPlacing | src/app/api/orders/credit/route.ts:82-110 | As written, every accepted order replies 500 and leaves a pending, unsubmitted order with the credits already debited. The corrected route makes the same debit and replies 200 |
| Purchases.CreditedRaisesBalance | src/app/api/credits/purchase/usdt/route.ts:150-158 | Crediting a purchase raises the user's balance by exactly the purchased amount |
| Purchases.CreditedIsProcessed | src/app/api/credits/purchase/usdt/route.ts:118-147 | After crediting, the transaction id counts as already processed |
| Purchases.FindTransfer | src/app/api/credits/purchase/usdt/route.ts:89-98 | With a receiver address, finds the first Transfer log to it, or none when no log goes to it. Without an address (the code compares against `undefined`), decoding fails exactly when some log is a Transfer |
| Purchases.PostUsdt | src/app/api/credits/purchase/usdt/route.ts:22-189 | 401 exactly when signed out. A request refused before the writes writes nothing. Otherwise the transaction is verified on chain: right contract, success, a transfer of at least the amount to the receiver, and a hash not seen before. The reply is then 200 exactly when all three writes succeed, and 500 with the writes made before the failing one kept. Amounts under 10 give 400 |
| Purchases.UsdtReplayRefused | src/app/api/credits/purchase/usdt/route.ts:118-129 | Replaying a credited transaction hash is refused and writes nothing |
| Purchases.UsdtCreditFailureLocksOut | src/app/api/credits/purchase/usdt/route.ts:118-171 | A failed credit insert answers 500 with no purchase entry but marks the hash processed, so the same request is then refused with 400. A failed notification insert answers 500 with the credit granted |
| Purchases.UsdtCreditsRequestedAmount | src/app/api/credits/purchase/usdt/route.ts:45-158 | Any amount of at least 10 backed by a Transfer of at least that amount is credited with the requested amount, not the amount sent |
| Purchases.PostPaypalCredits | src/app/api/credits/purchase/paypal/route.ts:11-130 | 401 exactly when signed out. The capture is attempted exactly when all fields are given and the amount is at least 10. A capture not COMPLETED gives 400. A request refused before the writes writes nothing. After a completed capture of a PayPal id not processed before, the reply is 200 exactly when all three writes succeed, and 500 with the earlier writes kept |
| Purchases.PaypalReplayCapturedThenRefused | src/app/api/credits/purchase/paypal/route.ts:62-73 | A replayed PayPal purchase is captured again but refused with 400, and nothing is written |
| Purchases.PaypalCreditFailureLocksOut | src/app/api/credits/purchase/paypal/route.ts:62-110 | A failed credit insert answers 500 with no purchase entry, and every later attempt with the same PayPal id is captured and refused with 400 |
| Purchases.PostPaypalCreditsAsWritten | src/app/api/credits/purchase/paypal/route.ts:22-49 | As written, the route writes nothing, captures nothing and never replies 200 |
| Purchases.PaypalAsWrittenRejectsValidPurchase | src/app/api/credits/purchase/paypal/route.ts:22-49 | A purchase that the corrected route credits gets 500 from the route as written |
| Purchases.PostNowCredits | src/app/api/credits/purchase/nowpayments/route.ts:12-77 | 401 exactly when signed out. The credit ledger, payments and orders are never touched. With both fields given, one completed credit-transaction row is recorded. An unknown user then gets 404, and a failed counter update 500, both keeping the row. Otherwise the reply is 200, the user's credit counter grows by the amount, and that new value is the one reported |
| Purchases.NowCreditsNotDeduplicated | src/app/api/credits/purchase/nowpayments/route.ts:33-61 | Posting the same transaction twice credits the counter twice and records two rows, while the ledger balance stays the same |
| Purchases.NowCreditsRetryRecordsTwice | src/app/api/credits/purchase/nowpayments/route.ts:33-61 | After a failed counter update, a successful retry records the transaction twice and credits it once |
| Payments.GetAccessToken | src/lib/api/payments.ts:28-54 | A cached token is reused while it is valid. Otherwise a grant is cached with expiry now + (expires_in - 60) s. A failed request is an error that leaves the cache unchanged |
| Payments.TokenWindow | src/lib/api/payments.ts:28-54 | A fresh token is reused until 60 seconds before its expiry, and after that a new grant is fetched |
| Payments.ShortGrantNeverCached | src/lib/api/payments.ts:45-47 | A grant valid for 60 seconds or less is never reusable |
| Payments.BinanceMessageDeterminesBody | src/lib/api/payments.ts:278 | With the same headers, two different bodies give different signed messages |
| Payments.BinanceSignatureBindsBody | src/lib/api/payments.ts:268-286 | With an injective digest, one signature under the same headers verifies one body only |
| Payments.CreatedPaymentFound | src/lib/api/payments.ts:292-369 | A newly created payment is found by its id with the stored fields |
| Payments.UpdatePaymentStatus | src/lib/api/payments.ts:319-339 | Succeeds exactly when the write is stored and the payment exists. Then only rows with that id change, to the new status, and a missing transaction id keeps the old one. The returned row is the updated one |
| Payments.NoTransitionGuard | src/lib/api/payments.ts:319-339 | A completed payment can be moved to any status, since there is no transition guard |
| Payments.GetPaymentById | src/lib/api/payments.ts:344-369 | "Payment not found" exactly when no row has the id. Otherwise a stored row with that id |
| Payments.UpdateThenGet | src/lib/api/payments.ts:319-369 | After an update, reading the payment back gives the new status |
| NowPaymentsClient.VerifyIgnoresBody | src/lib/api/nowpayments.ts:72-94 | The check ignores the body, so any body with any non-empty signature passes |
| NowPaymentsClient.DirectPaymentUrlBase | src/lib/api/nowpayments.ts:100-106 | The link keeps the base URL, and building it again from its own result gives the same link |
| Checkout.PostPaypal | src/app/api/payments/paypal/route.ts:10-80 | 401 exactly when signed out, and 404 for an order the user does not own. A pending PayPal payment is recorded exactly when the order is owned and the write succeeds. 200 holds exactly when PayPal returns an approve link, and then the reply carries the first one |
| Checkout.PaypalReferenceFindsPayment | src/app/api/payments/paypal/route.ts:44-63 | The order id sent to PayPal as reference finds a payment for that order, which is the new one when none existed |
| Checkout.PostBinance | src/app/api/payments/binance/route.ts:9-86 | 401 exactly when signed out, and 404 for an order the user does not own. A pending Binance payment is recorded exactly when the order is owned and the write succeeds. 200 holds exactly when Binance answers SUCCESS, and then the reply carries its checkout URL |
| Checkout.BinanceRefusalKeepsPayment | src/app/api/payments/binance/route.ts:43-69 | When Binance refuses, the route replies 500 but the pending payment stays recorded |
| Checkout.PostNowPayment | src/app/api/payments/nowpayments/route.ts:15-67 | 401 exactly when signed out. 200 holds exactly when the amount and order id are given and the payment is stored. Then one pending payment is recorded and the reply is the direct payment link. Any other reply writes nothing |
| Checkout.NowPaymentForAnyOrder | src/app/api/payments/nowpayments/route.ts:28-48 | A user can record a pending payment, at any non-zero amount, for an order another user owns, since the route checks neither ownership nor amount |
| Checkout.GetNowPayment | src/app/api/payments/nowpayments/route.ts:73-108 | 401 exactly when signed out, and 400 without a payment id. 200 holds exactly when NOWPayments answers, and then the reply is that status |
| Checkout.GetNowPaymentAsksLast | src/app/api/payments/nowpayments/route.ts:73-108 | Before the session and the payment id are checked, the processor's answer cannot change the reply. After them, two replies differ exactly when the processor's answers differ. Its statuses are 200, 400, 401 and 500 |
| Checkout.PostCapture | src/app/api/payments/paypal/capture/route.ts:8-65 | A non-200 reply writes nothing and submits nothing. A capture not COMPLETED gives 500. 200 holds exactly when the capture completed and the payment was updated. The linked order is then submitted |
| Checkout.CaptureTwiceSubmitsOnce | src/app/api/payments/paypal/capture/route.ts:31-48 | Capturing the same payment twice submits its order only once |
| Checkout.CaptureOfSubmitted | src/app/api/payments/paypal/capture/route.ts:31-48 | Capturing a payment whose order was already submitted sends nothing to the provider |
| Webhooks.PaymentForOrder | src/app/api/payments/paypal/webhook/route.ts:45-48 | Finds the first stored payment in table order whose order id matches. With no order id, that is the table's first payment, and there is none only when the table is empty |
| Webhooks.PaypalOnlySuccessActs | src/app/api/payments/paypal/webhook/route.ts:13-22 | A delivery changes the store, calls the provider or answers 200 only when PayPal verified it as SUCCESS |
| Webhooks.MapNowStatus | src/app/api/payments/nowpayments/webhook/route.ts:64-78 | finished and confirmed map to completed; failed, expired and refunded to failed; anything else to pending |
| Webhooks.NowWebhook | src/app/api/payments/nowpayments/webhook/route.ts:13-110 | A bad signature gives 400, an unparsable body 500, a delivery without an order id and a status 400, and one without a payment for the order 404, all writing nothing. Otherwise the payment gets the mapped status. A completed payment moves its order to processing, and nothing else changes. The reply is 200, except 500 when that order update fails, with the payment update kept. The route never submits to the provider |
| Webhooks.NowRawBodyIgnored | src/app/api/payments/nowpayments/webhook/route.ts:15-28 | Under any non-empty signature, the reply does not depend on the raw body. A 400 then only means a missing field |
| Webhooks.NowStatusRecorded | src/app/api/payments/nowpayments/webhook/route.ts:50-81 | A delivery that finds its payment leaves it reading the mapped status, whatever the reply |
| Webhooks.NowExpiredOverwritesCompleted | src/app/api/payments/nowpayments/webhook/route.ts:64-81 | A late "expired" event turns a completed payment into a failed one |
| Webhooks.NowFinishedReopensCompleted | src/app/api/payments/nowpayments/webhook/route.ts:84-100 | A "finished" event moves an already completed order back to processing |
| Webhooks.NowOrderFailureKeepsPayment | src/app/api/payments/nowpayments/webhook/route.ts:80-95 | A failed order update after a completing delivery answers 500, with the order unchanged and its payment already completed |
| Webhooks.PaypalWebhook | src/app/api/payments/paypal/webhook/route.ts:8-85 | A bad signature gives 401, and other event types give 200 with no change. For a capture-completed event, an unknown order gives 404 and a failed update gives 500. Otherwise the payment is completed and the order is submitted |
| Webhooks.PaypalRedeliverySubmitsOnce | src/app/api/payments/paypal/webhook/route.ts:58-72 | A redelivered capture event does not submit the order again |
| Webhooks.UpdateKeepsOrderLinks | src/app/api/payments/paypal/webhook/route.ts:45-69 | Updating a payment's status keeps it findable by its order and leaves orders unchanged |
| Webhooks.BinanceWebhook | src/app/api/payments/binance/webhook/route.ts:8-74 | A bad signature gives 401, and events other than PAY/PAY_SUCCESS give 200 with no change. An unknown order gives 404 and a failed update gives 500. Otherwise the payment is completed, and the order is submitted when a trade number was given |
| Webhooks.BinanceMissingTradeNoCompletesFirst | src/app/api/payments/binance/webhook/route.ts:30-58 | An event without merchantTradeNo completes the first payment in the table and submits nothing |
| MarkupRoute.PostMarkup | src/app/api/services/markup/route.ts:6-44 | Non-admins get 403 with no change. 400 holds exactly when the markup is not a non-negative number, and a refused request writes nothing. A valid one runs the markup update: 200 when every write succeeds, 500 otherwise, with the database the update left behind |
| MarkupRoute.FailedUpdateKeepsSetting | src/app/api/services/markup/route.ts:27-35 | A write failure at service k answers 500, yet the new setting and the rates before k stay written |
| MarkupRoute.NonAdminIgnoresBody | src/app/api/services/markup/route.ts:9-15 | A non-admin's request is refused whatever its body |
| MarkupRoute.MarkupBoundary | src/app/api/services/markup/route.ts:20-25 | A markup of 0 is accepted. -0.5 and the string "30" are refused |
| Sanitize.Escape | src/lib/security/sanitize.ts:49-55 | Each special character becomes an entity from '&' to ';', and no escaped form contains a special character other than '&' |
| Sanitize.ChainIsPerCharacter | src/lib/security/sanitize.ts:49-55 | The six global replacements in sequence equal escaping each character independently |
| Sanitize.SanitizeIsEscapeAll | src/lib/security/sanitize.ts:45-56 | sanitizeString is per-character escaping, the empty string included |
| Sanitize.EscapeAllSafe | src/lib/security/sanitize.ts:45-56 | A sanitized string has no special character except the '&' of an entity |
| Sanitize.SanitizedHasNoMarkup | src/lib/security/sanitize.ts:45-56 | A sanitized string contains no <, >, ", ' or / |
| Sanitize.EscapeAllPlain | src/lib/security/sanitize.ts:45-56 | A string without special characters comes back unchanged |
| Sanitize.SlashNeverSurvives | src/lib/security/sanitize.ts:55 | Any string containing '/' (every URL) is changed by sanitizing |
| Sanitize.NotIdempotent | src/lib/security/sanitize.ts:50 | Sanitizing twice escapes the ampersand twice: "&" becomes "&amp;amp;" |
| Sanitize.UnescapeEscapeAll | src/lib/security/sanitize.ts:45-56 | Decoding the six entities undoes sanitizing |
| Sanitize.SanitizeInjective | src/lib/security/sanitize.ts:45-56 | Different strings sanitize to different strings |
| Sanitize.SanitizeJson | src/lib/security/sanitize.ts:61-89 | null, booleans and numbers are kept, strings are sanitized, and arrays and objects keep their shape, sanitized entry by entry |
| Sanitize.SanitizeJsonClean | src/lib/security/sanitize.ts:61-89 | No string anywhere in a sanitized body contains a special character outside an entity |
| Sanitize.SanitizeKeepsKeys | src/lib/security/sanitize.ts:78-85 | Sanitizing an object keeps exactly its keys, and each key's value is the sanitized original |
| Sanitize.SanitizeInput | src/lib/security/sanitize.ts:7-40 | Only POST, PUT and PATCH bodies are rewritten, and then the body is clean. Other methods and unparsable bodies pass unchanged |
| Csrf.AllowedOrigins | src/lib/auth/csrf.ts:21-32 | The allowed origins include https:// and http:// plus the Host header and the two site origins, and also localhost:3000 in development. Nothing outside those five is ever allowed |
| Csrf.AllowsCharacterized | src/lib/auth/csrf.ts:8-61 | GET always passes. Any other method passes exactly when a present origin is allowed, a present referer starts with an allowed origin, and, in production, at least one of the two headers is present |
| Csrf.SameHostPasses | src/lib/auth/csrf.ts:21-48 | A request whose origin or referer names its own host passes |
| Csrf.ForeignOriginRefused | src/lib/auth/csrf.ts:35-40 | A non-GET request with a foreign origin is refused whatever its referer |
| Csrf.TrailingSlashRefused | src/lib/auth/csrf.ts:35-40 | The site origin with a trailing slash is not an allowed origin |
| Csrf.LookalikeRefererPasses | src/lib/auth/csrf.ts:43-48 | A referer that merely starts with the site origin, such as a look-alike host, passes |
| Csrf.HeaderlessPassesOutsideProduction | src/lib/auth/csrf.ts:51-56 | A request with neither header passes exactly outside production |
| Csrf.LocalhostOnlyInDevelopment | src/lib/auth/csrf.ts:29-32 | Origin http://localhost:3000 passes exactly in development |
| SecurityHeaders.Hardening | src/lib/security/headers.ts:27-57 | The six fixed headers are always set, with their exact values, and HSTS is set exactly in production |
| SecurityHeaders.Overlay | src/lib/security/headers.ts:8-66 | Status and body are kept. The headers are the handler's plus the hardening ones, the hardening values win, and every other header keeps its value |
| SecurityHeaders.ContentTypeKept | src/lib/security/headers.ts:25-62 | A handler's content type survives the overlay |
| SecurityHeaders.OverlayIdempotent | src/lib/security/headers.ts:8-66 | Applying the headers twice is the same as once |
| SecurityHeaders.OverlayAsWritten | src/lib/security/headers.ts:20-22 | As written, the wrapper always ends in the framework's bare 500, with none of the hardening headers |
| SecurityHeaders.OverlayAsWrittenLosesReply | src/lib/security/headers.ts:20-22 | Any reply other than a 500 comes out differently from the corrected overlay, and no hardening header survives |
| SecurityApi.ApiSecurity | src/lib/security/api.ts:10-17 | A request that passes CSRF reaches the handler sanitized, and the handler's response gets the security headers. A refused request gets a hardened 403 "CSRF check failed" |
| SecurityApi.ApiSecurityAsWritten | src/lib/security/api.ts:10-17 | As written, every guarded request is answered with a 500 |
| SecurityApi.ApiSecurityAsWrittenFailsEveryRoute | src/lib/security/api.ts:10-17 | A request the handler answers with 200 gets 500 as written and 200 when corrected. A CSRF refusal gets 500 as written and 403 when corrected |
| SecurityApi.RefusalIsJson | src/lib/auth/csrf.ts:35-56 | The CSRF refusal is a 403 with content type application/json |
| SecurityApi.AlwaysHardened | src/lib/security/api.ts:10-17 | Every response through the guard carries every hardening header with its value, and its status is the handler's or 403 |
| SecurityApi.GetPassesThrough | src/lib/security/api.ts:10-17 | A GET reaches the handler unchanged |
| SecurityApi.PostedLinkRewritten | src/lib/security/sanitize.ts:7-40 | A posted link with a '/' reaches the handler HTML-escaped, not as sent |
| SecurityApi.CeilSeconds | src/lib/security/api.ts:98 | The Retry-After value is the ceiling of the wait in seconds |
| SecurityApi.Admit | src/lib/security/api.ts:72-101 | A live window counts one more request. An absent or expired window restarts at 1 with a new reset time. Only that key changes. The request passes exactly when the count is at most the limit, and Retry-After rounds the wait up |
| SecurityApi.RateLimiter | src/lib/security/api.ts:66-107 | The table is updated for the key "ip:url". A passing request goes to the handler, and a refused one gets 429 with Retry-After |
| SecurityApi.DecisionsInWindow | src/lib/security/api.ts:79-91 | Within one window, the i-th further request passes exactly when count + i + 1 <= limit |
| SecurityApi.FirstLimitRequestsPass | src/lib/security/api.ts:73-91 | In a fresh window, exactly the first `limit` requests pass |
| SecurityApi.ForwardedForChoosesBucket | src/lib/security/api.ts:68-69 | Different X-Forwarded-For values land in different buckets |
| RouteGuard.DashboardNeverPublic | src/middleware.ts:12-36 | No dashboard path is a public route or a public API prefix |
| RouteGuard.AdminIsDashboard | src/middleware.ts:39-42 | Every admin path is a dashboard path |
| RouteGuard.DashboardGuarded | src/middleware.ts:45-62 | On a dashboard path, signed-out users are sent to sign-in with the encoded URL, signed-in non-admins on admin paths go to /dashboard, and everyone else passes |
| RouteGuard.OutsideDashboardPasses | src/middleware.ts:45-62 | Every path outside /dashboard passes, signed in or not |
| RouteGuard.SegmentBoundaries | src/middleware.ts:27-36 | Public routes match whole segments ("/services/x" but not "/servicesx"), while the API prefix test also matches "/api/authority" |

## Left out

- Network calls and their oracles. The HTTP clients for the provider, PayPal, Binance, NOWPayments and the Optimism RPC are left out; their replies are parameters. Remote signature verification and HMAC-SHA512 are oracles too.
- Session lookup is a parameter: `getCurrentUser` and the NextAuth token with its role. NextAuth itself is left out.
- Notification rows, e-mails and console logging write nothing the modelled operations read, so they are left out.
- The read-only listing helpers are left out: `getOrderById`, `getOrdersByUserId`, `getAllOrders`, `getPaymentsByUserId` and `getAllPayments`.
- The text of credit descriptions, `apiResponse` JSON strings and error messages beyond their status codes is left out.
- `parseFloat`, `parseInt` and `NaN` are left out. Bodies arrive with numeric fields already parsed, and non-numbers are "absent".
- Floating-point rounding is left out, because money is exact `real`. `toFixed(2)` is a parameter.
- ethers' `wait()` behaviour on reverted transactions is left out. A receipt is given with its status.
- Concurrency between requests and the module-level rate-limit `Map` shared across requests are left out. The table is passed in and returned, and time is the parameter `now`.
- Next.js internals are left out: `NextResponse.next()` header forwarding, and `headers()` from next/headers versus the request's own headers.
- Four route modules do not parse as written, and the application does not build with them. They end with `export { apiSecurity(POST) as POST };`, and an export clause takes names, not calls. The modules are src/app/api/credits/route.ts:64, src/app/api/orders/credit/route.ts:150, src/app/api/credits/purchase/paypal/route.ts:133 and src/app/api/credits/purchase/usdt/route.ts:192. Their handlers are modelled as if exported through a named constant, the way src/app/api/admin/users/[id]/route.ts:158-162 does it. The parse failure itself has no Dafny counterpart.
- `smmcost.ts` is not part of this model beyond the shape of the `placeOrder` reply.
- The capture route has no authentication check, and it is modelled without one.
- Catalog.GetAllCategories: the names are ordered by code unit (`Text.StrLe`), not by the database's collation.
- Catalog.SyncServices: all category upserts are modelled before all service upserts. The source interleaves them per bucket. Neither reads what the other writes, so only the order of fresh ids can differ, and ids are parameters.
- SecurityHeaders.OverlayAsWritten: the framework's reply to a thrown handler is modelled as a bare 500 with no headers and an empty body. Its real error page is left out.
- Orders.SyncAllOrderStatuses: a failed order update inside the loop is not modelled. The source then answers "Failed to sync all order statuses" and keeps the updates made before it. The orders are a map, which fixes no loop order, so which updates those are is left open.
- Catalog.SyncServices: a store failure in the middle of the sync is not modelled. The source's `try` covers every upsert, so such a failure answers "Failed to sync services" and keeps the writes made before it. The model's sync fails only when the provider list cannot be fetched.
- CreditOrder.PostCreditOrder: a failure of the notification insert after the order update is not modelled. The source then answers 500, with the order already processing and the credits spent. CreditOrder.PostCreditOrderAsWritten does not model the two insert failures, because its every accepted request already ends in 500.
- Text.LowerChar: `toLowerCase` is modelled on the ASCII letters only. Every other character is kept as it is.
- Store.Db: the `default_markup` setting is held as the number it encodes. The source stores `toString()` text and reads it back with `parseFloat`, and that round trip is left out.
- Payments.BinanceMessage is left without its own row. It only assembles the signed text, and Payments.BinanceMessageDeterminesBody and Payments.BinanceSignatureBindsBody state what that text fixes.

## Findings

| source | as written | input that shows it | evidently intended | confidence | as-written member | corrected member |
|---|---|---|---|---|---|---|
| src/app/api/orders/credit/route.ts:104-110 | `placeOrder` is called on the module namespace of `smmcost.ts`, which exports only the class `SMMCOSTClient`, so the call throws after the order and the usage entry are written | any signed-in request with valid fields and enough credits | call `placeOrder` on a client instance, with the three arguments `placeOrder(service, link, quantity)` of src/lib/api/smmcost.ts:49-60 rather than one object, store the provider's order number, a number (src/types/index.ts:86), as decimal text, because `apiOrderId` is a string (src/types/index.ts:42) and src/lib/api/orders.ts:90 converts it the same way, and reply 200 with the remaining credits | not executed | CreditOrder.AsWrittenChargesWithoutPlacing | CreditOrder.PostCreditOrder |
| src/app/api/credits/purchase/paypal/route.ts:22-49 | the body is read from `request` on line 22, while `const request` declared on line 49 shadows the parameter for the whole block, so the read throws and the catch replies 500 | any signed-in request | read the route's request parameter, then capture and credit the purchase | not executed | Purchases.PaypalAsWrittenRejectsValidPurchase | Purchases.PostPaypalCredits |
| src/lib/security/headers.ts:20-22 | the wrapper assigns the handler's status and body to `newResponse.status` and `newResponse.body`, which a Fetch `Response` defines through getters only, so in module (strict) code the assignment throws a TypeError after the handler has run | any request to a route wrapped in `apiSecurity` | build the new response from the handler's status and body, then set the hardening headers on it | not executed | SecurityApi.ApiSecurityAsWrittenFailsEveryRoute | SecurityApi.ApiSecurity |

=== FILE: catalog.dfy ===
/**
 * The service catalog (`src/lib/api/services.ts`): the provider's service list mirrored
 * into the `service` table with a global markup, grouped by category.
 *
 * `calculatePriceWithMarkup(originalRate, markupPercentage)` lives in a module that is not
 * part of this model; every operation takes it as the parameter `price`, and nothing here
 * assumes how it rounds.
 */
module Catalog {
  import opened Wrappers
  import opened Store
  import opened Tables
  import Sorting
  import Text

  /** Markup used when no `default_markup` setting is stored. */
  const DefaultMarkup: real := 30.0

  /** One entry of the provider's service list, with its numeric fields already parsed. */
  datatype Upstream = Upstream(
    service: int,
    name: string,
    category: string,
    kind: string,
    rate: real,
    min: int,
    max: int,
    dripfeed: bool,
    refill: bool)

  /** Store ids for rows that the sync creates (generated by the store in the source). */
  datatype Mint = Mint(service: int -> Id, category: string -> Id)

  /** The markup a sync prices with: the stored setting, otherwise 30. */
  function SyncMarkup(db: Db): real
  {
    db.markup.GetOr(DefaultMarkup)
  }

  // ---------------------------------------------------------------- grouping by category

  /** The `Map<string, SMMService[]>` the sync builds: buckets in first-appearance order. */
  datatype Bucket = Bucket(name: string, items: seq<Upstream>)

  function AddToBuckets(bs: seq<Bucket>, u: Upstream): seq<Bucket>
  {
    if |bs| == 0 then [Bucket(u.category, [u])]
    else if bs[0].name == u.category then [Bucket(bs[0].name, bs[0].items + [u])] + bs[1..]
    else [bs[0]] + AddToBuckets(bs[1..], u)
  }

  function Group(ups: seq<Upstream>): seq<Bucket>
  {
    if |ups| == 0 then []
    else AddToBuckets(Group(ups[..|ups| - 1]), ups[|ups| - 1])
  }

  /** The entries of category `c`, in provider order. */
  function OfCategory(ups: seq<Upstream>, c: string): seq<Upstream>
  {
    if |ups| == 0 then []
    else OfCategory(ups[..|ups| - 1], c) + (if ups[|ups| - 1].category == c then [ups[|ups| - 1]] else [])
  }

  /** Contents of the bucket named `c`, or nothing when there is none. */
  function ItemsOf(bs: seq<Bucket>, c: string): seq<Upstream>
  {
    if |bs| == 0 then []
    else if bs[0].name == c then bs[0].items
    else ItemsOf(bs[1..], c)
  }

  function Names(bs: seq<Bucket>): set<string>
  {
    if |bs| == 0 then {} else {bs[0].name} + Names(bs[1..])
  }

  predicate DistinctNames(bs: seq<Bucket>)
  {
    |bs| == 0 || (bs[0].name !in Names(bs[1..]) && DistinctNames(bs[1..]))
  }

  function Categories(ups: seq<Upstream>): set<string>
  {
    if |ups| == 0 then {} else Categories(ups[..|ups| - 1]) + {ups[|ups| - 1].category}
  }

  /** Every entry of `ups` is written in this order: bucket after bucket. */
  function Flatten(bs: seq<Bucket>): seq<Upstream>
  {
    if |bs| == 0 then [] else bs[0].items + Flatten(bs[1..])
  }

  lemma {:induction false} AddToBucketsNames(bs: seq<Bucket>, u: Upstream)
    ensures Names(AddToBuckets(bs, u)) == Names(bs) + {u.category}
  {
    if |bs| > 0 && bs[0].name != u.category {
      AddToBucketsNames(bs[1..], u);
    }
  }

  lemma {:induction false} AddToBucketsDistinct(bs: seq<Bucket>, u: Upstream)
    requires DistinctNames(bs)
    ensures DistinctNames(AddToBuckets(bs, u))
  {
    if |bs| > 0 {
      if bs[0].name != u.category {
        AddToBucketsDistinct(bs[1..], u);
        AddToBucketsNames(bs[1..], u);
      } else {
        assert AddToBuckets(bs, u)[1..] == bs[1..];
      }
    }
  }

  lemma {:induction false} AddToBucketsItems(bs: seq<Bucket>, u: Upstream, c: string)
    ensures ItemsOf(AddToBuckets(bs, u), c) == ItemsOf(bs, c) + (if c == u.category then [u] else [])
  {
    if |bs| > 0 {
      if bs[0].name == u.category {
        assert AddToBuckets(bs, u)[1..] == bs[1..];
      } else {
        AddToBucketsItems(bs[1..], u, c);
      }
    }
  }

  lemma {:induction false} AddToBucketsFlatten(bs: seq<Bucket>, u: Upstream)
    ensures multiset(Flatten(AddToBuckets(bs, u))) == multiset(Flatten(bs)) + multiset{u}
  {
    var r := AddToBuckets(bs, u);
    if |bs| == 0 {
      assert Flatten(r) == [u] + Flatten(r[1..]);
    } else if bs[0].name == u.category {
      assert r[1..] == bs[1..];
      assert Flatten(r) == (bs[0].items + [u]) + Flatten(bs[1..]);
    } else {
      AddToBucketsFlatten(bs[1..], u);
      assert r[1..] == AddToBuckets(bs[1..], u);
    }
  }

  /** Grouping keeps one bucket per category, and exactly the categories listed. */
  lemma {:induction false} GroupNames(ups: seq<Upstream>)
    ensures DistinctNames(Group(ups))
    ensures Names(Group(ups)) == Categories(ups)
  {
    if |ups| > 0 {
      var p := ups[..|ups| - 1];
      GroupNames(p);
      AddToBucketsNames(Group(p), ups[|ups| - 1]);
      AddToBucketsDistinct(Group(p), ups[|ups| - 1]);
    }
  }

  /** The bucket of category `c` holds exactly that category's entries, in provider order. */
  lemma {:induction false} GroupItems(ups: seq<Upstream>, c: string)
    ensures ItemsOf(Group(ups), c) == OfCategory(ups, c)
  {
    if |ups| > 0 {
      var p := ups[..|ups| - 1];
      GroupItems(p, c);
      AddToBucketsItems(Group(p), ups[|ups| - 1], c);
    }
  }

  /** Grouping neither drops nor duplicates an entry. */
  lemma {:induction false} GroupFlatten(ups: seq<Upstream>)
    ensures multiset(Flatten(Group(ups))) == multiset(ups)
  {
    if |ups| > 0 {
      var p, last := ups[..|ups| - 1], ups[|ups| - 1];
      var g := Group(p);
      GroupFlatten(p);
      AddToBucketsFlatten(g, last);
      assert Group(ups) == AddToBuckets(g, last);
      SnocMultiset(ups, p, last, Flatten(Group(ups)), Flatten(g));
    }
  }

  lemma SnocMultiset<T>(s: seq<T>, p: seq<T>, last: T, f: seq<T>, fp: seq<T>)
    requires s == p + [last]
    requires multiset(f) == multiset(fp) + multiset{last} && multiset(fp) == multiset(p)
    ensures multiset(f) == multiset(s)
  {
  }

  // ---------------------------------------------------------------- upserting services

  /** The row `create` writes for a new upstream entry: priced, with no description. */
  function Create(u: Upstream, m: real, price: (real, real) -> real, mint: Mint): Service
  {
    Service(mint.service(u.service), u.service, u.name, u.category, u.kind,
            price(u.rate, m), u.rate, u.min, u.max, u.dripfeed, u.refill, None)
  }

  /** The `update` branch: every field but the key, the upstream id and `description`. */
  function Refresh(s: Service, u: Upstream, m: real, price: (real, real) -> real): Service
  {
    s.(name := u.name, category := u.category, kind := u.kind, rate := price(u.rate, m),
       originalRate := u.rate, min := u.min, max := u.max, dripfeed := u.dripfeed, refill := u.refill)
  }

  /** `service.upsert({ where: { serviceId } })` */
  function Upsert(svcs: seq<Service>, u: Upstream, m: real, price: (real, real) -> real, mint: Mint): (r: seq<Service>)
    ensures svcs <= r || |r| == |svcs|
  {
    if Any(svcs, (s: Service) => s.serviceId == u.service) then
      UpdateWhere(svcs, (s: Service) => s.serviceId == u.service, (s: Service) => Refresh(s, u, m, price))
    else svcs + [Create(u, m, price, mint)]
  }

  function UpsertAll(svcs: seq<Service>, items: seq<Upstream>, m: real, price: (real, real) -> real, mint: Mint): (r: seq<Service>)
    ensures |svcs| <= |r|
  {
    if |items| == 0 then svcs
    else Upsert(UpsertAll(svcs, items[..|items| - 1], m, price, mint), items[|items| - 1], m, price, mint)
  }

  /** The last entry written for upstream id `sid`: the one whose values survive. */
  function LastWithId(items: seq<Upstream>, sid: int): Option<Upstream>
  {
    if |items| == 0 then None
    else if items[|items| - 1].service == sid then Some(items[|items| - 1])
    else LastWithId(items[..|items| - 1], sid)
  }

  ghost predicate HasId(svcs: seq<Service>, sid: int)
  {
    exists i :: 0 <= i < |svcs| && svcs[i].serviceId == sid
  }

  /**
   * What a run of upserts leaves behind: an existing row is refreshed from the last entry
   * with its upstream id (keeping its key and description) or left alone; a new row is the
   * created form of the last entry with its id, and that id was not stored before.
   */
  ghost predicate UpsertedFrom(prev: seq<Service>, items: seq<Upstream>, r: seq<Service>,
                               m: real, price: (real, real) -> real, mint: Mint)
  {
    && |prev| <= |r|
    && (forall i :: 0 <= i < |prev| ==>
          r[i] == match LastWithId(items, prev[i].serviceId)
                  case Some(u) => Refresh(prev[i], u, m, price)
                  case None => prev[i])
    && (forall i :: |prev| <= i < |r| ==>
          && !HasId(prev, r[i].serviceId)
          && LastWithId(items, r[i].serviceId).Some?
          && r[i] == Create(LastWithId(items, r[i].serviceId).value, m, price, mint))
  }

  lemma {:induction false} UpsertAllSpec(prev: seq<Service>, items: seq<Upstream>, m: real,
                                         price: (real, real) -> real, mint: Mint)
    ensures UpsertedFrom(prev, items, UpsertAll(prev, items, m, price, mint), m, price, mint)
  {
    if |items| > 0 {
      var p := items[..|items| - 1];
      var u := items[|items| - 1];
      UpsertAllSpec(prev, p, m, price, mint);
      var r0 := UpsertAll(prev, p, m, price, mint);
      var r := Upsert(r0, u, m, price, mint);
      assert r == UpsertAll(prev, items, m, price, mint);
      forall i | 0 <= i < |r0| ensures r0[i].serviceId == (if i < |prev| then prev[i].serviceId else r0[i].serviceId) { }
      if Any(r0, (s: Service) => s.serviceId == u.service) {
        forall i | 0 <= i < |prev|
          ensures r[i] == match LastWithId(items, prev[i].serviceId)
                          case Some(v) => Refresh(prev[i], v, m, price)
                          case None => prev[i]
        {
          assert r0[i].serviceId == prev[i].serviceId;
        }
        forall i | |prev| <= i < |r|
          ensures && !HasId(prev, r[i].serviceId)
                  && LastWithId(items, r[i].serviceId).Some?
                  && r[i] == Create(LastWithId(items, r[i].serviceId).value, m, price, mint)
        {
          assert r[i].serviceId == r0[i].serviceId;
        }
      } else {
        assert r == r0 + [Create(u, m, price, mint)];
        forall i | 0 <= i < |prev|
          ensures r[i] == match LastWithId(items, prev[i].serviceId)
                          case Some(v) => Refresh(prev[i], v, m, price)
                          case None => prev[i]
        {
          assert r0[i].serviceId != u.service;
        }
        assert !HasId(prev, u.service) by {
          forall i | 0 <= i < |prev| ensures prev[i].serviceId != u.service { assert r0[i].serviceId == prev[i].serviceId; }
        }
        forall i | |prev| <= i < |r|
          ensures && !HasId(prev, r[i].serviceId)
                  && LastWithId(items, r[i].serviceId).Some?
                  && r[i] == Create(LastWithId(items, r[i].serviceId).value, m, price, mint)
        {
          if i < |r0| { assert r0[i].serviceId != u.service; }
        }
      }
    }
  }

  // ---------------------------------------------------------------- upserting categories

  function CategoryNames(cats: seq<Category>): set<string>
  {
    if |cats| == 0 then {} else CategoryNames(cats[..|cats| - 1]) + {cats[|cats| - 1].name}
  }

  /** `category.upsert({ where: { name } })`: only `updatedAt` changes on an existing row. */
  function UpsertCategory(cats: seq<Category>, name: string, mint: Mint): seq<Category>
  {
    if name in CategoryNames(cats) then cats
    else cats + [Category(mint.category(name), name)]
  }

  function UpsertCategories(cats: seq<Category>, bs: seq<Bucket>, mint: Mint): seq<Category>
    decreases |bs|
  {
    if |bs| == 0 then cats
    else UpsertCategories(UpsertCategory(cats, bs[0].name, mint), bs[1..], mint)
  }

  lemma {:induction false} UpsertCategoriesSpec(cats: seq<Category>, bs: seq<Bucket>, mint: Mint)
    decreases |bs|
    ensures CategoryNames(UpsertCategories(cats, bs, mint)) == CategoryNames(cats) + Names(bs)
    ensures cats <= UpsertCategories(cats, bs, mint)
  {
    if |bs| > 0 {
      var c1 := UpsertCategory(cats, bs[0].name, mint);
      if bs[0].name !in CategoryNames(cats) {
        assert c1[..|c1| - 1] == cats;
      }
      UpsertCategoriesSpec(c1, bs[1..], mint);
    }
  }

  // ---------------------------------------------------------------- operations

  /**
   * `syncServices`: fetch the provider's list (`None` when the call throws), price every
   * entry with the one markup read from the settings, group the entries by category and
   * upsert categories by name and services by upstream id. Each bucket upserts its
   * category, then its services; the two tables are independent, so the model applies
   * all category upserts and then all service upserts in the same bucket order.
   */
  function SyncServices(db: Db, fetched: Option<seq<Upstream>>, price: (real, real) -> real, mint: Mint): (r: Result<Db>)
    ensures fetched.None? <==> r.Err?
    ensures r.Ok? ==> r.value.orders == db.orders && r.value.payments == db.payments
                      && r.value.credits == db.credits && r.value.markup == db.markup
    ensures r.Ok? ==> |db.services| <= |r.value.services|
  {
    match fetched
    case None => Err("Failed to sync services")
    case Some(ups) =>
      var bs := Group(ups);
      var m := SyncMarkup(db);
      Ok(db.(categories := UpsertCategories(db.categories, bs, mint),
             services := UpsertAll(db.services, Flatten(bs), m, price, mint)))
  }

  /** A permutation of the provider's list names the same upstream ids. */
  lemma SameIds(ups: seq<Upstream>, items: seq<Upstream>)
    requires multiset(items) == multiset(ups)
    ensures forall sid :: LastWithId(items, sid).Some? <==> sid in ServiceIds(ups)
  {
    forall sid ensures LastWithId(items, sid).Some? <==> sid in ServiceIds(ups) {
      LastWithIdIn(items, sid);
      assert (exists i :: 0 <= i < |items| && items[i].service == sid) <==> sid in ServiceIds(ups) by {
        if exists i :: 0 <= i < |items| && items[i].service == sid {
          var i :| 0 <= i < |items| && items[i].service == sid;
          assert items[i] in multiset(ups);
          var j :| 0 <= j < |ups| && ups[j] == items[i];
          ServiceIdsIn(ups, sid);
        }
        if sid in ServiceIds(ups) {
          ServiceIdsIn(ups, sid);
          var j :| 0 <= j < |ups| && ups[j].service == sid;
          assert ups[j] in multiset(items);
        }
      }
    }
  }

  /** What upserting a list of entries, whose upstream ids are `ids`, does to the service rows. */
  lemma UpsertAllFacts(prev: seq<Service>, items: seq<Upstream>, ids: set<int>, m: real,
                       price: (real, real) -> real, mint: Mint)
    requires forall sid :: LastWithId(items, sid).Some? <==> sid in ids
    ensures var r := UpsertAll(prev, items, m, price, mint);
            && |prev| <= |r|
            && (forall i :: 0 <= i < |prev| ==>
                  && r[i].id == prev[i].id
                  && r[i].serviceId == prev[i].serviceId
                  && r[i].description == prev[i].description)
            && (forall i :: 0 <= i < |prev| && prev[i].serviceId !in ids ==> r[i] == prev[i])
            && (forall i :: 0 <= i < |r| && r[i].serviceId in ids ==> r[i].rate == price(r[i].originalRate, m))
            && (forall i :: |prev| <= i < |r| ==> r[i].description.None?)
            && (forall sid :: sid in ids ==> HasId(r, sid))
  {
    var r := UpsertAll(prev, items, m, price, mint);
    UpsertAllSpec(prev, items, m, price, mint);
    forall i | 0 <= i < |r| && r[i].serviceId in ids
      ensures r[i].rate == price(r[i].originalRate, m)
    {
      if i < |prev| {
        var u := LastWithId(items, prev[i].serviceId).value;
        assert r[i] == Refresh(prev[i], u, m, price);
      }
    }
    forall sid | sid in ids ensures HasId(r, sid) {
      if HasId(prev, sid) {
        var i :| 0 <= i < |prev| && prev[i].serviceId == sid;
        assert r[i].serviceId == sid;
      } else {
        LastWithIdIn(items, sid);
        UpsertKeepsIds(prev, items, sid, m, price, mint);
      }
    }
  }

  /**
   * After a sync, every row whose upstream id the provider listed carries
   * `rate = price(originalRate, m)` for the one markup `m` in force; rows already stored keep
   * their key and their description; rows the provider did not list are untouched; every
   * listed id is stored; and the category names are the prev ones plus the listed categories.
   */
  lemma SyncServicesSpec(db: Db, ups: seq<Upstream>, price: (real, real) -> real, mint: Mint)
    ensures var r := SyncServices(db, Some(ups), price, mint).value;
            && |db.services| <= |r.services|
            && (forall i :: 0 <= i < |db.services| ==>
                  && r.services[i].id == db.services[i].id
                  && r.services[i].serviceId == db.services[i].serviceId
                  && r.services[i].description == db.services[i].description)
            && (forall i :: 0 <= i < |db.services| && db.services[i].serviceId !in ServiceIds(ups) ==>
                  r.services[i] == db.services[i])
            && (forall i :: 0 <= i < |r.services| && r.services[i].serviceId in ServiceIds(ups) ==>
                  r.services[i].rate == price(r.services[i].originalRate, SyncMarkup(db)))
            && (forall i :: |db.services| <= i < |r.services| ==> r.services[i].description.None?)
            && (forall sid :: sid in ServiceIds(ups) ==> HasId(r.services, sid))
            && CategoryNames(r.categories) == CategoryNames(db.categories) + Categories(ups)
  {
    var bs := Group(ups);
    var items := Flatten(bs);
    var m := SyncMarkup(db);
    var r := SyncServices(db, Some(ups), price, mint).value;
    assert r.services == UpsertAll(db.services, items, m, price, mint);
    assert r.categories == UpsertCategories(db.categories, bs, mint);
    GroupNames(ups);
    GroupFlatten(ups);
    UpsertCategoriesSpec(db.categories, bs, mint);
    SameIds(ups, items);
    UpsertAllFacts(db.services, items, ServiceIds(ups), m, price, mint);
  }

  function ServiceIds(ups: seq<Upstream>): set<int>
  {
    if |ups| == 0 then {} else ServiceIds(ups[..|ups| - 1]) + {ups[|ups| - 1].service}
  }

  lemma {:induction false} ServiceIdsIn(ups: seq<Upstream>, sid: int)
    ensures sid in ServiceIds(ups) <==> exists j :: 0 <= j < |ups| && ups[j].service == sid
  {
    if |ups| > 0 {
      var p := ups[..|ups| - 1];
      ServiceIdsIn(p, sid);
      if exists j :: 0 <= j < |ups| && ups[j].service == sid {
        var j :| 0 <= j < |ups| && ups[j].service == sid;
        if j < |p| { assert p[j] == ups[j]; }
      }
      if exists j :: 0 <= j < |p| && p[j].service == sid {
        var j :| 0 <= j < |p| && p[j].service == sid;
        assert ups[j] == p[j];
      }
    }
  }

  lemma {:induction false} LastWithIdIn(items: seq<Upstream>, sid: int)
    ensures LastWithId(items, sid).Some? <==> exists i :: 0 <= i < |items| && items[i].service == sid
    ensures LastWithId(items, sid).Some? ==> LastWithId(items, sid).value.service == sid
  {
    if |items| > 0 {
      var p := items[..|items| - 1];
      LastWithIdIn(p, sid);
      if exists i :: 0 <= i < |items| && items[i].service == sid {
        var i :| 0 <= i < |items| && items[i].service == sid;
        if i < |p| { assert p[i] == items[i]; }
      }
      if exists i :: 0 <= i < |p| && p[i].service == sid {
        var i :| 0 <= i < |p| && p[i].service == sid;
        assert items[i] == p[i];
      }
    }
  }

  /** Every id written by a run of upserts is stored afterwards. */
  lemma {:induction false} UpsertKeepsIds(prev: seq<Service>, items: seq<Upstream>, sid: int,
                                          m: real, price: (real, real) -> real, mint: Mint)
    requires exists i :: 0 <= i < |items| && items[i].service == sid
    ensures HasId(UpsertAll(prev, items, m, price, mint), sid)
  {
    var p := items[..|items| - 1];
    var u := items[|items| - 1];
    var r0 := UpsertAll(prev, p, m, price, mint);
    var r := Upsert(r0, u, m, price, mint);
    if u.service == sid {
      if Any(r0, (s: Service) => s.serviceId == u.service) {
        var k :| 0 <= k < |r0| && r0[k].serviceId == sid;
        assert r[k].serviceId == sid;
      } else {
        assert r[|r0|].serviceId == sid;
      }
    } else {
      var i :| 0 <= i < |items| && items[i].service == sid;
      assert i < |p| && p[i] == items[i];
      UpsertKeepsIds(prev, p, sid, m, price, mint);
      var k :| 0 <= k < |r0| && r0[k].serviceId == sid;
      assert r[k].serviceId == sid;
    }
  }

  // ---------------------------------------------------------------- markup

  /** What `updateServiceMarkup` leaves behind: the store's contents and the success flag it returns. */
  datatype MarkupUpdate = MarkupUpdate(db: Db, ok: bool)

  /**
   * Whether service `i` is repriced when the store rejects write `failAt`: the setting is
   * write 0 and service `i` is write `1 + i`.
   */
  predicate Repriced(failAt: Option<nat>, i: int)
  {
    failAt.None? || i + 1 < failAt.value
  }

  /**
   * `updateServiceMarkup`: persist `m` as `default_markup`, then rewrite `rate` of every
   * stored service from its `originalRate`, one write per service. `failAt` is the write
   * the store rejects (`None` when it accepts them all); the writes before it stay, and
   * the source reports failure.
   */
  function UpdateServiceMarkup(db: Db, m: real, price: (real, real) -> real, failAt: Option<nat>): (r: MarkupUpdate)
    ensures r.ok <==> failAt.None? || failAt.value > |db.services|
    ensures failAt == Some(0) ==> r.db == db
    ensures failAt != Some(0) ==> r.db.markup == Some(m)
    ensures |r.db.services| == |db.services|
    ensures forall i :: 0 <= i < |db.services| ==>
              r.db.services[i] == if Repriced(failAt, i) then db.services[i].(rate := price(db.services[i].originalRate, m))
                                  else db.services[i]
    ensures r.db.(services := db.services, markup := db.markup) == db
  {
    if failAt == Some(0) then MarkupUpdate(db, false)
    else
      var services := seq(|db.services|, i requires 0 <= i < |db.services| =>
                        if Repriced(failAt, i) then db.services[i].(rate := price(db.services[i].originalRate, m))
                        else db.services[i]);
      MarkupUpdate(db.(markup := Some(m), services := services), failAt.None? || failAt.value > |db.services|)
  }

  /** The markup just stored is the one the next sync prices with. */
  lemma MarkupThenSync(db: Db, m: real, price: (real, real) -> real, ups: seq<Upstream>, mint: Mint)
    ensures var d := UpdateServiceMarkup(db, m, price, None).db;
            forall i :: 0 <= i < |SyncServices(d, Some(ups), price, mint).value.services| ==>
              var s := SyncServices(d, Some(ups), price, mint).value.services[i];
              s.serviceId in ServiceIds(ups) || i < |db.services| ==> s.rate == price(s.originalRate, m)
  {
    var d := UpdateServiceMarkup(db, m, price, None).db;
    assert SyncMarkup(d) == m;
    SyncServicesSpec(d, ups, price, mint);
  }

  /**
   * Rates are recomputed from `originalRate`, so only the last markup update matters: a
   * complete update repairs whatever an earlier one, finished or cut short, left behind.
   */
  lemma MarkupLastWins(db: Db, m1: real, m2: real, price: (real, real) -> real, failAt: Option<nat>)
    ensures var d1 := UpdateServiceMarkup(db, m1, price, failAt).db;
            UpdateServiceMarkup(d1, m2, price, None) == UpdateServiceMarkup(db, m2, price, None)
  {
    var d1 := UpdateServiceMarkup(db, m1, price, failAt).db;
    var a := UpdateServiceMarkup(d1, m2, price, None).db;
    var b := UpdateServiceMarkup(db, m2, price, None).db;
    assert a.services == b.services;
  }

  /**
   * A run cut short after the setting is written reports failure, yet the stored setting
   * already says `m` while the service whose write failed keeps the rate of the old markup.
   */
  lemma PartialMarkupMixesRates(db: Db, m: real, price: (real, real) -> real, k: nat)
    requires 1 <= k <= |db.services|
    ensures var r := UpdateServiceMarkup(db, m, price, Some(k));
            && !r.ok
            && r.db.markup == Some(m)
            && r.db.services[k - 1] == db.services[k - 1]
            && (forall i :: 0 <= i < k - 1 ==> r.db.services[i].rate == price(db.services[i].originalRate, m))
  {
  }

  // ---------------------------------------------------------------- lookups and descriptions

  /** The service as the library returns it: an empty description reads as none. */
  function View(s: Service): Service
  {
    if s.description == Some("") then s.(description := None) else s
  }

  /** `getServiceById`: lookup by the provider's service id. */
  function GetServiceById(db: Db, sid: int): (r: Option<Service>)
    ensures r.None? <==> !HasId(db.services, sid)
    ensures r.Some? ==> r.value.serviceId == sid
    ensures r.Some? ==> exists i :: 0 <= i < |db.services| && r.value == View(db.services[i])
  {
    match First(db.services, (s: Service) => s.serviceId == sid)
    case None => None
    case Some(s) => Some(View(s))
  }

  /**
   * `updateServiceDescription`: fails when no service has that provider id, or when the
   * store's update throws (`stored` false); both are caught as the same failure.
   */
  function UpdateServiceDescription(db: Db, sid: int, text: string, stored: bool): (r: Result<Db>)
    ensures r.Err? <==> !HasId(db.services, sid) || !stored
    ensures r.Err? ==> r == Err("Failed to update description")
    ensures r.Ok? ==> r.value.(services := db.services) == db
    ensures r.Ok? ==> |r.value.services| == |db.services|
    ensures r.Ok? ==> forall i :: 0 <= i < |db.services| ==>
              r.value.services[i] == if db.services[i].serviceId == sid
                                     then db.services[i].(description := Some(text))
                                     else db.services[i]
  {
    if !Any(db.services, (s: Service) => s.serviceId == sid) || !stored then Err("Failed to update description")
    else Ok(db.(services := UpdateWhere(db.services, (s: Service) => s.serviceId == sid,
                                        (s: Service) => s.(description := Some(text)))))
  }

  /** An admin description survives any later sync. */
  lemma DescriptionSurvivesSync(db: Db, sid: int, text: string, ups: seq<Upstream>,
                                price: (real, real) -> real, mint: Mint)
    requires HasId(db.services, sid)
    ensures var d := UpdateServiceDescription(db, sid, text, true).value;
            var r := SyncServices(d, Some(ups), price, mint).value;
            forall i :: 0 <= i < |db.services| && db.services[i].serviceId == sid ==>
              r.services[i].description == Some(text)
  {
    var d := UpdateServiceDescription(db, sid, text, true).value;
    SyncServicesSpec(d, ups, price, mint);
  }

  // ---------------------------------------------------------------- listing

  const ByName: (Service, Service) -> bool := (a: Service, b: Service) => Text.StrLe(a.name, b.name)
  const ByCategoryName: (Category, Category) -> bool := (a: Category, b: Category) => Text.StrLe(a.name, b.name)

  lemma NameOrders()
    ensures Sorting.TotalPreorder(ByName)
    ensures Sorting.TotalPreorder(ByCategoryName)
  {
    forall a: string, b: string ensures Text.StrLe(a, b) || Text.StrLe(b, a) { Text.StrLeTotal(a, b); }
    forall a: string, b: string, c: string | Text.StrLe(a, b) && Text.StrLe(b, c) ensures Text.StrLe(a, c) {
      Text.StrLeTrans(a, b, c);
    }
  }

  datatype CategoryView = CategoryView(id: Id, name: string, services: seq<Service>)

  function Views(s: seq<Service>): (r: seq<Service>)
    ensures |r| == |s| && forall i :: 0 <= i < |s| ==> r[i] == View(s[i])
  {
    seq(|s|, i requires 0 <= i < |s| => View(s[i]))
  }

  /** `service.findMany({ where: { category: name } })` */
  function InCategory(svcs: seq<Service>, name: string): (r: seq<Service>)
    ensures forall s :: s in r <==> s in svcs && s.category == name
  {
    Filter(svcs, (s: Service) => s.category == name)
  }

  /** One category of the listing: its services, viewed and sorted by name. */
  function ViewOf(db: Db, c: Category): (r: CategoryView)
    ensures r.id == c.id && r.name == c.name
    ensures Sorting.Sorted(r.services, ByName)
    ensures multiset(r.services) == multiset(Views(InCategory(db.services, c.name)))
  {
    NameOrders();
    CategoryView(c.id, c.name, Sorting.Sort(Views(InCategory(db.services, c.name)), ByName))
  }

  /**
   * `getAllCategories`: every category in name order, each with its own services in name
   * order (names compared by code unit; see README).
   */
  function GetAllCategories(db: Db): (r: seq<CategoryView>)
    ensures |r| == |db.categories|
    ensures forall i, j :: 0 <= i < j < |r| ==> Text.StrLe(r[i].name, r[j].name)
    ensures forall k :: 0 <= k < |r| ==> Category(r[k].id, r[k].name) in db.categories
    ensures multiset(CategoriesOf(r)) == multiset(db.categories)
    ensures forall k :: 0 <= k < |r| ==>
              && Sorting.Sorted(r[k].services, ByName)
              && multiset(r[k].services) == multiset(Views(InCategory(db.services, r[k].name)))
  {
    NameOrders();
    var cats := Sorting.Sort(db.categories, ByCategoryName);
    ViewsNameTheirCategories(db, cats);
    assert forall k :: 0 <= k < |cats| ==> cats[k] in db.categories by {
      forall k | 0 <= k < |cats| ensures cats[k] in db.categories {
        assert cats[k] in multiset(cats);
      }
    }
    ListingFacts(db, cats);
    ViewsOf(db, cats)
  }

  lemma ListingFacts(db: Db, cats: seq<Category>)
    requires Sorting.Sorted(cats, ByCategoryName)
    requires forall k :: 0 <= k < |cats| ==> cats[k] in db.categories
    ensures var r := ViewsOf(db, cats);
            && (forall i, j :: 0 <= i < j < |r| ==> Text.StrLe(r[i].name, r[j].name))
            && (forall k :: 0 <= k < |r| ==> Category(r[k].id, r[k].name) in db.categories)
            && (forall k :: 0 <= k < |r| ==>
                  && Sorting.Sorted(r[k].services, ByName)
                  && multiset(r[k].services) == multiset(Views(InCategory(db.services, r[k].name))))
  {
    var r := ViewsOf(db, cats);
    forall i, j | 0 <= i < j < |r| ensures Text.StrLe(r[i].name, r[j].name) {
      assert ByCategoryName(cats[i], cats[j]);
    }
    forall k | 0 <= k < |r| ensures Category(r[k].id, r[k].name) in db.categories {
      assert Category(r[k].id, r[k].name) == cats[k];
    }
  }

  /** The category each view of a listing stands for. */
  function CategoriesOf(views: seq<CategoryView>): seq<Category>
  {
    seq(|views|, k requires 0 <= k < |views| => Category(views[k].id, views[k].name))
  }

  lemma ViewsNameTheirCategories(db: Db, cats: seq<Category>)
    ensures CategoriesOf(ViewsOf(db, cats)) == cats
  {
    var r := ViewsOf(db, cats);
    assert forall k :: 0 <= k < |cats| ==> CategoriesOf(r)[k] == cats[k];
  }

  function ViewsOf(db: Db, cats: seq<Category>): (r: seq<CategoryView>)
    ensures |r| == |cats| && forall k :: 0 <= k < |cats| ==> r[k] == ViewOf(db, cats[k])
  {
    seq(|cats|, k requires 0 <= k < |cats| => ViewOf(db, cats[k]))
  }

  /** Every listed service belongs to the category it is listed under. */
  lemma ListedUnderOwnCategory(db: Db)
    ensures var r := GetAllCategories(db);
      forall k, s :: 0 <= k < |r| && s in r[k].services ==> s.category == r[k].name
  {
    var r := GetAllCategories(db);
    forall k, s | 0 <= k < |r| && s in r[k].services ensures s.category == r[k].name {
      var vs := Views(InCategory(db.services, r[k].name));
      assert s in multiset(vs);
      var i :| 0 <= i < |vs| && vs[i] == s;
    }
  }
}

=== FILE: checkout.dfy ===
/**
 * The routes that start and capture a payment for an existing order
 * (`src/app/api/payments/paypal`, `binance` and `nowpayments`, and the PayPal capture
 * route). Each answer of a processor is a parameter; `stored` says whether the payment
 * insert or update succeeds.
 */
module Checkout {
  import opened Wrappers
  import opened Store
  import opened Tables
  import Payments
  import Orders
  import NowPaymentsClient

  /** `getOrderById(orderId, user.id)` succeeds: the order exists and is the caller's. */
  predicate Owns(db: Db, orderId: Id, userId: Id)
  {
    orderId in db.orders && db.orders[orderId].userId == userId
  }

  /** The new pending payment for the caller's order, at the order's frozen amount. */
  function PendingFor(db: Db, userId: Id, orderId: Id, via: Method, newId: Id): Payment
    requires orderId in db.orders
  {
    Payment(newId, userId, Some(orderId), db.orders[orderId].amount, via, PaymentPending, None, None)
  }

  // ---------------------------------------------------------------- PayPal

  datatype Link = Link(rel: string, href: string)

  /** The PayPal order the processor creates: its id and HATEOAS links. */
  datatype PaypalOrder = PaypalOrder(id: string, links: seq<Link>)

  /**
   * `reference` is the `reference_id` PayPal was asked to carry (set when the processor
   * was called), `approvalUrl` the link returned on success.
   */
  datatype Started = Started(status: int, db: Db, reference: Option<Id>, approvalUrl: Option<string>)

  /**
   * `POST /api/payments/paypal`. `orderId` is the body's field (`None` when missing; the
   * outer `None` when the body does not parse); `paypal` is the created PayPal order,
   * `None` when the call throws.
   */
  function PostPaypal(db: Db, user: Option<Id>, body: Option<Option<string>>, newId: Id, stored: bool,
                      paypal: Option<PaypalOrder>): (r: Started)
    ensures r.status == 401 <==> user.None?
    ensures var ok := user.Some? && body.Some? && Present(body.value).Some? && Owns(db, body.value.value, user.value) && stored;
            && (!ok ==> r.db == db && r.reference.None? && r.status != 200)
            && (ok ==> r.db == db.(payments := db.payments + [PendingFor(db, user.value, body.value.value, Paypal, newId)])
                       && r.reference == Some(body.value.value))
    ensures user.Some? && body.Some? && Present(body.value).Some? && !Owns(db, body.value.value, user.value) ==> r.status == 404
    ensures r.status == 200 <==>
              r.reference.Some? && paypal.Some? && Any(paypal.value.links, (l: Link) => l.rel == "approve")
    ensures r.status == 200 ==>
              exists i :: 0 <= i < |paypal.value.links| && paypal.value.links[i].rel == "approve"
                          && r.approvalUrl == Some(paypal.value.links[i].href)
                          && forall j :: 0 <= j < i ==> paypal.value.links[j].rel != "approve"
    ensures r.status != 200 ==> r.approvalUrl.None?
  {
    if user.None? then Started(401, db, None, None)
    else if body.None? then Started(500, db, None, None)
    else if Present(body.value).None? then Started(400, db, None, None)
    else
      var orderId := body.value.value;
      if !Owns(db, orderId, user.value) then Started(404, db, None, None)
      else match Payments.CreatePayment(db, user.value, orderId, db.orders[orderId].amount, Paypal, newId, stored)
        case Err(_) => Started(500, db, None, None)
        case Ok(d) =>
          match paypal
          case None => Started(500, d, Some(orderId), None)
          case Some(po) =>
            match FirstIndex(po.links, (l: Link) => l.rel == "approve")
            case None => Started(500, d, Some(orderId), None)
            case Some(i) => Started(200, d, Some(orderId), Some(po.links[i].href))
  }

  /**
   * The reference PayPal carries back is the order id, and the webhook's lookup by that
   * id finds a payment of this order — the first one made for it, which is the new one
   * only if the order had none before.
   */
  lemma PaypalReferenceFindsPayment(db: Db, u: Id, orderId: Id, newId: Id, paypal: Option<PaypalOrder>)
    requires Present(Some(orderId)).Some? && Owns(db, orderId, u)
    ensures var r := PostPaypal(db, Some(u), Some(Some(orderId)), newId, true, paypal);
            var found := First(r.db.payments, (p: Payment) => p.orderId == Some(orderId));
            && r.reference == Some(orderId)
            && found.Some? && found.value.orderId == Some(orderId)
            && (found.value.id == newId <== forall p :: p in db.payments ==> p.orderId != Some(orderId))
  {
    var r := PostPaypal(db, Some(u), Some(Some(orderId)), newId, true, paypal);
    var p := PendingFor(db, u, orderId, Paypal, newId);
    assert r.db.payments[|db.payments|] == p;
    if forall q :: q in db.payments ==> q.orderId != Some(orderId) {
      var found := First(r.db.payments, (q: Payment) => q.orderId == Some(orderId));
      assert found.value in db.payments || found.value == p;
    }
  }

  // ---------------------------------------------------------------- Binance Pay

  /** The Binance Pay `createOrder` answer: its `status` and the checkout data. */
  datatype BinanceOrder = BinanceOrder(status: string, prepayId: string, checkoutUrl: string)

  /**
   * `POST /api/payments/binance`: as the PayPal route, but the created order must report
   * `SUCCESS`, else 500 with the pending payment left in place. The order id is sent as
   * `merchantTradeNo` (`reference`).
   */
  function PostBinance(db: Db, user: Option<Id>, body: Option<Option<string>>, newId: Id, stored: bool,
                       binance: Option<BinanceOrder>): (r: Started)
    ensures r.status == 401 <==> user.None?
    ensures var ok := user.Some? && body.Some? && Present(body.value).Some? && Owns(db, body.value.value, user.value) && stored;
            && (!ok ==> r.db == db && r.reference.None? && r.status != 200)
            && (ok ==> r.db == db.(payments := db.payments + [PendingFor(db, user.value, body.value.value, Binance, newId)])
                       && r.reference == Some(body.value.value))
    ensures user.Some? && body.Some? && Present(body.value).Some? && !Owns(db, body.value.value, user.value) ==> r.status == 404
    ensures r.status == 200 <==> r.reference.Some? && binance.Some? && binance.value.status == "SUCCESS"
    ensures r.status == 200 ==> r.approvalUrl == Some(binance.value.checkoutUrl)
  {
    if user.None? then Started(401, db, None, None)
    else if body.None? then Started(500, db, None, None)
    else if Present(body.value).None? then Started(400, db, None, None)
    else
      var orderId := body.value.value;
      if !Owns(db, orderId, user.value) then Started(404, db, None, None)
      else match Payments.CreatePayment(db, user.value, orderId, db.orders[orderId].amount, Binance, newId, stored)
        case Err(_) => Started(500, db, None, None)
        case Ok(d) =>
          match binance
          case None => Started(500, d, Some(orderId), None)
          case Some(bo) =>
            if bo.status != "SUCCESS" then Started(500, d, Some(orderId), None)
            else Started(200, d, Some(orderId), Some(bo.checkoutUrl))
  }

  /** A refused Binance order still leaves a pending payment behind. */
  lemma BinanceRefusalKeepsPayment(db: Db, u: Id, orderId: Id, newId: Id, bo: BinanceOrder)
    requires Present(Some(orderId)).Some? && Owns(db, orderId, u) && bo.status != "SUCCESS"
    ensures var r := PostBinance(db, Some(u), Some(Some(orderId)), newId, true, Some(bo));
            && r.status == 500
            && r.db.payments[|r.db.payments| - 1] == PendingFor(db, u, orderId, Binance, newId)
  {
  }

  // ---------------------------------------------------------------- NOWPayments

  datatype NowRequest = NowRequest(amount: Option<real>, orderId: Option<string>)

  datatype Linked = Linked(status: int, db: Db, paymentUrl: Option<string>)

  /**
   * `POST /api/payments/nowpayments`: a pending payment at the client's amount for the
   * client's order id, neither checked against the orders, and the hosted payment link.
   * `paymentUrl` is the configured link, `fmt2` is `toFixed(2)`.
   */
  function PostNowPayment(db: Db, user: Option<Id>, body: Option<NowRequest>, newId: Id, stored: bool,
                          paymentUrl: string, fmt2: real -> string): (r: Linked)
    ensures r.status == 401 <==> user.None?
    ensures r.status == 200 <==>
              user.Some? && body.Some? && body.value.amount.Some? && body.value.amount.value != 0.0
              && Present(body.value.orderId).Some? && stored
    ensures r.status != 200 ==> r.db == db && r.paymentUrl.None?
    ensures r.status == 200 ==>
              var b := body.value;
              && r.db == db.(payments := db.payments + [Payment(newId, user.value, Some(b.orderId.value), b.amount.value, NowPayments, PaymentPending, None, None)])
              && r.paymentUrl == Some(NowPaymentsClient.DirectPaymentUrl(paymentUrl, b.amount.value, b.orderId.value, fmt2))
  {
    if user.None? then Linked(401, db, None)
    else if body.None? then Linked(500, db, None)
    else
      var b := body.value;
      if b.amount.None? || b.amount.value == 0.0 || Present(b.orderId).None? then Linked(400, db, None)
      else match Payments.CreatePayment(db, user.value, b.orderId.value, b.amount.value, NowPayments, newId, stored)
        case Err(_) => Linked(500, db, None)
        case Ok(d) => Linked(200, d, Some(NowPaymentsClient.DirectPaymentUrl(paymentUrl, b.amount.value, b.orderId.value, fmt2)))
  }

  /**
   * Nothing checks who owns the order or what it costs: a user can open a payment, at any
   * non-zero amount (a negative one included), for an order another user owns, and it is
   * recorded as the caller's pending payment for that order.
   */
  lemma NowPaymentForAnyOrder(db: Db, u: Id, orderId: Id, amount: real, newId: Id, paymentUrl: string, fmt2: real -> string)
    requires orderId != "" && orderId in db.orders && db.orders[orderId].userId != u && amount != 0.0
    ensures var r := PostNowPayment(db, Some(u), Some(NowRequest(Some(amount), Some(orderId))), newId, true, paymentUrl, fmt2);
            && r.status == 200
            && r.db.payments[|r.db.payments| - 1] == Payment(newId, u, Some(orderId), amount, NowPayments, PaymentPending, None, None)
            && r.db.payments[|r.db.payments| - 1].userId != r.db.orders[orderId].userId
  {
  }

  /**
   * `GET /api/payments/nowpayments?paymentId=`: 401 without a session, 400 without the
   * parameter, otherwise the processor's status (`remote`, `None` when the call throws).
   */
  function GetNowPayment(user: Option<Id>, paymentId: Option<string>, remote: Option<string>): (r: (int, Option<string>))
    ensures r.0 == 401 <==> user.None?
    ensures user.Some? && Present(paymentId).None? ==> r.0 == 400
    ensures r.0 == 200 <==> user.Some? && Present(paymentId).Some? && remote.Some?
    ensures r.0 == 200 ==> r.1 == remote
  {
    if user.None? then (401, None)
    else if Present(paymentId).None? then (400, None)
    else if remote.None? then (500, None)
    else (200, remote)
  }

  /**
   * The processor is asked only once the session and the parameter are there: before that
   * its answer cannot change the reply, and after it two replies differ exactly when the
   * processor's answers do. The route never answers with a status it did not receive, and
   * it has no statuses beyond these four.
   */
  lemma GetNowPaymentAsksLast(user: Option<Id>, paymentId: Option<string>, remote1: Option<string>, remote2: Option<string>)
    ensures user.None? || Present(paymentId).None? ==>
              GetNowPayment(user, paymentId, remote1) == GetNowPayment(user, paymentId, remote2)
    ensures user.Some? && Present(paymentId).Some? ==>
              (GetNowPayment(user, paymentId, remote1) == GetNowPayment(user, paymentId, remote2) <==> remote1 == remote2)
    ensures GetNowPayment(user, paymentId, remote1).1.Some? ==> GetNowPayment(user, paymentId, remote1).1 == remote1
    ensures GetNowPayment(user, paymentId, remote1).0 in {200, 400, 401, 500}
  {
  }

  // ---------------------------------------------------------------- PayPal capture

  datatype CaptureRequest = CaptureRequest(paypalOrderId: Option<string>, paymentId: Option<string>)

  /** PayPal's capture answer: its `status` and `id` (`None` when absent). */
  datatype Capture = Capture(status: string, id: Option<string>)

  /** `order` is the submitted provider order id, `null` (`None`) when the submission failed. */
  datatype Captured = Captured(status: int, db: Db, sent: Option<Orders.PlaceCall>, order: Option<string>)

  /**
   * `POST /api/payments/paypal/capture`: capture, mark the payment completed with the
   * capture id, then submit the payment's order. `capture` is `None` when the call throws;
   * `reply` is the fulfilment provider's answer.
   */
  function PostCapture(db: Db, body: Option<CaptureRequest>, capture: Option<Capture>, stored: bool,
                       reply: Orders.ProviderReply): (r: Captured)
    ensures r.status != 200 ==> r.db == db && r.sent.None?
    ensures (&& body.Some? && Present(body.value.paypalOrderId).Some? && Present(body.value.paymentId).Some?
             && capture.Some? && capture.value.status != "COMPLETED") ==> r == Captured(500, db, None, None)
    ensures r.status == 200 <==>
              && body.Some? && Present(body.value.paypalOrderId).Some? && Present(body.value.paymentId).Some?
              && capture.Some? && capture.value.status == "COMPLETED"
              && Payments.UpdatePaymentStatus(db, body.value.paymentId.value, PaymentCompleted, capture.value.id, stored).Ok?
    ensures r.status == 200 ==>
              var u := Payments.UpdatePaymentStatus(db, body.value.paymentId.value, PaymentCompleted, capture.value.id, stored).value;
              && (u.1.orderId.None? ==> r.db == u.0 && r.sent.None? && r.order.None?)
              && (u.1.orderId.Some? ==>
                    var s := Orders.SubmitOrder(u.0, u.1.orderId.value, reply);
                    r.db == s.db && r.sent == s.sent && (r.order.Some? <==> s.result.Ok?))
  {
    if body.None? then Captured(500, db, None, None)
    else
      var b := body.value;
      if Present(b.paypalOrderId).None? || Present(b.paymentId).None? then Captured(400, db, None, None)
      else match capture
        case None => Captured(500, db, None, None)
        case Some(c) =>
          if c.status != "COMPLETED" then Captured(500, db, None, None)
          else match Payments.UpdatePaymentStatus(db, b.paymentId.value, PaymentCompleted, c.id, stored)
            case Err(_) => Captured(500, db, None, None)
            case Ok((d, p)) =>
              match p.orderId
              case None => Captured(200, d, None, None)
              case Some(oid) =>
                var s := Orders.SubmitOrder(d, oid, reply);
                Captured(200, s.db, s.sent, if s.result.Ok? then Some(s.result.value) else None)
  }

  /** Capturing twice marks the payment twice but reaches the provider at most once. */
  lemma CaptureTwiceSubmitsOnce(db: Db, b: CaptureRequest, c: Capture, r1: Orders.ProviderReply, r2: Orders.ProviderReply)
    requires Payments.UniqueIds(db.payments)
    requires PostCapture(db, Some(b), Some(c), true, r1).status == 200
    requires PostCapture(db, Some(b), Some(c), true, r1).order.Some?
    ensures var d := PostCapture(db, Some(b), Some(c), true, r1).db;
            var again := PostCapture(d, Some(b), Some(c), true, r2);
            again.status == 200 && again.sent.None? && again.order.None?
  {
    var u := Payments.UpdatePaymentStatus(db, b.paymentId.value, PaymentCompleted, c.id, true).value;
    var oid := u.1.orderId.value;
    var d := Orders.SubmitOrder(u.0, oid, r1).db;
    assert PostCapture(db, Some(b), Some(c), true, r1).db == d;
    assert d.payments == u.0.payments;
    assert Payments.HasPayment(u.0, b.paymentId.value) by {
      var k :| 0 <= k < |db.payments| && db.payments[k].id == b.paymentId.value;
      assert u.0.payments[k].id == b.paymentId.value;
    }
    var u2 := Payments.UpdatePaymentStatus(d, b.paymentId.value, PaymentCompleted, c.id, true).value;
    assert u2.1.orderId == Some(oid) by {
      assert u2.1 in d.payments && u2.1.id == b.paymentId.value;
      SameIdSameOrder(db, b.paymentId.value, c.id, u2.1);
      assert u2.1.orderId == u.1.orderId;
    }
    CaptureOfSubmitted(d, b, c, r2, oid);
  }

  /** A capture whose payment leads to an order already sent to the provider sends nothing. */
  lemma CaptureOfSubmitted(d: Db, b: CaptureRequest, c: Capture, reply: Orders.ProviderReply, oid: Id)
    requires Present(b.paypalOrderId).Some? && Present(b.paymentId).Some? && c.status == "COMPLETED"
    requires Payments.HasPayment(d, b.paymentId.value)
    requires Payments.UpdatePaymentStatus(d, b.paymentId.value, PaymentCompleted, c.id, true).value.1.orderId == Some(oid)
    requires oid in d.orders && Submitted(d.orders[oid])
    ensures var again := PostCapture(d, Some(b), Some(c), true, reply);
            again.status == 200 && again.sent.None? && again.order.None?
  {
    var u := Payments.UpdatePaymentStatus(d, b.paymentId.value, PaymentCompleted, c.id, true).value;
    assert u.0.orders == d.orders;
  }

  /**
   * Updating a payment keeps its order link: every row under `id` after the update
   * is the row `UpdatePaymentStatus` reported, provided payment keys are unique.
   */
  lemma SameIdSameOrder(db: Db, id: Id, tx: Option<string>, q: Payment)
    requires Payments.UniqueIds(db.payments)
    requires Payments.HasPayment(db, id)
    requires q in Payments.UpdatePaymentStatus(db, id, PaymentCompleted, tx, true).value.0.payments && q.id == id
    ensures q == Payments.UpdatePaymentStatus(db, id, PaymentCompleted, tx, true).value.1
  {
    var u := Payments.UpdatePaymentStatus(db, id, PaymentCompleted, tx, true).value;
    var j :| 0 <= j < |u.0.payments| && u.0.payments[j] == q;
    var m :| 0 <= m < |u.0.payments| && u.0.payments[m] == u.1;
    assert db.payments[j].id == id && db.payments[m].id == id;
  }
}

=== FILE: credit_order.dfy ===
/**
 * `POST /api/orders/credit` (`src/app/api/orders/credit/route.ts`): an order paid from the
 * credit ledger. The service is looked up by its store key (not the provider id
 * `createOrder` takes), the balance is the ledger formula, and a sufficient balance leads
 * to three writes in order: a pending order, a usage entry for its amount, and the order's
 * move to processing once the provider has answered.
 */
module CreditOrder {
  import opened Wrappers
  import opened Store
  import opened Tables
  import Ledger
  import Orders
  import Text

  /** The fields of the JSON body the route reads; a field of another JSON type is left out. */
  datatype Body = Body(serviceId: Option<string>, link: Option<string>, quantity: Option<int>)

  /** `!quantity` is false for a number other than 0. */
  predicate QuantityGiven(q: Option<int>) { q.Some? && q.value != 0 }

  predicate FieldsGiven(b: Body)
  {
    Present(b.serviceId).Some? && Present(b.link).Some? && QuantityGiven(b.quantity)
  }

  /** `prisma.service.findUnique({ where: { id } })` */
  function ServiceByKey(db: Db, id: Id): (r: Option<Service>)
    ensures r.Some? ==> r.value in db.services && r.value.id == id
    ensures r.None? <==> forall s :: s in db.services ==> s.id != id
  {
    First(db.services, (s: Service) => s.id == id)
  }

  /** What the checks before the first write decide. */
  datatype Verdict = Reject(status: int) | Accept(service: Service, amount: real, balance: real)

  /**
   * The checks of the route, in the route's order: missing fields 400, unknown service 404,
   * quantity out of bounds 400, insufficient balance 400.
   */
  function Check(db: Db, userId: Id, b: Body): (r: Verdict)
    ensures !FieldsGiven(b) ==> r == Reject(400)
    ensures FieldsGiven(b) && ServiceByKey(db, b.serviceId.value).None? ==> r == Reject(404)
    ensures (&& FieldsGiven(b) && ServiceByKey(db, b.serviceId.value).Some?
             && var s := ServiceByKey(db, b.serviceId.value).value;
             b.quantity.value < s.min || b.quantity.value > s.max)
            ==> r == Reject(400)
    ensures r.Reject? ==> r.status in {400, 404}
    ensures r.Accept? <==>
              && FieldsGiven(b)
              && ServiceByKey(db, b.serviceId.value).Some?
              && var s := ServiceByKey(db, b.serviceId.value).value;
              && s.min <= b.quantity.value <= s.max
              && Orders.Amount(s.rate, b.quantity.value) <= Ledger.Balance(Ledger.ForUser(db.credits, userId))
    ensures r.Accept? ==>
              && r.service == ServiceByKey(db, b.serviceId.value).value
              && r.amount == Orders.Amount(r.service.rate, b.quantity.value)
              && r.balance == Ledger.Balance(Ledger.ForUser(db.credits, userId))
              && r.amount <= r.balance
  {
    if !FieldsGiven(b) then Reject(400)
    else match ServiceByKey(db, b.serviceId.value)
      case None => Reject(404)
      case Some(s) =>
        var q := b.quantity.value;
        if q < s.min || q > s.max then Reject(400)
        else
          var amount := Orders.Amount(s.rate, q);
          var balance := Ledger.Balance(Ledger.ForUser(db.credits, userId));
          if balance < amount then Reject(400) else Accept(s, amount, balance)
  }

  /** The ledger row of the debit. */
  function UsageEntry(entryId: Id, userId: Id, amount: real, orderId: Id, now: int): CreditEntry
  {
    CreditEntry(entryId, userId, amount, Usage, Some(orderId), None, now)
  }

  /** A usage row lowers its owner's balance by its amount. */
  lemma UsageDebits(credits: seq<CreditEntry>, u: Id, amount: real, entryId: Id, orderId: Id, now: int)
    ensures Ledger.Balance(Ledger.ForUser(credits + [UsageEntry(entryId, u, amount, orderId, now)], u))
            == Ledger.Balance(Ledger.ForUser(credits, u)) - amount
  {
    var e := UsageEntry(entryId, u, amount, orderId, now);
    assert Ledger.Delta(e) == -amount;
    Ledger.AppendOwn(credits, e);
  }

  /** The order row the route creates before it calls the provider. */
  function PendingOrder(u: Id, b: Body, s: Service, amount: real, orderId: Id): Order
    requires FieldsGiven(b)
  {
    Order(orderId, u, s.id, b.link.value, b.quantity.value, amount, Pending, None)
  }

  /** The store after the two writes: the pending order and the usage row that debits its amount. */
  function Charged(db: Db, u: Id, b: Body, s: Service, amount: real, orderId: Id, entryId: Id, now: int): Db
    requires FieldsGiven(b)
  {
    db.(orders := db.orders[orderId := PendingOrder(u, b, s, amount, orderId)],
        credits := db.credits + [UsageEntry(entryId, u, amount, orderId, now)])
  }

  /**
   * Whether both inserts go through: write 0 is `order.create`, write 1 `credit.create`;
   * `failAt` names the first insert that throws, and any other index fails none of them.
   */
  predicate Inserted(failAt: Option<nat>) { failAt.None? || failAt.value > 1 }

  /** The store the inserts leave: nothing when the order insert throws, the bare order when the debit throws. */
  function ChargedUpTo(db: Db, u: Id, b: Body, s: Service, amount: real, orderId: Id, entryId: Id, now: int,
                       failAt: Option<nat>): Db
    requires FieldsGiven(b)
  {
    if failAt == Some(0) then db
    else if failAt == Some(1) then db.(orders := db.orders[orderId := PendingOrder(u, b, s, amount, orderId)])
    else Charged(db, u, b, s, amount, orderId, entryId, now)
  }

  datatype Outcome = Outcome(status: int, db: Db, sent: Option<Orders.PlaceCall>, remaining: Option<real>)

  /**
   * The route. `user` is the session's user; `body` is `None` when the body does not parse
   * (a thrown error, 500). `orderId` and `entryId` are the generated keys, `now` the
   * creation time of the ledger row, `failAt` the first of the two inserts that throws
   * (see `Inserted`), and `reply` the provider's answer. A throwing insert is caught as a
   * 500 before the provider is called; when it is the debit, the pending order stays.
   *
   * This is the corrected route, and it differs from the source in three ways: the
   * provider is called through a client instance; the call passes the service id, link
   * and quantity as the three arguments `placeOrder(service, link, quantity)` takes
   * (`smmcost.ts:49-60`), where the source passes one object; and the provider's numeric
   * order number is stored as its decimal text, since `apiOrderId` is a string
   * (`types/index.ts:42`, `orders.ts:90`), where the source stores the number itself.
   */
  function PostCreditOrder(db: Db, user: Option<Id>, body: Option<Body>, orderId: Id, entryId: Id, now: int,
                           failAt: Option<nat>, reply: Orders.ProviderReply): (r: Outcome)
    requires orderId !in db.orders
    ensures r.status == 401 <==> user.None?
    ensures !(user.Some? && body.Some? && Check(db, user.value, body.value).Accept?) ==>
              r.db == db && r.sent.None? && r.status != 200
    ensures user.Some? && body.Some? && Check(db, user.value, body.value).Accept? && failAt == Some(0) ==>
              r == Outcome(500, db, None, None)
    ensures user.Some? && body.Some? && Check(db, user.value, body.value).Accept? && failAt == Some(1) ==>
              var v := Check(db, user.value, body.value);
              && r.status == 500 && r.sent.None? && r.remaining.None?
              && r.db == db.(orders := db.orders[orderId := PendingOrder(user.value, body.value, v.service, v.amount, orderId)])
    ensures r.sent.Some? <==> user.Some? && body.Some? && Check(db, user.value, body.value).Accept? && Inserted(failAt)
    ensures r.sent.Some? ==>
              var v := Check(db, user.value, body.value);
              var b := body.value;
              && r.sent.value == Orders.PlaceCall(v.service.serviceId, b.link.value, b.quantity.value)
              && r.db.credits == db.credits + [UsageEntry(entryId, user.value, v.amount, orderId, now)]
              && r.db.orders.Keys == db.orders.Keys + {orderId}
              && (forall k :: k in db.orders ==> r.db.orders[k] == db.orders[k])
              && r.db == db.(orders := r.db.orders, credits := r.db.credits)
              && var o := r.db.orders[orderId];
              && o.userId == user.value && o.serviceRef == v.service.id && o.amount == v.amount
              && o.link == b.link.value && o.quantity == b.quantity.value
              && (reply.Placed? ==> o.status == Processing && o.apiOrderId == Some(Text.Decimal(reply.order)))
              && (!reply.Placed? ==> o.status == Pending && o.apiOrderId.None?)
    ensures r.status == 200 <==> r.sent.Some? && reply.Placed?
    ensures r.remaining.Some? <==> r.status == 200
    ensures r.remaining.Some? ==>
              && r.remaining.value == Check(db, user.value, body.value).balance - Check(db, user.value, body.value).amount
              && r.remaining.value >= 0.0
  {
    match user
    case None => Outcome(401, db, None, None)
    case Some(u) =>
      match body
      case None => Outcome(500, db, None, None)
      case Some(b) =>
        match Check(db, u, b)
        case Reject(status) => Outcome(status, db, None, None)
        case Accept(s, amount, balance) =>
          var pending := PendingOrder(u, b, s, amount, orderId);
          var written := Charged(db, u, b, s, amount, orderId, entryId, now);
          var call := Orders.PlaceCall(s.serviceId, b.link.value, b.quantity.value);
          if !Inserted(failAt) then Outcome(500, ChargedUpTo(db, u, b, s, amount, orderId, entryId, now, failAt), None, None)
          else match reply
          case Unavailable => Outcome(500, written, Some(call), None)
          case Unrecorded(_) => Outcome(500, written, Some(call), None)
          case Placed(n) =>
            var placed := pending.(apiOrderId := Some(Text.Decimal(n)), status := Processing);
            Outcome(200, written.(orders := db.orders[orderId := placed]), Some(call), Some(balance - amount))
  }

  /**
   * The debit is exactly the order's amount: once both inserts go through, the caller's
   * ledger balance is the old balance minus the amount, never negative, and equal to the
   * `remainingCredits` the route reports; when an insert throws, the balance is untouched.
   */
  lemma {:induction false} DebitMatchesRemaining(db: Db, u: Id, b: Body, orderId: Id, entryId: Id, now: int,
                                                 failAt: Option<nat>, reply: Orders.ProviderReply)
    requires orderId !in db.orders
    requires Check(db, u, b).Accept?
    ensures var r := PostCreditOrder(db, Some(u), Some(b), orderId, entryId, now, failAt, reply);
            var v := Check(db, u, b);
            Inserted(failAt) ==>
              && Ledger.Balance(Ledger.ForUser(r.db.credits, u)) == v.balance - v.amount
              && Ledger.Balance(Ledger.ForUser(r.db.credits, u)) >= 0.0
              && (r.status == 200 ==> r.remaining == Some(v.balance - v.amount))
    ensures var r := PostCreditOrder(db, Some(u), Some(b), orderId, entryId, now, failAt, reply);
            !Inserted(failAt) ==> Ledger.Balance(Ledger.ForUser(r.db.credits, u)) == Check(db, u, b).balance
  {
    var v := Check(db, u, b);
    AcceptedWrites(db, u, b, orderId, entryId, now, failAt, reply);
    if Inserted(failAt) {
      DebitArith(db.credits, u, v.amount, v.balance, entryId, orderId, now);
    }
  }

  /**
   * A debit insert that throws leaves an orphan: the reply is 500 and the provider is never
   * called, yet the pending order is stored while the balance is untouched, so the same
   * request under a fresh order id is accepted again and a second order is created.
   */
  lemma OrphanOrderWithoutDebit(db: Db, u: Id, b: Body, orderId: Id, entryId: Id, now: int, reply: Orders.ProviderReply)
    requires orderId !in db.orders
    requires Check(db, u, b).Accept?
    ensures var r := PostCreditOrder(db, Some(u), Some(b), orderId, entryId, now, Some(1), reply);
            && r.status == 500 && r.sent.None?
            && orderId in r.db.orders && r.db.orders[orderId].status == Pending && r.db.orders[orderId].apiOrderId.None?
            && r.db.credits == db.credits
            && Check(r.db, u, b) == Check(db, u, b)
  {
  }

  lemma DebitArith(credits: seq<CreditEntry>, u: Id, amount: real, balance: real, entryId: Id, orderId: Id, now: int)
    requires balance == Ledger.Balance(Ledger.ForUser(credits, u)) && amount <= balance
    ensures var after := Ledger.Balance(Ledger.ForUser(credits + [UsageEntry(entryId, u, amount, orderId, now)], u));
            after == balance - amount && after >= 0.0
  {
    UsageDebits(credits, u, amount, entryId, orderId, now);
  }

  /**
   * An accepted request whose inserts go through appends the usage row and reports the
   * balance left when it answers 200; one whose insert throws appends nothing.
   */
  lemma AcceptedWrites(db: Db, u: Id, b: Body, orderId: Id, entryId: Id, now: int, failAt: Option<nat>,
                       reply: Orders.ProviderReply)
    requires orderId !in db.orders
    requires Check(db, u, b).Accept?
    ensures var r := PostCreditOrder(db, Some(u), Some(b), orderId, entryId, now, failAt, reply);
            var v := Check(db, u, b);
            && (Inserted(failAt) ==> r.db.credits == db.credits + [UsageEntry(entryId, u, v.amount, orderId, now)])
            && (!Inserted(failAt) ==> r.db.credits == db.credits)
            && v.balance == Ledger.Balance(Ledger.ForUser(db.credits, u))
            && v.amount <= v.balance
            && (r.status == 200 ==> r.remaining == Some(v.balance - v.amount))
  {
  }

  /** A balance equal to the amount is enough; a cent less is not, and nothing is written. */
  lemma {:induction false} ExactBalanceSuffices(db: Db, u: Id, b: Body, orderId: Id, entryId: Id, now: int,
                                                reply: Orders.ProviderReply)
    requires orderId !in db.orders
    requires FieldsGiven(b) && ServiceByKey(db, b.serviceId.value).Some?
    requires var s := ServiceByKey(db, b.serviceId.value).value; s.min <= b.quantity.value <= s.max
    ensures var s := ServiceByKey(db, b.serviceId.value).value;
            var amount := Orders.Amount(s.rate, b.quantity.value);
            var balance := Ledger.Balance(Ledger.ForUser(db.credits, u));
            var r := PostCreditOrder(db, Some(u), Some(b), orderId, entryId, now, None, reply);
            && (balance == amount ==> r.sent.Some?)
            && (balance < amount ==> r == Outcome(400, db, None, None))
  {
  }

  // ---------------------------------------------------------------- as written

  /**
   * The route as written: after the two writes it calls `placeOrder` on the imported module
   * rather than on an `SMMCOSTClient`, and the module exports only the class, so the call
   * throws, the handler's catch answers 500, and the provider is never reached.
   */
  function PostCreditOrderAsWritten(db: Db, user: Option<Id>, body: Option<Body>, orderId: Id, entryId: Id,
                                    now: int): (r: Outcome)
    requires orderId !in db.orders
    ensures r.status != 200 && r.sent.None? && r.remaining.None?
    ensures r.status == 401 <==> user.None?
  {
    match user
    case None => Outcome(401, db, None, None)
    case Some(u) =>
      match body
      case None => Outcome(500, db, None, None)
      case Some(b) =>
        match Check(db, u, b)
        case Reject(status) => Outcome(status, db, None, None)
        case Accept(s, amount, balance) => Outcome(500, Charged(db, u, b, s, amount, orderId, entryId, now), None, None)
  }

  /**
   * Every request the corrected route would accept is, as written, charged and not placed:
   * the usage row lowers the balance by the order's amount, the order stays pending with no
   * provider id, and the reply is a 500. The corrected route places the same order with
   * the same debit.
   */
  lemma {:induction false} AsWrittenChargesWithoutPlacing(db: Db, u: Id, b: Body, orderId: Id, entryId: Id, now: int, n: nat)
    requires orderId !in db.orders
    requires Check(db, u, b).Accept?
    ensures var w := PostCreditOrderAsWritten(db, Some(u), Some(b), orderId, entryId, now);
            var v := Check(db, u, b);
            && w.status == 500 && w.sent.None?
            && Ledger.Balance(Ledger.ForUser(w.db.credits, u)) == v.balance - v.amount
            && orderId in w.db.orders && w.db.orders[orderId].status == Pending && w.db.orders[orderId].apiOrderId.None?
    ensures var c := PostCreditOrder(db, Some(u), Some(b), orderId, entryId, now, None, Orders.Placed(n));
            var w := PostCreditOrderAsWritten(db, Some(u), Some(b), orderId, entryId, now);
            c.status == 200 && c.sent.Some? && c.db.credits == w.db.credits
  {
    var v := Check(db, u, b);
    var w := PostCreditOrderAsWritten(db, Some(u), Some(b), orderId, entryId, now);
    assert w.db == Charged(db, u, b, v.service, v.amount, orderId, entryId, now);
    UsageDebits(db.credits, u, v.amount, entryId, orderId, now);
  }
}

=== FILE: csrf.dfy ===
/** The cross-site request check of `src/lib/auth/csrf.ts`. */
module Csrf {
  import opened Wrappers
  import Store
  import Text

  /** The site's public origins. */
  const SiteOrigin := "https://esh7rni.me"
  const WwwOrigin := "https://www.esh7rni.me"
  const DevOrigin := "http://localhost:3000"

  /**
   * The allowed origins: both schemes of the request's `Host` (a missing host is
   * interpolated as `null`), the two site origins, and the local dev server only when
   * `NODE_ENV` is `development`.
   */
  function AllowedOrigins(host: Option<string>, env: string): (r: seq<string>)
    ensures var h := host.GetOr("null");
            "https://" + h in r && "http://" + h in r && SiteOrigin in r && WwwOrigin in r
    ensures env == "development" ==> DevOrigin in r
    ensures forall o :: o in r ==> o in {"https://" + host.GetOr("null"), "http://" + host.GetOr("null"), SiteOrigin, WwwOrigin, DevOrigin}
  {
    var h := host.GetOr("null");
    ["https://" + h, "http://" + h, SiteOrigin, WwwOrigin] + (if env == "development" then [DevOrigin] else [])
  }

  /** The `Referer` starts with some allowed origin. */
  predicate RefererAllowed(referer: string, allowed: seq<string>)
  {
    exists i :: 0 <= i < |allowed| && Text.StartsWith(referer, allowed[i])
  }

  /**
   * `csrfProtection`'s decision: `true` lets the handler run, `false` is the 403 reply.
   * GET passes unchecked; a present `Origin` must be one of the allowed origins exactly; a
   * present `Referer` must start with one; with neither header the request is refused only
   * in production. Empty header values count as absent.
   */
  function Allows(verb: string, origin: Option<string>, referer: Option<string>, host: Option<string>, env: string): (r: bool)
  {
    if verb == "GET" then true
    else
      var allowed := AllowedOrigins(host, env);
      var o, f := Store.Present(origin), Store.Present(referer);
      if o.Some? && o.value !in allowed then false
      else if f.Some? && !RefererAllowed(f.value, allowed) then false
      else if o.None? && f.None? && env == "production" then false
      else true
  }

  /** A GET is never refused; any other method is refused exactly when one of the three tests fails. */
  lemma AllowsCharacterized(verb: string, origin: Option<string>, referer: Option<string>, host: Option<string>, env: string)
    ensures verb == "GET" ==> Allows(verb, origin, referer, host, env)
    ensures verb != "GET" ==>
      (Allows(verb, origin, referer, host, env) <==>
        var allowed := AllowedOrigins(host, env);
        && (origin.Some? && origin.value != "" ==> origin.value in allowed)
        && (referer.Some? && referer.value != "" ==> RefererAllowed(referer.value, allowed))
        && (env == "production" ==> (origin.Some? && origin.value != "") || (referer.Some? && referer.value != "")))
  {
  }

  /** A request from the site's own host, by either scheme, passes. */
  lemma SameHostPasses(verb: string, host: string, env: string, path: string)
    ensures Allows(verb, Some("https://" + host), None, Some(host), env)
    ensures Allows(verb, Some("http://" + host), Some("http://" + host + path), Some(host), env)
  {
    var allowed := AllowedOrigins(Some(host), env);
    assert allowed[1] == "http://" + host;
    Text.StartsWithConcat("http://" + host, path);
    assert RefererAllowed("http://" + host + path, allowed);
  }

  /** An origin outside the list is refused whatever the referer says. */
  lemma ForeignOriginRefused(verb: string, origin: string, referer: Option<string>, host: Option<string>, env: string)
    requires verb != "GET" && origin != "" && origin !in AllowedOrigins(host, env)
    ensures !Allows(verb, Some(origin), referer, host, env)
  {
  }

  /** The origin comparison is exact: a trailing slash makes the site's own origin foreign. */
  lemma TrailingSlashRefused(env: string)
    ensures !Allows("POST", Some(SiteOrigin + "/"), None, Some("esh7rni.me"), env)
  {
    var allowed := AllowedOrigins(Some("esh7rni.me"), env);
    assert |SiteOrigin + "/"| == 19;
    assert forall i :: 0 <= i < |allowed| ==> |allowed[i]| != 19;
  }

  /**
   * The referer comparison is a prefix test, so any referer that merely begins with the
   * site's origin passes it: `https://esh7rni.me.attacker.example/form` included.
   */
  lemma LookalikeRefererPasses(suffix: string, host: Option<string>, env: string)
    requires suffix != ""
    ensures Allows("POST", None, Some(SiteOrigin + suffix), host, env)
  {
    var allowed := AllowedOrigins(host, env);
    Text.StartsWithConcat(SiteOrigin, suffix);
    assert allowed[2] == SiteOrigin;
    assert RefererAllowed(SiteOrigin + suffix, allowed);
  }

  /** Without `Origin` or `Referer` a state-changing request passes exactly outside production. */
  lemma HeaderlessPassesOutsideProduction(verb: string, host: Option<string>, env: string)
    requires verb != "GET"
    ensures Allows(verb, None, None, host, env) <==> env != "production"
  {
  }

  /** The local dev server is an allowed origin only in development (unless it is the host). */
  lemma LocalhostOnlyInDevelopment(verb: string, host: Option<string>, env: string)
    requires verb != "GET" && host != Some("localhost:3000")
    ensures Allows(verb, Some(DevOrigin), None, host, env) <==> env == "development"
  {
    var h := host.GetOr("null");
    var secure := "https://" + h;
    assert secure[4] == "https://"[4] == 's';
    assert DevOrigin[4] == ':';
    assert ("http://" + h)[7..] == h;
    assert DevOrigin[7..] == "localhost:3000";
  }
}

=== FILE: headers.dfy ===
/** The response hardening of `src/lib/security/headers.ts`. */
module SecurityHeaders {
  import opened Http

  const ContentSecurityPolicy :=
    "default-src 'self'; script-src 'self' 'unsafe-inline' 'unsafe-eval' https://cdn.jsdelivr.net https://www.google-analytics.com https://www.googletagmanager.com; style-src 'self' 'unsafe-inline' https://fonts.googleapis.com; img-src 'self' data: https:; font-src 'self' https://fonts.gstatic.com; connect-src 'self' https://api.smmcost.com https://www.google-analytics.com; frame-src 'self' https://www.youtube.com https://player.vimeo.com; object-src 'none';"

  /**
   * HTTP Strict Transport Security for one year (31536000 seconds), subdomains included,
   * with the preload token (section 6.1 of RFC 6797).
   */
  const StrictTransportSecurity := "max-age=31536000; includeSubDomains; preload"

  /** The six headers every environment gets. */
  const Always: map<string, string> := map[
    "content-security-policy" := ContentSecurityPolicy,
    "x-xss-protection" := "1; mode=block",
    "x-frame-options" := "SAMEORIGIN",
    "x-content-type-options" := "nosniff",
    "referrer-policy" := "strict-origin-when-cross-origin",
    "permissions-policy" := "camera=(), microphone=(), geolocation=(), interest-cohort=()"
  ]

  /** The headers set for `NODE_ENV` `env`: HSTS is added only in production. */
  function Hardening(env: string): (r: map<string, string>)
    ensures "strict-transport-security" in r <==> env == "production"
    ensures env == "production" ==> r["strict-transport-security"] == StrictTransportSecurity
    ensures forall k :: k in Always ==> k in r && r[k] == Always[k]
  {
    if env == "production" then Always["strict-transport-security" := StrictTransportSecurity] else Always
  }

  /**
   * `securityHeaders` applied to the handler's response: status and body are carried over,
   * the hardening headers are set over the handler's own, and the handler's other headers
   * are kept.
   */
  function Overlay(response: Response, env: string): (r: Response)
    ensures r.status == response.status && r.body == response.body
    ensures forall k :: k in r.headers <==> k in response.headers || k in Hardening(env)
    ensures forall k :: k in Hardening(env) ==> r.headers[k] == Hardening(env)[k]
    ensures forall k :: k in response.headers && k !in Hardening(env) ==> r.headers[k] == response.headers[k]
  {
    response.(headers := response.headers + Hardening(env))
  }

  /** The hardening never sets `content-type`, so the handler's own survives. */
  lemma ContentTypeKept(response: Response, env: string)
    requires "content-type" in response.headers
    ensures "content-type" in Overlay(response, env).headers
    ensures Overlay(response, env).headers["content-type"] == response.headers["content-type"]
  {
    assert "content-type" !in Hardening(env);
  }

  /** Wrapping twice changes nothing more. */
  lemma OverlayIdempotent(response: Response, env: string)
    ensures Overlay(Overlay(response, env), env) == Overlay(response, env)
  {
    MergeTwice(response.headers, Hardening(env));
  }

  lemma MergeTwice(m: map<string, string>, h: map<string, string>)
    ensures (m + h) + h == m + h
  {
  }

  // ---------------------------------------------------------------- as written

  /** The framework's reply when a route handler throws: a bare 500. */
  const Unhandled := Response(500, map[], "")

  /**
   * `securityHeaders` as written: it assigns the handler's status and body to the fresh
   * response's `status` and `body`, which a Fetch `Response` exposes through getters only.
   * Module code is strict, so the first assignment throws a TypeError once the handler
   * has run, and the framework answers in its place.
   */
  function OverlayAsWritten(response: Response, env: string): (r: Response)
    ensures r.status == 500 && r.headers == map[]
  {
    Unhandled
  }

  /**
   * Whatever the handler answers, the wrapper as written loses it: any reply other than a
   * 500 comes out differently from the corrected `Overlay`, and no reply keeps the
   * hardening headers.
   */
  lemma OverlayAsWrittenLosesReply(response: Response, env: string)
    requires response.status != 500
    ensures OverlayAsWritten(response, env) != Overlay(response, env)
    ensures forall k :: k in Hardening(env) ==> k !in OverlayAsWritten(response, env).headers
  {
  }
}

=== FILE: http.dfy ===
/**
 * Requests and responses as the route wrappers see them. Header names are lower case, as
 * the `Headers` object stores them; a body is the parsed JSON, or `None` when it does not
 * parse.
 */
module Http {
  import opened Wrappers
  import opened Json

  datatype Request = Request(verb: string, url: string, headers: map<string, string>, body: Option<Json>)

  datatype Response = Response(status: int, headers: map<string, string>, body: string)

  /** `headers.get(name)`: `null` when the header is absent. */
  function Header(headers: map<string, string>, name: string): Option<string>
  {
    if name in headers then Some(headers[name]) else None
  }

  /** The JSON error replies the wrappers send themselves. */
  function JsonError(status: int, message: string): (r: Response)
    ensures r.status == status && r.headers == map["content-type" := "application/json"]
  {
    Response(status, map["content-type" := "application/json"], "{\"success\":false,\"error\":\"" + message + "\"}")
  }
}

=== FILE: json.dfy ===
/** Parsed JSON values, as `JSON.parse` produces them (objects keep their own keys in order). */
module Json {
  import opened Wrappers

  datatype Json =
    | JNull
    | JBool(b: bool)
    | JNum(n: real)
    | JStr(s: string)
    | JArr(items: seq<Json>)
    | JObj(fields: seq<(string, Json)>)

  /** `obj[key]` on a parsed object: the last binding of `key` wins, as in `JSON.parse`. */
  function Get(fields: seq<(string, Json)>, key: string): (r: Option<Json>)
    ensures r.None? <==> forall i :: 0 <= i < |fields| ==> fields[i].0 != key
    ensures r.Some? ==> exists i :: 0 <= i < |fields| && fields[i] == (key, r.value)
                                   && forall j :: i < j < |fields| ==> fields[j].0 != key
  {
    if |fields| == 0 then None
    else if fields[|fields| - 1].0 == key then Some(fields[|fields| - 1].1)
    else Get(fields[..|fields| - 1], key)
  }
}

=== FILE: ledger.dfy ===
/**
 * The credit ledger (`src/app/api/credits/route.ts`): a user's balance is not stored but
 * derived from their ledger entries, purchases and bonuses counting up, usage and refunds
 * counting down, entries of any other type not at all.
 */
module Ledger {
  import opened Wrappers
  import opened Store
  import opened Tables
  import Sorting

  /** What one entry contributes to the balance. */
  function Delta(e: CreditEntry): real
  {
    match e.kind
    case Purchase => e.amount
    case Bonus => e.amount
    case Usage => -e.amount
    case Refund => -e.amount
    case OtherKind(_) => 0.0
  }

  /** `credits.reduce((total, credit) => ..., 0)`: a left fold over the entries. */
  function Balance(es: seq<CreditEntry>): real
  {
    if |es| == 0 then 0.0 else Balance(es[..|es| - 1]) + Delta(es[|es| - 1])
  }

  predicate IsCredit(e: CreditEntry) { e.kind.Purchase? || e.kind.Bonus? }

  predicate IsDebit(e: CreditEntry) { e.kind.Usage? || e.kind.Refund? }

  /** Sum of the amounts of the entries satisfying `p`. */
  function SumOf(es: seq<CreditEntry>, p: CreditEntry -> bool): real
  {
    if |es| == 0 then 0.0 else (if p(es[0]) then es[0].amount else 0.0) + SumOf(es[1..], p)
  }

  lemma {:induction false} SumOfConcat(a: seq<CreditEntry>, b: seq<CreditEntry>, p: CreditEntry -> bool)
    ensures SumOf(a + b, p) == SumOf(a, p) + SumOf(b, p)
  {
    if |a| == 0 {
      assert a + b == b;
    } else {
      assert (a + b)[1..] == a[1..] + b;
      SumOfConcat(a[1..], b, p);
    }
  }

  lemma {:induction false} BalanceConcat(a: seq<CreditEntry>, b: seq<CreditEntry>)
    ensures Balance(a + b) == Balance(a) + Balance(b)
    decreases |b|
  {
    if |b| == 0 {
      assert a + b == a;
    } else {
      var c := a + b;
      assert c[..|c| - 1] == a + b[..|b| - 1];
      assert c[|c| - 1] == b[|b| - 1];
      BalanceConcat(a, b[..|b| - 1]);
    }
  }

  /** The balance is the purchases and bonuses minus the usage and refunds. */
  lemma {:induction false} BalanceIsCreditsMinusDebits(es: seq<CreditEntry>)
    ensures Balance(es) == SumOf(es, IsCredit) - SumOf(es, IsDebit)
  {
    if |es| > 0 {
      var init, last := es[..|es| - 1], es[|es| - 1];
      assert es == init + [last];
      BalanceIsCreditsMinusDebits(init);
      SumOfConcat(init, [last], IsCredit);
      SumOfConcat(init, [last], IsDebit);
    }
  }

  /** Whether the balance formula looks at an entry at all. */
  predicate Counted(e: CreditEntry) { !e.kind.OtherKind? }

  /** Entries of any other type can be dropped without changing the balance. */
  lemma {:induction false} OtherKindsIgnored(es: seq<CreditEntry>)
    ensures Balance(Filter(es, Counted)) == Balance(es)
  {
    if |es| > 0 {
      var h, t := es[0], es[1..];
      assert es == [h] + t;
      var hs := if Counted(h) then [h] else [];
      assert Filter(es, Counted) == hs + Filter(t, Counted);
      OtherKindsIgnored(t);
      BalanceConcat(hs, Filter(t, Counted));
      BalanceConcat([h], t);
      assert Balance([h]) == Delta(h) by { assert [h][..0] == []; }
      assert Balance(hs) == Delta(h);
    }
  }

  /** The balance does not depend on the order the entries are read in. */
  lemma {:induction false} BalancePermutation(a: seq<CreditEntry>, b: seq<CreditEntry>)
    requires multiset(a) == multiset(b)
    ensures Balance(a) == Balance(b)
    decreases |a|
  {
    if |a| > 0 {
      var x := a[|a| - 1];
      assert x in multiset(b);
      var i :| 0 <= i < |b| && b[i] == x;
      assert b == b[..i] + [x] + b[i + 1..];
      var rest := b[..i] + b[i + 1..];
      assert a == a[..|a| - 1] + [x];
      assert multiset(a[..|a| - 1]) == multiset(rest) by {
        calc {
          multiset(b);
          multiset(b[..i] + [x] + b[i + 1..]);
          multiset(b[..i]) + multiset([x]) + multiset(b[i + 1..]);
          multiset(rest) + multiset([x]);
        }
        assert multiset(a) == multiset(a[..|a| - 1]) + multiset([x]);
        assert multiset(a[..|a| - 1]) == multiset(a) - multiset([x]);
        assert multiset(rest) == multiset(b) - multiset([x]);
      }
      BalancePermutation(a[..|a| - 1], rest);
      BalanceConcat(b[..i] + [x], b[i + 1..]);
      BalanceConcat(b[..i], [x]);
      BalanceConcat(b[..i], b[i + 1..]);
      assert Balance([x]) == Delta(x) by { assert [x][..0] == []; }
    }
  }

  /** `findMany({ where: { userId } })` */
  function ForUser(credits: seq<CreditEntry>, userId: Id): (r: seq<CreditEntry>)
    ensures forall e :: e in r <==> e in credits && e.userId == userId
  {
    Filter(credits, (e: CreditEntry) => e.userId == userId)
  }

  /** An entry of another user never moves a user's balance. */
  lemma OtherUsersIgnored(credits: seq<CreditEntry>, userId: Id, e: CreditEntry)
    requires e.userId != userId
    ensures Balance(ForUser(credits + [e], userId)) == Balance(ForUser(credits, userId))
  {
    var mine := (c: CreditEntry) => c.userId == userId;
    FilterConcat(credits, [e], mine);
    assert Filter([e], mine) == [] by { assert [e][1..] == []; }
    assert Filter(credits, mine) + [] == Filter(credits, mine);
  }

  /** Appending one of the user's own entries moves their balance by exactly its delta. */
  lemma AppendOwn(credits: seq<CreditEntry>, e: CreditEntry)
    ensures Balance(ForUser(credits + [e], e.userId)) == Balance(ForUser(credits, e.userId)) + Delta(e)
  {
    var mine := (c: CreditEntry) => c.userId == e.userId;
    FilterConcat(credits, [e], mine);
    assert Filter([e], mine) == [e] by { assert [e][1..] == []; }
    BalanceConcat(Filter(credits, mine), [e]);
    assert Balance([e]) == Delta(e) by { assert [e][..0] == []; }
  }

  /** `orderBy: { createdAt: "desc" }` */
  const NewestFirst := (a: CreditEntry, b: CreditEntry) => a.createdAt >= b.createdAt

  lemma NewestFirstOrders()
    ensures Sorting.TotalPreorder(NewestFirst)
  {
  }

  /**
   * `credits.slice(0, 10)` of the newest-first list: at most ten entries, newest first,
   * and nothing left out is newer than anything kept.
   */
  function NewestTen(es: seq<CreditEntry>): (r: seq<CreditEntry>)
    ensures |r| == if |es| < 10 then |es| else 10
    ensures multiset(r) <= multiset(es)
    ensures Sorting.Sorted(r, NewestFirst)
    ensures forall e, i :: e in multiset(es) - multiset(r) && 0 <= i < |r| ==> e.createdAt <= r[i].createdAt
  {
    NewestFirstOrders();
    var sorted := Sorting.Sort(es, NewestFirst);
    var k := if |sorted| < 10 then |sorted| else 10;
    NewestDropped(sorted, k);
    sorted[..k]
  }

  /** In a newest-first sequence, what follows a prefix is no newer than anything in it. */
  lemma NewestDropped(s: seq<CreditEntry>, k: nat)
    requires k <= |s|
    requires Sorting.Sorted(s, NewestFirst)
    ensures multiset(s[..k]) <= multiset(s)
    ensures Sorting.Sorted(s[..k], NewestFirst)
    ensures forall e, i :: e in multiset(s) - multiset(s[..k]) && 0 <= i < k ==> e.createdAt <= s[i].createdAt
  {
    var head, tail := s[..k], s[k..];
    assert multiset(s) == multiset(head) + multiset(tail) by {
      assert s == head + tail;
    }
    assert Sorting.Sorted(head, NewestFirst) by {
      forall i, j | 0 <= i < j < |head| ensures NewestFirst(head[i], head[j]) {
        assert head[i] == s[i] && head[j] == s[j];
      }
    }
    forall e, i | e in multiset(s) - multiset(head) && 0 <= i < k
      ensures e.createdAt <= s[i].createdAt
    {
      assert e in tail;
      var j :| 0 <= j < |tail| && tail[j] == e;
      assert s[k + j] == e;
      assert NewestFirst(s[i], s[k + j]);
    }
  }

  datatype CreditsReply = Unauthorized | Credits(balance: real, recent: seq<CreditEntry>)

  /**
   * `GET /api/credits`: the caller's balance over their own entries and the ten newest of
   * them. `user` is the session's user, `None` when there is no session.
   */
  function GetCredits(db: Db, user: Option<Id>): (r: CreditsReply)
    ensures r.Unauthorized? <==> user.None?
    ensures r.Credits? ==> r.balance == Balance(ForUser(db.credits, user.value))
    ensures r.Credits? ==> r.recent == NewestTen(ForUser(db.credits, user.value))
  {
    match user
    case None => Unauthorized
    case Some(u) =>
      NewestFirstOrders();
      var mine := ForUser(db.credits, u);
      var sorted := Sorting.Sort(mine, NewestFirst);
      BalancePermutation(sorted, mine);
      Credits(Balance(sorted), NewestTen(mine))
  }
}

=== FILE: markup_route.dfy ===
/** `POST /api/services/markup` (`src/app/api/services/markup/route.ts`). */
module MarkupRoute {
  import opened Wrappers
  import opened Store
  import opened Json
  import Catalog

  datatype Reply = Reply(status: int, db: Db)

  /**
   * Reading `body.markupPercentage`: `None` when destructuring throws (the body is JSON
   * `null`), `Some(None)` when the field is undefined, `Some(Some(v))` otherwise.
   */
  function MarkupField(body: Json): Option<Option<Json>>
  {
    match body
    case JNull => None
    case JObj(fields) => Some(Get(fields, "markupPercentage"))
    case _ => Some(None)
  }

  /** `typeof markupPercentage === 'number' && !(markupPercentage < 0)` */
  predicate ValidMarkup(field: Option<Json>)
  {
    field.Some? && field.value.JNum? && field.value.n >= 0.0
  }

  /** The request reaches `updateServiceMarkup`: an admin, a JSON object body and a valid markup. */
  predicate Updates(isAdmin: bool, body: Option<Json>)
  {
    isAdmin && body.Some? && MarkupField(body.value).Some? && ValidMarkup(MarkupField(body.value).value)
  }

  /**
   * The route: admin check first (`isAdmin`), then the body (`None` when it is not JSON),
   * then validation, then `updateServiceMarkup`, whose failure becomes 500. `failAt` is the
   * store write that fails, as in `Catalog.UpdateServiceMarkup`.
   */
  function PostMarkup(db: Db, isAdmin: bool, body: Option<Json>, price: (real, real) -> real, failAt: Option<nat>): (r: Reply)
    ensures !isAdmin ==> r == Reply(403, db)
    ensures r.status == 400 <==>
              isAdmin && body.Some? && MarkupField(body.value).Some? && !ValidMarkup(MarkupField(body.value).value)
    ensures !Updates(isAdmin, body) ==> r.db == db && r.status != 200
    ensures Updates(isAdmin, body) ==>
              var u := Catalog.UpdateServiceMarkup(db, MarkupField(body.value).value.value.n, price, failAt);
              && r.db == u.db
              && r.status == (if u.ok then 200 else 500)
  {
    if !isAdmin then Reply(403, db)
    else if body.None? then Reply(500, db)
    else match MarkupField(body.value)
      case None => Reply(500, db)
      case Some(field) =>
        if !ValidMarkup(field) then Reply(400, db)
        else
          var u := Catalog.UpdateServiceMarkup(db, field.value.n, price, failAt);
          Reply(if u.ok then 200 else 500, u.db)
  }

  /** The admin check comes before the body is read: a non-admin reply does not depend on it. */
  lemma NonAdminIgnoresBody(db: Db, b1: Option<Json>, b2: Option<Json>, price: (real, real) -> real, failAt: Option<nat>)
    ensures PostMarkup(db, false, b1, price, failAt) == PostMarkup(db, false, b2, price, failAt)
  {
  }

  /**
   * A 500 is not a clean refusal: when a service write fails, the new setting and the
   * services written before it are already stored.
   */
  lemma FailedUpdateKeepsSetting(db: Db, body: Json, price: (real, real) -> real, k: nat)
    requires Updates(true, Some(body)) && 1 <= k <= |db.services|
    ensures var n := MarkupField(body).value.value.n;
            var r := PostMarkup(db, true, Some(body), price, Some(k));
            && r.status == 500
            && r.db.markup == Some(n)
            && (forall i :: 0 <= i < k - 1 ==> r.db.services[i].rate == price(db.services[i].originalRate, n))
            && r.db.services[k - 1] == db.services[k - 1]
  {
    Catalog.PartialMarkupMixesRates(db, MarkupField(body).value.value.n, price, k);
  }

  /** Zero is accepted, any negative percentage and any non-number are refused. */
  lemma MarkupBoundary(db: Db, price: (real, real) -> real)
    ensures PostMarkup(db, true, Some(JObj([("markupPercentage", JNum(0.0))])), price, None).status == 200
    ensures PostMarkup(db, true, Some(JObj([("markupPercentage", JNum(-0.5))])), price, None).status == 400
    ensures PostMarkup(db, true, Some(JObj([("markupPercentage", JStr("30"))])), price, None).status == 400
  {
  }
}

=== FILE: middleware.dfy ===
/** The page-route guard of `src/middleware.ts`. */
module RouteGuard {
  import opened Wrappers
  import Text

  /** Pages open to everyone, with everything below them. */
  const PublicRoutes: seq<string> := ["/", "/auth/signin", "/auth/signup", "/auth/verify-request", "/auth/error",
                                      "/services", "/pricing", "/about", "/contact", "/terms", "/privacy"]

  /** Path prefixes let through as plain prefixes (no `/` boundary). */
  const PublicPrefixes: seq<string> := ["/api/auth", "/_next", "/images", "/fonts"]

  /** The session token, when there is one; `role` is the claim the admin test reads. */
  datatype Token = Token(role: Option<string>)

  datatype Verdict =
    | Next
    | RedirectSignIn(callbackUrl: string)
    | RedirectDashboard

  /** `path` is a public route or lies below one. */
  predicate IsPublicRoute(path: string)
  {
    exists i :: 0 <= i < |PublicRoutes| && (path == PublicRoutes[i] || Text.StartsWith(path, PublicRoutes[i] + "/"))
  }

  predicate IsPublicApi(path: string)
  {
    exists i :: 0 <= i < |PublicPrefixes| && Text.StartsWith(path, PublicPrefixes[i])
  }

  predicate IsDashboard(path: string)
  {
    Text.StartsWith(path, "/dashboard")
  }

  predicate IsAdmin(path: string)
  {
    Text.StartsWith(path, "/dashboard/admin")
  }

  /**
   * `middleware`: public pages and prefixes pass; a dashboard page without a token
   * redirects to sign-in with the URL (as `encodeUri` renders it) as `callbackUrl`; an admin
   * page with a token whose role is not `admin` redirects to the dashboard; anything else
   * passes.
   */
  function Guard(path: string, url: string, token: Option<Token>, encodeUri: string -> string): (r: Verdict)
  {
    if IsPublicRoute(path) || IsPublicApi(path) then Next
    else if token.None? && IsDashboard(path) then RedirectSignIn(encodeUri(url))
    else if token.Some? && IsAdmin(path) && token.value.role != Some("admin") then RedirectDashboard
    else Next
  }

  /** No public route or prefix reaches into the dashboard: they all differ at the second character. */
  lemma DashboardNeverPublic(path: string)
    requires IsDashboard(path)
    ensures !IsPublicRoute(path) && !IsPublicApi(path)
  {
    assert path[1] == "/dashboard"[1] == 'd';
    forall i | 0 <= i < |PublicRoutes| ensures path != PublicRoutes[i] && !Text.StartsWith(path, PublicRoutes[i] + "/") {
      var p := PublicRoutes[i] + "/";
      assert |p| >= 2 && p[1] != 'd';
    }
    forall i | 0 <= i < |PublicPrefixes| ensures !Text.StartsWith(path, PublicPrefixes[i]) {
      var p := PublicPrefixes[i];
      assert |p| >= 2 && p[1] != 'd';
    }
  }

  /** Every admin page is a dashboard page. */
  lemma AdminIsDashboard(path: string)
    requires IsAdmin(path)
    ensures IsDashboard(path)
  {
    Text.StartsWithConcat("/dashboard", "/admin");
    Text.StartsWithTrans(path, "/dashboard/admin", "/dashboard");
  }

  /**
   * The guard in full on dashboard pages: without a token, sign-in; with a non-admin token on
   * an admin page, the dashboard; otherwise through.
   */
  lemma DashboardGuarded(path: string, url: string, token: Option<Token>, encodeUri: string -> string)
    requires IsDashboard(path)
    ensures Guard(path, url, token, encodeUri) == RedirectSignIn(encodeUri(url)) <==> token.None?
    ensures Guard(path, url, token, encodeUri) == RedirectDashboard <==>
              token.Some? && IsAdmin(path) && token.value.role != Some("admin")
    ensures Guard(path, url, token, encodeUri) == Next <==>
              token.Some? && (!IsAdmin(path) || token.value.role == Some("admin"))
  {
    DashboardNeverPublic(path);
  }

  /** Outside the dashboard nothing is redirected, signed in or not. */
  lemma OutsideDashboardPasses(path: string, url: string, token: Option<Token>, encodeUri: string -> string)
    requires !IsDashboard(path)
    ensures Guard(path, url, token, encodeUri) == Next
  {
    if IsAdmin(path) {
      AdminIsDashboard(path);
    }
  }

  /**
   * Public routes match whole segments, the public prefixes do not: `/services/x` and
   * `/api/authority` pass as public, `/servicesx` does not.
   */
  lemma SegmentBoundaries()
    ensures IsPublicRoute("/services/x")
    ensures !IsPublicRoute("/servicesx")
    ensures IsPublicApi("/api/authority")
  {
    Text.StartsWithConcat(PublicRoutes[5] + "/", "x");
    assert "/services/x" == PublicRoutes[5] + "/" + "x";
    Text.StartsWithConcat(PublicPrefixes[0], "ority");
    assert "/api/authority" == PublicPrefixes[0] + "ority";
    var p := "/servicesx";
    forall i | 0 <= i < |PublicRoutes| ensures p != PublicRoutes[i] && !Text.StartsWith(p, PublicRoutes[i] + "/") {
      var q := PublicRoutes[i] + "/";
      assert q[|q| - 1] == '/';
    }
  }
}

=== FILE: nowpayments.dfy ===
/**
 * The NOWPayments client's two local decisions (`src/lib/api/nowpayments.ts`): webhook
 * "verification", which only looks for a non-empty signature header, and the hosted
 * payment link built from the configured payment URL.
 */
module NowPaymentsClient {
  import Text

  /** `verifyWebhookSignature`: the `x-nowpayments-sig` header is present and non-empty. */
  function Verify(headers: map<string, string>, body: string): (r: bool)
    ensures r <==> "x-nowpayments-sig" in headers && headers["x-nowpayments-sig"] != ""
  {
    "x-nowpayments-sig" in headers && headers["x-nowpayments-sig"] != ""
  }

  /** The body is never consulted: any signature value admits any body. */
  lemma VerifyIgnoresBody(headers: map<string, string>, b1: string, b2: string)
    ensures Verify(headers, b1) == Verify(headers, b2)
    ensures Verify(map["x-nowpayments-sig" := "x"], b1)
  {
  }

  /**
   * `getDirectPaymentUrl`: the configured `paymentUrl` up to its first `?`, then the
   * amount formatted with `fmt2` (`toFixed(2)`) and the order id as query parameters.
   */
  function DirectPaymentUrl(paymentUrl: string, amount: real, orderId: string, fmt2: real -> string): (r: string)
    ensures Text.StartsWith(r, Text.BeforeFirst(paymentUrl, '?') + "?amount=")
    ensures r[|Text.BeforeFirst(paymentUrl, '?') + "?amount="|..] == fmt2(amount) + "&order_id=" + orderId
  {
    Text.BeforeFirst(paymentUrl, '?') + "?amount=" + fmt2(amount) + "&order_id=" + orderId
  }

  /**
   * The link's own base is the configured base: whatever query the configured URL
   * carried is replaced, never extended, so building a link from a link gives the same
   * base again.
   */
  lemma DirectPaymentUrlBase(paymentUrl: string, amount: real, orderId: string, fmt2: real -> string)
    ensures Text.BeforeFirst(DirectPaymentUrl(paymentUrl, amount, orderId, fmt2), '?') == Text.BeforeFirst(paymentUrl, '?')
    ensures DirectPaymentUrl(DirectPaymentUrl(paymentUrl, amount, orderId, fmt2), amount, orderId, fmt2)
            == DirectPaymentUrl(paymentUrl, amount, orderId, fmt2)
  {
    var base := Text.BeforeFirst(paymentUrl, '?');
    var r := DirectPaymentUrl(paymentUrl, amount, orderId, fmt2);
    assert r == base + ['?'] + ("amount=" + fmt2(amount) + "&order_id=" + orderId);
    Text.BeforeFirstSplit(base, '?', "amount=" + fmt2(amount) + "&order_id=" + orderId);
  }
}

=== FILE: orders.dfy ===
/**
 * The order lifecycle (`src/lib/api/orders.ts`): creation against the catalog, the
 * one-time submission to the fulfilment provider, and status synchronisation. The
 * provider's answers are parameters: an order number or a failure for `placeOrder`, a
 * status string (or failure) for the status queries.
 */
module Orders {
  import opened Wrappers
  import opened Store
  import opened Tables
  import Catalog
  import Text

  /**
   * How the placement step ends: the provider's order number, stored on the order; a
   * thrown provider error; or `Unrecorded(order)`, the provider placed `order` but the
   * store's update of the order then threw.
   */
  datatype ProviderReply = Placed(order: nat) | Unavailable | Unrecorded(order: nat)

  /** The arguments the provider's `placeOrder` is called with. */
  datatype PlaceCall = PlaceCall(service: int, link: string, quantity: int)

  datatype Created = Created(db: Db, result: Result<Id>)

  /** `Quantity must be between ${min} and ${max}` */
  function BoundsMessage(min: int, max: int): string
  {
    "Quantity must be between " + Text.IntStr(min) + " and " + Text.IntStr(max)
  }

  /** `service.rate * quantity / 1000`, frozen on the order. */
  function Amount(rate: real, quantity: int): real
  {
    rate * quantity as real / 1000.0
  }

  /**
   * `createOrder`: look the service up by its provider id, check `min <= quantity <= max`,
   * and insert a `pending` order under the fresh id `newId` that the store generates.
   * `stored` is whether that insert succeeds; when it throws, the catch answers
   * "Failed to create order".
   */
  function CreateOrder(db: Db, userId: Id, sid: int, link: string, quantity: int, newId: Id, stored: bool): (r: Created)
    requires newId !in db.orders
    ensures Catalog.GetServiceById(db, sid).None? ==> r == Created(db, Err("Service not found"))
    ensures (&& Catalog.GetServiceById(db, sid).Some?
             && var s := Catalog.GetServiceById(db, sid).value;
             quantity < s.min || quantity > s.max)
            ==> r == Created(db, Err(BoundsMessage(Catalog.GetServiceById(db, sid).value.min,
                                                   Catalog.GetServiceById(db, sid).value.max)))
    ensures (&& Catalog.GetServiceById(db, sid).Some?
             && Catalog.GetServiceById(db, sid).value.min <= quantity <= Catalog.GetServiceById(db, sid).value.max
             && !stored)
            ==> r == Created(db, Err("Failed to create order"))
    ensures r.result.Ok? <==>
              && stored
              && Catalog.GetServiceById(db, sid).Some?
              && Catalog.GetServiceById(db, sid).value.min <= quantity <= Catalog.GetServiceById(db, sid).value.max
    ensures r.result.Err? ==> r.db == db
    ensures r.result.Ok? ==>
              var s := Catalog.GetServiceById(db, sid).value;
              && r.result.value == newId
              && r.db == db.(orders := db.orders[newId := Order(newId, userId, s.id, link, quantity, Amount(s.rate, quantity), Pending, None)])
  {
    match Catalog.GetServiceById(db, sid)
    case None => Created(db, Err("Service not found"))
    case Some(s) =>
      if quantity < s.min || quantity > s.max then Created(db, Err(BoundsMessage(s.min, s.max)))
      else if !stored then Created(db, Err("Failed to create order"))
      else
        var o := Order(newId, userId, s.id, link, quantity, Amount(s.rate, quantity), Pending, None);
        Created(db.(orders := db.orders[newId := o]), Ok(newId))
  }

  /** Both bounds are accepted; one below the minimum and one above the maximum are not. */
  lemma QuantityBounds(db: Db, userId: Id, sid: int, link: string, newId: Id)
    requires newId !in db.orders
    requires Catalog.GetServiceById(db, sid).Some?
    requires Catalog.GetServiceById(db, sid).value.min <= Catalog.GetServiceById(db, sid).value.max
    ensures var s := Catalog.GetServiceById(db, sid).value;
            && CreateOrder(db, userId, sid, link, s.min, newId, true).result.Ok?
            && CreateOrder(db, userId, sid, link, s.max, newId, true).result.Ok?
            && CreateOrder(db, userId, sid, link, s.min - 1, newId, true).result.Err?
            && CreateOrder(db, userId, sid, link, s.max + 1, newId, true).result.Err?
  {
  }

  /** An order's amount is frozen: a later markup change, complete or not, leaves it as it was. */
  lemma AmountFrozen(db: Db, userId: Id, sid: int, link: string, quantity: int, newId: Id,
                     m: real, price: (real, real) -> real, failAt: Option<nat>)
    requires newId !in db.orders
    requires CreateOrder(db, userId, sid, link, quantity, newId, true).result.Ok?
    ensures var d := CreateOrder(db, userId, sid, link, quantity, newId, true).db;
            Catalog.UpdateServiceMarkup(d, m, price, failAt).db.orders[newId].amount == d.orders[newId].amount
  {
  }

  /**
   * The price is linear in the quantity: two orders cost what one order of both quantities
   * costs, and with a rate that is not negative, more units never cost less.
   */
  lemma AmountLinear(rate: real, q1: int, q2: int)
    ensures Amount(rate, q1 + q2) == Amount(rate, q1) + Amount(rate, q2)
    ensures rate >= 0.0 && q1 <= q2 ==> Amount(rate, q1) <= Amount(rate, q2)
  {
  }

  // ---------------------------------------------------------------- submission

  datatype Submission = Submission(db: Db, sent: Option<PlaceCall>, result: Result<string>)

  /** The order's service row (`include: { service: true }`); `None` when it is missing. */
  function ServiceOf(db: Db, o: Order): Option<Service>
  {
    First(db.services, (s: Service) => s.id == o.serviceRef)
  }

  /**
   * `submitOrderToAPI`: an order that already has a (non-empty) `apiOrderId` is refused
   * before the provider is called; otherwise the provider is called with the service's
   * provider id, the link and the quantity, and only its success writes the order.
   */
  function SubmitOrder(db: Db, orderId: Id, reply: ProviderReply): (r: Submission)
    ensures orderId !in db.orders ==> r == Submission(db, None, Err("Order not found"))
    ensures orderId in db.orders && Submitted(db.orders[orderId]) ==>
              r == Submission(db, None, Err("Order already submitted to API"))
    ensures r.sent.Some? <==>
              orderId in db.orders && !Submitted(db.orders[orderId]) && ServiceOf(db, db.orders[orderId]).Some?
    ensures r.sent.Some? ==>
              var o := db.orders[orderId];
              r.sent == Some(PlaceCall(ServiceOf(db, o).value.serviceId, o.link, o.quantity))
    ensures r.result.Ok? <==> r.sent.Some? && reply.Placed?
    ensures r.result.Err? ==> r.db == db
    ensures r.result.Ok? ==>
              && r.result.value == Text.Decimal(reply.order)
              && r.db == db.(orders := db.orders[orderId := db.orders[orderId].(apiOrderId := Some(r.result.value), status := Processing)])
              && Submitted(r.db.orders[orderId])
  {
    if orderId !in db.orders then Submission(db, None, Err("Order not found"))
    else
      var o := db.orders[orderId];
      if Submitted(o) then Submission(db, None, Err("Order already submitted to API"))
      else match ServiceOf(db, o)
        case None => Submission(db, None, Err("Failed to submit order to API"))
        case Some(s) =>
          var call := PlaceCall(s.serviceId, o.link, o.quantity);
          match reply
          case Unavailable => Submission(db, Some(call), Err("Failed to submit order to API"))
          case Unrecorded(_) => Submission(db, Some(call), Err("Failed to submit order to API"))
          case Placed(n) =>
            var apiId := Text.Decimal(n);
            Submission(db.(orders := db.orders[orderId := o.(apiOrderId := Some(apiId), status := Processing)]),
                       Some(call), Ok(apiId))
  }

  /**
   * Exactly-once submission: after a successful submission a second one never reaches the
   * provider and changes nothing, whatever the provider would answer.
   */
  lemma SubmitExactlyOnce(db: Db, orderId: Id, first: ProviderReply, second: ProviderReply)
    requires SubmitOrder(db, orderId, first).result.Ok?
    ensures var d := SubmitOrder(db, orderId, first).db;
            SubmitOrder(d, orderId, second) == Submission(d, None, Err("Order already submitted to API"))
  {
  }

  /** A provider failure leaves the order unsubmitted, so a retry reaches the provider again. */
  lemma SubmitRetryAfterFailure(db: Db, orderId: Id, second: ProviderReply)
    requires SubmitOrder(db, orderId, Unavailable).sent.Some?
    ensures SubmitOrder(db, orderId, Unavailable).db == db
    ensures SubmitOrder(SubmitOrder(db, orderId, Unavailable).db, orderId, second).sent.Some?
  {
  }

  /**
   * A placement the store fails to record leaves the order unsubmitted, so a retry sends the
   * same call to the provider again: the provider then holds the order twice.
   */
  lemma UnrecordedPlacementRepeats(db: Db, orderId: Id, n: nat, second: ProviderReply)
    requires SubmitOrder(db, orderId, Unrecorded(n)).sent.Some?
    ensures var first := SubmitOrder(db, orderId, Unrecorded(n));
            && first.result.Err?
            && first.db == db
            && SubmitOrder(first.db, orderId, second).sent == first.sent
  {
  }

  // ---------------------------------------------------------------- status synchronisation

  /** The provider-status table shared by `syncOrderStatus` and `syncAllOrderStatuses`. */
  function MapStatus(s: string): (r: OrderStatus)
    ensures r == Completed <==> s == "Completed" || s == "Partial"
    ensures r == Canceled <==> s == "Canceled"
    ensures r == Failed <==> s == "Failed"
    ensures r != Pending
    ensures r == Processing <==> s !in {"Completed", "Partial", "Canceled", "Failed"}
  {
    match s
    case "Completed" => Completed
    case "Processing" => Processing
    case "In progress" => Processing
    case "Partial" => Completed
    case "Canceled" => Canceled
    case "Failed" => Failed
    case _ => Processing
  }

  /** An unrecognised provider status never closes an order. */
  lemma UnknownStatusIsNotTerminal(s: string)
    requires s !in {"Completed", "Partial", "Canceled", "Failed"}
    ensures !MapStatus(s).Terminal()
  {
  }

  datatype Synced = Synced(db: Db, result: Result<OrderStatus>)

  /**
   * `syncOrderStatus`: only a submitted order is queried; `reply` is the provider's status
   * string, `None` when the query throws. The mapped status overwrites the stored one.
   */
  function SyncOrderStatus(db: Db, orderId: Id, reply: Option<string>): (r: Synced)
    ensures r.result.Ok? <==> orderId in db.orders && Submitted(db.orders[orderId]) && reply.Some?
    ensures r.result.Err? ==> r.db == db
    ensures r.result.Ok? ==>
              && r.result.value == MapStatus(reply.value)
              && r.db == db.(orders := db.orders[orderId := db.orders[orderId].(status := MapStatus(reply.value))])
  {
    if orderId !in db.orders || !Submitted(db.orders[orderId]) then
      Synced(db, Err("Order not found or not submitted to API"))
    else match reply
      case None => Synced(db, Err("Failed to sync order status"))
      case Some(st) =>
        var status := MapStatus(st);
        Synced(db.(orders := db.orders[orderId := db.orders[orderId].(status := status)]), Ok(status))
  }

  /** `apiOrderId: { not: null }, status: { notIn: [completed, canceled, failed] }` */
  predicate Selected(o: Order)
  {
    o.apiOrderId.Some? && !o.status.Terminal()
  }

  /** `response[apiOrderId]?.status`, when it is a non-empty string. */
  function ReportedStatus(o: Order, response: map<string, string>): Option<string>
    requires o.apiOrderId.Some?
  {
    if o.apiOrderId.value in response && response[o.apiOrderId.value] != ""
    then Some(response[o.apiOrderId.value]) else None
  }

  datatype SyncedAll = SyncedAll(db: Db, queried: bool, result: Result<()>)

  /**
   * `syncAllOrderStatuses`: select the submitted, non-terminal orders; with none the
   * provider is not called; otherwise one batched query (`None` when it throws) and each
   * selected order with a reported status gets the mapped status.
   */
  function SyncAllOrderStatuses(db: Db, response: Option<map<string, string>>): (r: SyncedAll)
    ensures r.queried <==> exists id :: id in db.orders && Selected(db.orders[id])
    ensures r.result.Err? <==> r.queried && response.None?
    ensures r.result.Err? || !r.queried ==> r.db == db
    ensures r.db.(orders := db.orders) == db
    ensures r.db.orders.Keys == db.orders.Keys
    ensures forall id :: id in db.orders ==>
              var o := db.orders[id];
              r.db.orders[id] == if r.result.Ok? && r.queried && Selected(o) && ReportedStatus(o, response.value).Some?
                                 then o.(status := MapStatus(ReportedStatus(o, response.value).value))
                                 else o
  {
    if !exists id :: id in db.orders && Selected(db.orders[id]) then SyncedAll(db, false, Ok(()))
    else match response
      case None => SyncedAll(db, true, Err("Failed to sync all order statuses"))
      case Some(resp) =>
        var orders := map id | id in db.orders ::
          var o := db.orders[id];
          if Selected(o) && ReportedStatus(o, resp).Some? then o.(status := MapStatus(ReportedStatus(o, resp).value)) else o;
        SyncedAll(db.(orders := orders), true, Ok(()))
  }

  /**
   * The batch and the single-order sync agree: an order the batch updates gets the status
   * `syncOrderStatus` would give it for the same provider answer, and an order that is
   * completed, canceled or failed is never touched by the batch.
   */
  lemma SyncAllAgreesWithSyncOne(db: Db, resp: map<string, string>, id: Id)
    requires id in db.orders
    ensures var o := db.orders[id];
            var after := SyncAllOrderStatuses(db, Some(resp)).db.orders[id];
            && (o.status.Terminal() ==> after == o)
            && (Selected(o) && Submitted(o) && ReportedStatus(o, resp).Some? ==>
                  after == SyncOrderStatus(db, id, ReportedStatus(o, resp)).db.orders[id])
  {
  }
}

=== FILE: payments.dfy ===
/**
 * The payment-processor clients and the payment table helpers of `src/lib/api/payments.ts`.
 * The HTTP calls are parameters: the token endpoint's answer, PayPal's verification
 * status, and the uppercase-hex HMAC-SHA512 (RFC 2104) under the Binance API secret.
 */
module Payments {
  import opened Wrappers
  import opened Store
  import opened Tables

  // ---------------------------------------------------------------- PayPal access token

  /** The client's `accessToken` and `tokenExpiry` (milliseconds). */
  datatype TokenCache = TokenCache(token: Option<string>, expiry: int)

  /** The token endpoint's `access_token` and `expires_in` (seconds). */
  datatype Grant = Grant(accessToken: string, expiresIn: int)

  /** `this.accessToken && Date.now() < this.tokenExpiry` */
  predicate Reusable(c: TokenCache, now: int)
  {
    Present(c.token).Some? && now < c.expiry
  }

  datatype Token = Token(cache: TokenCache, result: Result<string>)

  /**
   * `getAccessToken` at time `now`: the cached token while it is valid, otherwise a new
   * grant (`None` when the request fails), cached until 60 seconds before it lapses.
   */
  function GetAccessToken(c: TokenCache, now: int, grant: Option<Grant>): (r: Token)
    ensures Reusable(c, now) ==> r == Token(c, Ok(c.token.value))
    ensures !Reusable(c, now) && grant.None? ==> r.cache == c && r.result.Err?
    ensures !Reusable(c, now) && grant.Some? ==>
              && r.result == Ok(grant.value.accessToken)
              && r.cache.token == Some(grant.value.accessToken)
              && r.cache.expiry == now + (grant.value.expiresIn - 60) * 1000
  {
    if Reusable(c, now) then Token(c, Ok(c.token.value))
    else match grant
      case None => Token(c, Err("Failed to get PayPal access token"))
      case Some(g) => Token(TokenCache(Some(g.accessToken), now + (g.expiresIn - 60) * 1000), Ok(g.accessToken))
  }

  /**
   * A granted token is reused, without a request, at every moment before its safety
   * margin runs out, and replaced at the first moment after.
   */
  lemma TokenWindow(now: int, g: Grant, later: int, grant2: Option<Grant>)
    requires g.accessToken != "" && now <= later
    ensures var c := GetAccessToken(TokenCache(None, 0), now, Some(g)).cache;
            && (later < now + (g.expiresIn - 60) * 1000 ==> GetAccessToken(c, later, grant2) == Token(c, Ok(g.accessToken)))
            && (later >= now + (g.expiresIn - 60) * 1000 && grant2.Some? ==>
                  GetAccessToken(c, later, grant2).result == Ok(grant2.value.accessToken))
  {
  }

  /** A grant of 60 seconds or less is never reused, even at the moment it is fetched. */
  lemma ShortGrantNeverCached(now: int, g: Grant)
    requires g.expiresIn <= 60
    ensures !Reusable(GetAccessToken(TokenCache(None, 0), now, Some(g)).cache, now)
  {
  }

  // ---------------------------------------------------------------- webhook verification

  /**
   * PayPal's `verifyWebhookSignature`: `remote` is the `verification_status` of the
   * verification call, `None` when the token, the body parse or the call fails.
   */
  function PaypalVerify(remote: Option<string>): (r: bool)
    ensures r <==> remote == Some("SUCCESS")
  {
    match remote
    case Some(s) => s == "SUCCESS"
    case None => false
  }

  /** `headers[name]` interpolated into a string: a missing header reads `undefined`. */
  function HeaderText(headers: map<string, string>, name: string): string
  {
    if name in headers then headers[name] else "undefined"
  }

  /** `timestamp + '\n' + nonce + '\n' + body + '\n'` */
  function BinanceMessage(headers: map<string, string>, body: string): (r: string)
    ensures r == HeaderText(headers, "binancepay-timestamp") + "\n" + HeaderText(headers, "binancepay-nonce") + "\n" + body + "\n"
  {
    HeaderText(headers, "binancepay-timestamp") + "\n" + HeaderText(headers, "binancepay-nonce") + "\n" + body + "\n"
  }

  /**
   * Binance's `verifyWebhookSignature`: the `binancepay-signature` header must equal the
   * digest `hmac` computes for the message. Header names are lower case, as
   * `Object.fromEntries(request.headers)` yields them.
   */
  function BinanceVerify(headers: map<string, string>, body: string, hmac: string -> string): (r: bool)
    ensures r <==> "binancepay-signature" in headers && headers["binancepay-signature"] == hmac(BinanceMessage(headers, body))
  {
    "binancepay-signature" in headers && headers["binancepay-signature"] == hmac(BinanceMessage(headers, body))
  }

  /** The signed message determines the body: two bodies under the same headers never share a message. */
  lemma BinanceMessageDeterminesBody(headers: map<string, string>, b1: string, b2: string)
    requires BinanceMessage(headers, b1) == BinanceMessage(headers, b2)
    ensures b1 == b2
  {
    var pre := HeaderText(headers, "binancepay-timestamp") + "\n" + HeaderText(headers, "binancepay-nonce") + "\n";
    assert BinanceMessage(headers, b1) == pre + b1 + "\n";
    assert BinanceMessage(headers, b2) == pre + b2 + "\n";
    assert |b1| == |b2|;
    assert b1 == (pre + b1 + "\n")[|pre|..|pre| + |b1|];
  }

  /**
   * With a digest that maps distinct messages to distinct values, a signature admits one
   * body only: two bodies that both verify under the same headers are the same body.
   */
  lemma BinanceSignatureBindsBody(headers: map<string, string>, b1: string, b2: string, hmac: string -> string)
    requires forall m1, m2 :: hmac(m1) == hmac(m2) ==> m1 == m2
    requires BinanceVerify(headers, b1, hmac) && BinanceVerify(headers, b2, hmac)
    ensures b1 == b2
  {
    assert hmac(BinanceMessage(headers, b1)) == hmac(BinanceMessage(headers, b2));
    BinanceMessageDeterminesBody(headers, b1, b2);
  }

  // ---------------------------------------------------------------- payment table

  /**
   * `createPayment`: a new `pending` payment for the user's order under the generated key
   * `newId`. `stored` is whether the insert succeeds.
   */
  function CreatePayment(db: Db, userId: Id, orderId: Id, amount: real, via: Method, newId: Id, stored: bool): (r: Result<Db>)
    ensures r.Ok? <==> stored
    ensures r.Ok? ==> r.value == db.(payments := db.payments + [Payment(newId, userId, Some(orderId), amount, via, PaymentPending, None, None)])
  {
    if stored then Ok(db.(payments := db.payments + [Payment(newId, userId, Some(orderId), amount, via, PaymentPending, None, None)]))
    else Err("Failed to create payment")
  }

  /** A created payment is found under its key (when the key is fresh) and is pending. */
  lemma CreatedPaymentFound(db: Db, userId: Id, orderId: Id, amount: real, via: Method, newId: Id)
    requires forall p :: p in db.payments ==> p.id != newId
    ensures var d := CreatePayment(db, userId, orderId, amount, via, newId, true).value;
            GetPaymentById(d, newId) == Ok(Payment(newId, userId, Some(orderId), amount, via, PaymentPending, None, None))
  {
    var d := CreatePayment(db, userId, orderId, amount, via, newId, true).value;
    assert d.payments[|db.payments|].id == newId;
  }

  /** `data: { status, transactionId }` with an undefined `transactionId` left out. */
  function SetStatus(p: Payment, status: PaymentStatus, transactionId: Option<string>): Payment
  {
    p.(status := status, transactionId := if transactionId.Some? then transactionId else p.transactionId)
  }

  /** Payment keys are unique, as the table's primary key guarantees. */
  predicate UniqueIds(payments: seq<Payment>)
  {
    forall i, j :: 0 <= i < |payments| && 0 <= j < |payments| && payments[i].id == payments[j].id ==> i == j
  }

  predicate HasPayment(db: Db, id: Id)
  {
    Any(db.payments, (p: Payment) => p.id == id)
  }

  /**
   * `updatePaymentStatus`: overwrite the status (and the transaction id, when one is
   * given) of the payment `id`, whatever its status was. A missing row, or a failing
   * write (`stored`), is a failure that changes nothing.
   */
  function UpdatePaymentStatus(db: Db, id: Id, status: PaymentStatus, transactionId: Option<string>, stored: bool): (r: Result<(Db, Payment)>)
    ensures r.Ok? <==> stored && HasPayment(db, id)
    ensures r.Ok? ==>
              var d := r.value.0;
              && d == db.(payments := d.payments)
              && |d.payments| == |db.payments|
              && (forall i :: 0 <= i < |db.payments| ==>
                    d.payments[i] == if db.payments[i].id == id then SetStatus(db.payments[i], status, transactionId) else db.payments[i])
              && r.value.1.id == id && r.value.1 in d.payments
              && r.value.1.status == status
              && (transactionId.Some? ==> r.value.1.transactionId == transactionId)
  {
    if !stored then Err("Failed to update payment status")
    else match First(db.payments, (p: Payment) => p.id == id)
      case None => Err("Failed to update payment status")
      case Some(p) =>
        var payments := UpdateWhere(db.payments, (q: Payment) => q.id == id, (q: Payment) => SetStatus(q, status, transactionId));
        var k :| 0 <= k < |db.payments| && db.payments[k] == p;
        assert payments[k] == SetStatus(p, status, transactionId);
        Ok((db.(payments := payments), SetStatus(p, status, transactionId)))
  }

  /** There is no transition check: a completed payment can be set back to pending or failed. */
  lemma NoTransitionGuard(db: Db, i: nat, status: PaymentStatus)
    requires i < |db.payments| && db.payments[i].status == PaymentCompleted
    ensures UpdatePaymentStatus(db, db.payments[i].id, status, None, true).Ok?
    ensures UpdatePaymentStatus(db, db.payments[i].id, status, None, true).value.0.payments[i].status == status
  {
  }

  /** `getPaymentById` */
  function GetPaymentById(db: Db, id: Id): (r: Result<Payment>)
    ensures r.Err? <==> !HasPayment(db, id)
    ensures r.Err? ==> r.message == "Payment not found"
    ensures r.Ok? ==> r.value in db.payments && r.value.id == id
  {
    match First(db.payments, (p: Payment) => p.id == id)
    case None => Err("Payment not found")
    case Some(p) => Ok(p)
  }

  /** Looking a payment up after updating it shows the new status. */
  lemma UpdateThenGet(db: Db, id: Id, status: PaymentStatus, transactionId: Option<string>)
    requires HasPayment(db, id)
    ensures var d := UpdatePaymentStatus(db, id, status, transactionId, true).value.0;
            GetPaymentById(d, id).Ok? && GetPaymentById(d, id).value.status == status
  {
    var u := UpdatePaymentStatus(db, id, status, transactionId, true);
    assert u.Ok?;
    var d := u.value.0;
    var k :| 0 <= k < |db.payments| && db.payments[k].id == id;
    EveryMatchUpdated(db.payments, d.payments, id, status, transactionId);
    assert d.payments[k].id == id;
    assert HasPayment(d, id);
    var g := GetPaymentById(d, id).value;
    assert g in d.payments && g.id == id;
  }

  /** After the row-wise update every row with key `id` carries the new status. */
  lemma EveryMatchUpdated(before: seq<Payment>, after: seq<Payment>, id: Id, status: PaymentStatus,
                          transactionId: Option<string>)
    requires |after| == |before|
    requires forall i :: 0 <= i < |before| ==>
               after[i] == if before[i].id == id then SetStatus(before[i], status, transactionId) else before[i]
    ensures forall p :: p in after && p.id == id ==> p.status == status
  {
    forall p | p in after && p.id == id ensures p.status == status {
      var j :| 0 <= j < |after| && after[j] == p;
      assert after[j] == SetStatus(before[j], status, transactionId);
    }
  }
}

=== FILE: purchases.dfy ===
/**
 * The three credit-purchase routes under `src/app/api/credits/purchase` (usdt, paypal,
 * nowpayments). The USDT and PayPal
 * routes verify an external payment, refuse a transaction id some payment already carries,
 * and then write one completed payment and one `purchase` ledger entry of the requested
 * amount. The NOWPayments route records a `creditTransaction` row and bumps the user's
 * separate `credits` counter, which the ledger balance never reads.
 */
module Purchases {
  import opened Wrappers
  import opened Store
  import opened Tables
  import Text
  import Ledger

  /** `if (parseFloat(amount) < 10)` */
  const MinimumPurchase := 10.0

  /** USDT on Optimism. */
  const UsdtContract := "0x94b008aA00579c1307B0EF2c499aD98a8ce58e58"

  /** USDT has 6 decimals on Optimism: `formatUnits(value, 6)`. */
  const UsdtUnit := 1000000.0

  /** `!amount` is false for a number other than 0. */
  predicate AmountGiven(a: Option<real>) { a.Some? && a.value != 0.0 }

  datatype Reply = Reply(status: int, db: Db)

  /** `findFirst({ where: { transactionId } })` found a row. */
  predicate Processed(db: Db, txId: string)
  {
    Any(db.payments, (p: Payment) => p.transactionId == Some(txId))
  }

  /** The completed payment a verified purchase records first, carrying the transaction id. */
  function CompletedPayment(userId: Id, amount: real, via: Method, txId: string, paymentId: Id): Payment
  {
    Payment(paymentId, userId, None, amount, via, PaymentCompleted, Some(txId), Some(amount))
  }

  /** The two rows a verified purchase writes: a completed payment and a ledger credit. */
  function Credited(db: Db, userId: Id, amount: real, via: Method, txId: string,
                    paymentId: Id, creditId: Id, now: int): Db
  {
    db.(payments := db.payments + [CompletedPayment(userId, amount, via, txId, paymentId)],
        credits := db.credits + [CreditEntry(creditId, userId, amount, Purchase, None, Some(txId), now)])
  }

  /**
   * A verified purchase makes three writes inside one `try`: the completed payment
   * (write 0), the ledger credit (write 1) and the notification (write 2, which no modelled
   * operation reads). `failAt` is the first write that throws, `None` when none does.
   */
  predicate PurchaseWritten(failAt: Option<nat>) { failAt.None? || failAt.value > 2 }

  /** The database a verified purchase leaves behind when write `failAt` throws. */
  function CreditedUpTo(db: Db, userId: Id, amount: real, via: Method, txId: string,
                        paymentId: Id, creditId: Id, now: int, failAt: Option<nat>): Db
  {
    if failAt == Some(0) then db
    else if failAt == Some(1) then db.(payments := db.payments + [CompletedPayment(userId, amount, via, txId, paymentId)])
    else Credited(db, userId, amount, via, txId, paymentId, creditId, now)
  }

  /** A purchase raises the buyer's ledger balance by exactly the requested amount. */
  lemma CreditedRaisesBalance(db: Db, userId: Id, amount: real, via: Method, txId: string,
                              paymentId: Id, creditId: Id, now: int)
    ensures var d := Credited(db, userId, amount, via, txId, paymentId, creditId, now);
            Ledger.Balance(Ledger.ForUser(d.credits, userId)) == Ledger.Balance(Ledger.ForUser(db.credits, userId)) + amount
  {
    Ledger.AppendOwn(db.credits, CreditEntry(creditId, userId, amount, Purchase, None, Some(txId), now));
  }

  /** After a purchase its transaction id is on record. */
  lemma CreditedIsProcessed(db: Db, userId: Id, amount: real, via: Method, txId: string,
                            paymentId: Id, creditId: Id, now: int)
    ensures Processed(Credited(db, userId, amount, via, txId, paymentId, creditId, now), txId)
  {
    var d := Credited(db, userId, amount, via, txId, paymentId, creditId, now);
    assert d.payments[|d.payments| - 1].transactionId == Some(txId);
  }

  // ---------------------------------------------------------------- USDT on Optimism

  datatype UsdtBody = UsdtBody(amount: Option<real>, transactionHash: Option<string>)

  /** A receipt log: `event` is the ABI event name, `None` when the log does not parse. */
  datatype Log = Log(event: Option<string>, to: string, value: nat)

  /** What the chain reports for the hash: the `to` address (`None` for a deployment), the receipt status and logs. */
  datatype Tx = Tx(to: Option<string>, succeeded: bool, logs: seq<Log>)

  predicate IsTransfer(l: Log) { l.event == Some("Transfer") }

  /** `event.args.to.toLowerCase() === receiverAddress.toLowerCase()` for a Transfer. */
  predicate ToReceiver(l: Log, receiver: string)
  {
    IsTransfer(l) && Text.EqualsIgnoreCase(l.to, receiver)
  }

  /** `logs[i]` is the first Transfer to the receiver. */
  predicate FirstMatch(logs: seq<Log>, i: int, receiver: string)
  {
    0 <= i < |logs| && ToReceiver(logs[i], receiver) && forall j :: 0 <= j < i ==> !ToReceiver(logs[j], receiver)
  }

  lemma FirstMatchUnique(logs: seq<Log>, i: int, k: int, receiver: string)
    requires FirstMatch(logs, i, receiver) && FirstMatch(logs, k, receiver)
    ensures i == k
  {
  }

  lemma FirstMatchShift(logs: seq<Log>, i: int, receiver: string)
    requires |logs| > 0 && !ToReceiver(logs[0], receiver)
    requires FirstMatch(logs[1..], i, receiver)
    ensures FirstMatch(logs, i + 1, receiver)
  {
    forall j | 0 <= j < i + 1 ensures !ToReceiver(logs[j], receiver) {
      if j > 0 { assert logs[j] == logs[1..][j - 1]; }
    }
  }

  /**
   * `logs.map(parseLog).filter(Transfer).find(to matches receiver)`: the first Transfer to
   * the receiver. `receiver` is the configured address; when it is unset the comparison
   * throws at the first Transfer log (`Err`).
   */
  function FindTransfer(logs: seq<Log>, receiver: Option<string>): (r: Result<Option<Log>>)
    ensures receiver.None? ==> (r.Err? <==> exists i :: 0 <= i < |logs| && IsTransfer(logs[i]))
    ensures receiver.Some? ==> r.Ok?
    ensures receiver.None? && r.Ok? ==> r.value.None?
    ensures receiver.Some? && r.value.Some? ==> exists i :: FirstMatch(logs, i, receiver.value) && logs[i] == r.value.value
    ensures receiver.Some? && r.value.None? ==> forall i :: 0 <= i < |logs| ==> !ToReceiver(logs[i], receiver.value)
  {
    if |logs| == 0 then Ok(None)
    else if !IsTransfer(logs[0]) then
      var rest := FindTransfer(logs[1..], receiver);
      assert forall i :: 1 <= i < |logs| ==> logs[i] == logs[1..][i - 1];
      assert receiver.Some? ==> forall i :: FirstMatch(logs[1..], i, receiver.value) ==> FirstMatch(logs, i + 1, receiver.value) by {
        if receiver.Some? {
          forall i | FirstMatch(logs[1..], i, receiver.value) ensures FirstMatch(logs, i + 1, receiver.value) {
            FirstMatchShift(logs, i, receiver.value);
          }
        }
      }
      rest
    else match receiver
      case None => Err("Cannot read properties of undefined")
      case Some(addr) =>
        if Text.Lower(logs[0].to) == Text.Lower(addr) then
          assert FirstMatch(logs, 0, addr);
          Ok(Some(logs[0]))
        else
          var rest := FindTransfer(logs[1..], receiver);
          assert forall i :: 1 <= i < |logs| ==> logs[i] == logs[1..][i - 1];
          assert forall i :: FirstMatch(logs[1..], i, addr) ==> FirstMatch(logs, i + 1, addr) by {
            forall i | FirstMatch(logs[1..], i, addr) ensures FirstMatch(logs, i + 1, addr) {
              FirstMatchShift(logs, i, addr);
            }
          }
          rest
  }

  /**
   * Every fact the route checks before it writes, stated directly: a hash and an amount of
   * at least 10, a successful transaction sent to the USDT contract, a Transfer to the
   * receiver whose first occurrence carries at least the amount, and an unused hash.
   */
  predicate UsdtVerified(db: Db, b: UsdtBody, tx: Option<Tx>, receiver: Option<string>)
  {
    && Present(b.transactionHash).Some? && AmountGiven(b.amount) && b.amount.value >= MinimumPurchase
    && tx.Some? && tx.value.succeeded && tx.value.to.Some?
    && Text.EqualsIgnoreCase(tx.value.to.value, UsdtContract)
    && receiver.Some?
    && (exists i :: 0 <= i < |tx.value.logs| && FirstMatch(tx.value.logs, i, receiver.value) && tx.value.logs[i].value as real / UsdtUnit >= b.amount.value)
    && !Processed(db, b.transactionHash.value)
  }

  /**
   * `POST /api/credits/purchase/usdt`. `tx` is the chain's answer for the hash (`None`: not
   * found), `receiver` the configured receiver address; `paymentId`, `creditId` and `now`
   * are the generated keys and time, and `failAt` the first of the three writes that throws.
   */
  function PostUsdt(db: Db, user: Option<Id>, body: Option<UsdtBody>, tx: Option<Tx>, receiver: Option<string>,
                    paymentId: Id, creditId: Id, now: int, failAt: Option<nat>): (r: Reply)
    ensures r.status == 401 <==> user.None?
    ensures !(user.Some? && body.Some? && UsdtVerified(db, body.value, tx, receiver)) ==> r.db == db && r.status != 200
    ensures r.status == 200 <==> user.Some? && body.Some? && UsdtVerified(db, body.value, tx, receiver) && PurchaseWritten(failAt)
    ensures user.Some? && body.Some? && UsdtVerified(db, body.value, tx, receiver) ==>
              && r.db == CreditedUpTo(db, user.value, body.value.amount.value, UsdtOptimism, body.value.transactionHash.value,
                                      paymentId, creditId, now, failAt)
              && r.status == (if PurchaseWritten(failAt) then 200 else 500)
    ensures (&& user.Some? && body.Some? && Present(body.value.transactionHash).Some? && AmountGiven(body.value.amount)
             && body.value.amount.value < MinimumPurchase) ==> r.status == 400
  {
    if user.None? then Reply(401, db)
    else if body.None? then Reply(500, db)
    else
      var b := body.value;
      if !AmountGiven(b.amount) || Present(b.transactionHash).None? then Reply(400, db)
      else if b.amount.value < MinimumPurchase then Reply(400, db)
      else if tx.None? then Reply(400, db)
      else if !tx.value.succeeded then Reply(400, db)
      else if tx.value.to.None? then Reply(500, db)
      else if !Text.EqualsIgnoreCase(tx.value.to.value, UsdtContract) then Reply(400, db)
      else match FindTransfer(tx.value.logs, receiver)
        case Err(_) => Reply(500, db)
        case Ok(None) => Reply(400, db)
        case Ok(Some(l)) =>
          if l.value as real / UsdtUnit < b.amount.value then Reply(400, db)
          else if Processed(db, b.transactionHash.value) then Reply(400, db)
          else
            assert UsdtVerified(db, b, tx, receiver) by {
              var i :| FirstMatch(tx.value.logs, i, receiver.value) && tx.value.logs[i] == l;
              forall k | FirstMatch(tx.value.logs, k, receiver.value) ensures k == i {
                FirstMatchUnique(tx.value.logs, i, k, receiver.value);
              }
            }
            Reply(if PurchaseWritten(failAt) then 200 else 500,
                  CreditedUpTo(db, user.value, b.amount.value, UsdtOptimism, b.transactionHash.value, paymentId, creditId, now, failAt))
  }

  /** Replaying a credited hash is refused and writes nothing, whatever the chain says. */
  lemma UsdtReplayRefused(db: Db, u: Id, b: UsdtBody, tx: Option<Tx>, receiver: Option<string>,
                          paymentId: Id, creditId: Id, now: int, tx2: Option<Tx>, paymentId2: Id, creditId2: Id, now2: int,
                          failAt2: Option<nat>)
    requires PostUsdt(db, Some(u), Some(b), tx, receiver, paymentId, creditId, now, None).status == 200
    ensures var d := PostUsdt(db, Some(u), Some(b), tx, receiver, paymentId, creditId, now, None).db;
            PostUsdt(d, Some(u), Some(b), tx2, receiver, paymentId2, creditId2, now2, failAt2) == Reply(400, d)
            || PostUsdt(d, Some(u), Some(b), tx2, receiver, paymentId2, creditId2, now2, failAt2) == Reply(500, d)
    ensures var d := PostUsdt(db, Some(u), Some(b), tx, receiver, paymentId, creditId, now, None).db;
            PostUsdt(d, Some(u), Some(b), tx2, receiver, paymentId2, creditId2, now2, failAt2).status != 200
  {
    CreditedIsProcessed(db, u, b.amount.value, UsdtOptimism, b.transactionHash.value, paymentId, creditId, now);
  }

  /**
   * A failed credit insert locks the buyer out: the reply is 500 and no purchase entry is
   * written, yet the completed payment already carries the hash, so the same request sent
   * again is refused as processed. A failed notification insert answers 500 as well, with
   * the credit granted.
   */
  lemma UsdtCreditFailureLocksOut(db: Db, u: Id, b: UsdtBody, tx: Option<Tx>, receiver: Option<string>,
                                  paymentId: Id, creditId: Id, now: int, paymentId2: Id, creditId2: Id, now2: int,
                                  failAt2: Option<nat>)
    requires UsdtVerified(db, b, tx, receiver)
    ensures var r := PostUsdt(db, Some(u), Some(b), tx, receiver, paymentId, creditId, now, Some(1));
            && r.status == 500
            && r.db.credits == db.credits
            && Processed(r.db, b.transactionHash.value)
            && PostUsdt(r.db, Some(u), Some(b), tx, receiver, paymentId2, creditId2, now2, failAt2) == Reply(400, r.db)
    ensures var r := PostUsdt(db, Some(u), Some(b), tx, receiver, paymentId, creditId, now, Some(2));
            && r.status == 500
            && r.db == Credited(db, u, b.amount.value, UsdtOptimism, b.transactionHash.value, paymentId, creditId, now)
  {
    var r := PostUsdt(db, Some(u), Some(b), tx, receiver, paymentId, creditId, now, Some(1));
    assert r.db.payments[|r.db.payments| - 1].transactionId == Some(b.transactionHash.value);
  }

  /**
   * Any amount of at least 10 backed by a Transfer of at least that much is credited with
   * the requested amount, however much more was sent.
   */
  lemma UsdtCreditsRequestedAmount(db: Db, u: Id, hash: string, amount: real, receiver: string, value: nat,
                                   paymentId: Id, creditId: Id, now: int)
    requires hash != "" && !Processed(db, hash)
    requires amount >= MinimumPurchase && value as real / UsdtUnit >= amount
    ensures var tx := Tx(Some(UsdtContract), true, [Log(Some("Transfer"), receiver, value)]);
            var r := PostUsdt(db, Some(u), Some(UsdtBody(Some(amount), Some(hash))), Some(tx), Some(receiver), paymentId, creditId, now, None);
            r.status == 200 && r.db.credits[|r.db.credits| - 1].amount == amount
  {
    var tx := Tx(Some(UsdtContract), true, [Log(Some("Transfer"), receiver, value)]);
    assert FindTransfer(tx.logs, Some(receiver)) == Ok(Some(tx.logs[0]));
  }

  // ---------------------------------------------------------------- PayPal

  datatype PaypalBody = PaypalBody(amount: Option<real>, paymentId: Option<string>, payerId: Option<string>)

  datatype PaypalPurchase = PaypalPurchase(status: int, db: Db, captured: bool)

  /**
   * `POST /api/credits/purchase/paypal` as evidently intended (see README, Findings):
   * `capture` is the status of the PayPal capture of `paymentId`, `None` when the call
   * throws. `captured` records whether the capture was requested at all, and `failAt` is
   * the first of the three writes that throws.
   */
  function PostPaypalCredits(db: Db, user: Option<Id>, body: Option<PaypalBody>, capture: Option<string>,
                             newPaymentId: Id, creditId: Id, now: int, failAt: Option<nat>): (r: PaypalPurchase)
    ensures r.status == 401 <==> user.None?
    ensures r.captured <==>
              && user.Some? && body.Some?
              && AmountGiven(body.value.amount) && Present(body.value.paymentId).Some? && Present(body.value.payerId).Some?
              && body.value.amount.value >= MinimumPurchase
    ensures r.captured && capture.Some? && capture.value != "COMPLETED" ==> r.status == 400
    ensures !(r.captured && capture == Some("COMPLETED") && !Processed(db, body.value.paymentId.value)) ==>
              r.db == db && r.status != 200
    ensures r.status == 200 <==>
              r.captured && capture == Some("COMPLETED") && !Processed(db, body.value.paymentId.value) && PurchaseWritten(failAt)
    ensures r.captured && capture == Some("COMPLETED") && !Processed(db, body.value.paymentId.value) ==>
              && r.db == CreditedUpTo(db, user.value, body.value.amount.value, PaypalCredits, body.value.paymentId.value,
                                      newPaymentId, creditId, now, failAt)
              && r.status == (if PurchaseWritten(failAt) then 200 else 500)
  {
    if user.None? then PaypalPurchase(401, db, false)
    else if body.None? then PaypalPurchase(500, db, false)
    else
      var b := body.value;
      if !AmountGiven(b.amount) || Present(b.paymentId).None? || Present(b.payerId).None? then PaypalPurchase(400, db, false)
      else if b.amount.value < MinimumPurchase then PaypalPurchase(400, db, false)
      else match capture
        case None => PaypalPurchase(500, db, true)
        case Some(status) =>
          if status != "COMPLETED" then PaypalPurchase(400, db, true)
          else if Processed(db, b.paymentId.value) then PaypalPurchase(400, db, true)
          else
            var d := CreditedUpTo(db, user.value, b.amount.value, PaypalCredits, b.paymentId.value, newPaymentId, creditId, now, failAt);
            PaypalPurchase(if PurchaseWritten(failAt) then 200 else 500, d, true)
  }

  /**
   * The dedup lookup comes after the capture: a replayed `paymentId` is refused without a
   * write, but only once PayPal has been asked to capture it again.
   */
  lemma PaypalReplayCapturedThenRefused(db: Db, u: Id, b: PaypalBody, newPaymentId: Id, creditId: Id, now: int,
                                        newPaymentId2: Id, creditId2: Id, now2: int, failAt2: Option<nat>)
    requires PostPaypalCredits(db, Some(u), Some(b), Some("COMPLETED"), newPaymentId, creditId, now, None).status == 200
    ensures var d := PostPaypalCredits(db, Some(u), Some(b), Some("COMPLETED"), newPaymentId, creditId, now, None).db;
            PostPaypalCredits(d, Some(u), Some(b), Some("COMPLETED"), newPaymentId2, creditId2, now2, failAt2) == PaypalPurchase(400, d, true)
  {
    CreditedIsProcessed(db, u, b.amount.value, PaypalCredits, b.paymentId.value, newPaymentId, creditId, now);
  }

  /**
   * A failed credit insert after the completed payment is stored answers 500 with no
   * purchase entry, and every later attempt with the same PayPal id is captured again and
   * refused as processed: the buyer has paid and cannot be credited.
   */
  lemma PaypalCreditFailureLocksOut(db: Db, u: Id, b: PaypalBody, newPaymentId: Id, creditId: Id, now: int,
                                    newPaymentId2: Id, creditId2: Id, now2: int, failAt2: Option<nat>)
    requires PostPaypalCredits(db, Some(u), Some(b), Some("COMPLETED"), newPaymentId, creditId, now, None).status == 200
    ensures var r := PostPaypalCredits(db, Some(u), Some(b), Some("COMPLETED"), newPaymentId, creditId, now, Some(1));
            && r.status == 500
            && r.db.credits == db.credits
            && PostPaypalCredits(r.db, Some(u), Some(b), Some("COMPLETED"), newPaymentId2, creditId2, now2, failAt2)
               == PaypalPurchase(400, r.db, true)
  {
    var r := PostPaypalCredits(db, Some(u), Some(b), Some("COMPLETED"), newPaymentId, creditId, now, Some(1));
    assert r.db.payments[|r.db.payments| - 1].transactionId == Some(b.paymentId.value);
  }

  /**
   * The route as written: inside its `try` block the body is read through `request` before
   * the block's own `const request` (the capture request) is initialised, so every call
   * from a signed-in user throws and is answered 500.
   */
  function PostPaypalCreditsAsWritten(db: Db, user: Option<Id>): (r: PaypalPurchase)
    ensures r.db == db && !r.captured
    ensures r.status == 401 <==> user.None?
    ensures r.status == 200 ==> false
  {
    if user.None? then PaypalPurchase(401, db, false) else PaypalPurchase(500, db, false)
  }

  /** A purchase the intended route completes is answered 500 by the route as written. */
  lemma PaypalAsWrittenRejectsValidPurchase(db: Db, u: Id, b: PaypalBody, newPaymentId: Id, creditId: Id, now: int)
    requires PostPaypalCredits(db, Some(u), Some(b), Some("COMPLETED"), newPaymentId, creditId, now, None).status == 200
    ensures PostPaypalCreditsAsWritten(db, Some(u)).status == 500
    ensures PostPaypalCredits(db, Some(u), Some(b), Some("COMPLETED"), newPaymentId, creditId, now, None).db != db
  {
    var d := PostPaypalCredits(db, Some(u), Some(b), Some("COMPLETED"), newPaymentId, creditId, now, None).db;
    assert |d.payments| == |db.payments| + 1;
  }

  // ---------------------------------------------------------------- NOWPayments

  datatype NowBody = NowBody(amount: Option<real>, transactionId: Option<string>)

  datatype NowPurchase = NowPurchase(status: int, db: Db, newBalance: Option<real>)

  /**
   * `POST /api/credits/purchase/nowpayments`: records the transaction, then (if the user
   * row exists) adds the amount to the user's `credits` counter (null counts as 0).
   * `userStored` is whether that counter update succeeds; when it throws the reply is 500
   * with the transaction row already recorded.
   */
  function PostNowCredits(db: Db, user: Option<Id>, body: Option<NowBody>, rowId: Id, userStored: bool): (r: NowPurchase)
    ensures r.status == 401 <==> user.None?
    ensures r.db.credits == db.credits && r.db.payments == db.payments && r.db.orders == db.orders
    ensures var recorded := user.Some? && body.Some? && AmountGiven(body.value.amount) && Present(body.value.transactionId).Some?;
            && (!recorded ==> r.db == db && r.status != 200)
            && (recorded ==>
                  && r.db.creditTransactions == db.creditTransactions
                       + [CreditTransaction(rowId, user.value, body.value.amount.value, Purchase, NowPayments, PaymentCompleted,
                                            body.value.transactionId.value)]
                  && (user.value !in db.users <==> r.status == 404)
                  && (user.value in db.users && !userStored <==> r.status == 500)
                  && (user.value in db.users && userStored <==> r.status == 200)
                  && (r.status != 200 ==> r.db.users == db.users))
    ensures r.status == 200 <==> r.newBalance.Some?
    ensures r.status == 200 ==>
              var u := user.value;
              && u in db.users
              && r.newBalance.value == db.users[u].credits.GetOr(0.0) + body.value.amount.value
              && r.db.users == db.users[u := db.users[u].(credits := r.newBalance)]
  {
    if user.None? then NowPurchase(401, db, None)
    else if body.None? then NowPurchase(500, db, None)
    else
      var b := body.value;
      if !AmountGiven(b.amount) || Present(b.transactionId).None? then NowPurchase(400, db, None)
      else
        var u := user.value;
        var row := CreditTransaction(rowId, u, b.amount.value, Purchase, NowPayments, PaymentCompleted, b.transactionId.value);
        var recorded := db.(creditTransactions := db.creditTransactions + [row]);
        if u !in db.users then NowPurchase(404, recorded, None)
        else if !userStored then NowPurchase(500, recorded, None)
        else
          var total := db.users[u].credits.GetOr(0.0) + b.amount.value;
          NowPurchase(200, recorded.(users := db.users[u := db.users[u].(credits := Some(total))]), Some(total))
  }

  /**
   * A failed counter update answers 500 but keeps the transaction row, so the retry the
   * buyer makes records the same transaction a second time while crediting it once.
   */
  lemma NowCreditsRetryRecordsTwice(db: Db, u: Id, b: NowBody, row1: Id, row2: Id)
    requires u in db.users
    requires AmountGiven(b.amount) && Present(b.transactionId).Some?
    ensures var r1 := PostNowCredits(db, Some(u), Some(b), row1, false);
            var r2 := PostNowCredits(r1.db, Some(u), Some(b), row2, true);
            && r1.status == 500
            && r2.status == 200
            && |r2.db.creditTransactions| == |db.creditTransactions| + 2
            && r2.db.creditTransactions[|db.creditTransactions|].transactionId == b.transactionId.value
            && r2.db.creditTransactions[|db.creditTransactions| + 1].transactionId == b.transactionId.value
            && r2.newBalance == Some(db.users[u].credits.GetOr(0.0) + b.amount.value)
  {
  }

  /**
   * Nothing deduplicates `transactionId`: sending the same purchase twice adds the amount
   * twice to the counter and records two rows, and the ledger balance moves neither time.
   */
  lemma NowCreditsNotDeduplicated(db: Db, u: Id, b: NowBody, row1: Id, row2: Id)
    requires u in db.users
    requires AmountGiven(b.amount) && Present(b.transactionId).Some?
    ensures var r1 := PostNowCredits(db, Some(u), Some(b), row1, true);
            var r2 := PostNowCredits(r1.db, Some(u), Some(b), row2, true);
            && r2.status == 200
            && r2.newBalance == Some(db.users[u].credits.GetOr(0.0) + 2.0 * b.amount.value)
            && |r2.db.creditTransactions| == |db.creditTransactions| + 2
            && Ledger.Balance(Ledger.ForUser(r2.db.credits, u)) == Ledger.Balance(Ledger.ForUser(db.credits, u))
  {
  }
}

=== FILE: sanitize.dfy ===
/**
 * Input sanitization (`src/lib/security/sanitize.ts`): every string in a JSON request
 * body is HTML-escaped by a chain of six global replacements, `&` first.
 */
module Sanitize {
  import opened Wrappers
  import opened Json
  import Text

  /** The characters the chain replaces. */
  predicate Special(c: char)
  {
    c == '&' || c == '<' || c == '>' || c == '"' || c == '\'' || c == '/'
  }

  /** The entity each special character becomes; every other character stays. */
  function Escape(c: char): (r: string)
    ensures |r| > 0
    ensures !Special(c) ==> r == [c]
    ensures Special(c) ==> r[0] == '&' && r[|r| - 1] == ';'
    ensures forall i :: 0 <= i < |r| ==> r[i] == '&' || !Special(r[i])
  {
    match c
    case '&' => "&amp;"
    case '<' => "&lt;"
    case '>' => "&gt;"
    case '"' => "&quot;"
    case '\'' => "&#x27;"
    case '/' => "&#x2F;"
    case _ => [c]
  }

  /** The per-character reading of the escaping. */
  function EscapeAll(s: string): string
  {
    if |s| == 0 then "" else Escape(s[0]) + EscapeAll(s[1..])
  }

  /** `s.replace(/c/g, rep)` */
  function ReplaceAll(s: string, c: char, rep: string): string
  {
    if |s| == 0 then "" else (if s[0] == c then rep else [s[0]]) + ReplaceAll(s[1..], c, rep)
  }

  /**
   * `sanitizeString`: the empty string is returned as is; otherwise the six replacements
   * in source order.
   */
  function SanitizeString(s: string): string
  {
    if s == "" then s
    else
      var s1 := ReplaceAll(s, '&', "&amp;");
      var s2 := ReplaceAll(s1, '<', "&lt;");
      var s3 := ReplaceAll(s2, '>', "&gt;");
      var s4 := ReplaceAll(s3, '"', "&quot;");
      var s5 := ReplaceAll(s4, '\'', "&#x27;");
      ReplaceAll(s5, '/', "&#x2F;")
  }

  lemma {:induction false} ReplaceAllConcat(a: string, b: string, c: char, rep: string)
    ensures ReplaceAll(a + b, c, rep) == ReplaceAll(a, c, rep) + ReplaceAll(b, c, rep)
  {
    if |a| == 0 {
      assert a + b == b;
    } else {
      assert (a + b)[1..] == a[1..] + b;
      ReplaceAllConcat(a[1..], b, c, rep);
    }
  }

  lemma {:induction false} ReplaceAllAbsent(s: string, c: char, rep: string)
    requires c !in s
    ensures ReplaceAll(s, c, rep) == s
  {
    if |s| > 0 {
      ReplaceAllAbsent(s[1..], c, rep);
      assert s == [s[0]] + s[1..];
    }
  }

  /** The chain without its empty-string shortcut. */
  function Chain(s: string): string
  {
    ReplaceAll(ReplaceAll(ReplaceAll(ReplaceAll(ReplaceAll(ReplaceAll(s, '&', "&amp;"), '<', "&lt;"), '>', "&gt;"), '"', "&quot;"), '\'', "&#x27;"), '/', "&#x2F;")
  }

  lemma ChainConcat(a: string, b: string)
    ensures Chain(a + b) == Chain(a) + Chain(b)
  {
    var s1a, s1b := ReplaceAll(a, '&', "&amp;"), ReplaceAll(b, '&', "&amp;");
    ReplaceAllConcat(a, b, '&', "&amp;");
    var s2a, s2b := ReplaceAll(s1a, '<', "&lt;"), ReplaceAll(s1b, '<', "&lt;");
    ReplaceAllConcat(s1a, s1b, '<', "&lt;");
    var s3a, s3b := ReplaceAll(s2a, '>', "&gt;"), ReplaceAll(s2b, '>', "&gt;");
    ReplaceAllConcat(s2a, s2b, '>', "&gt;");
    var s4a, s4b := ReplaceAll(s3a, '"', "&quot;"), ReplaceAll(s3b, '"', "&quot;");
    ReplaceAllConcat(s3a, s3b, '"', "&quot;");
    var s5a, s5b := ReplaceAll(s4a, '\'', "&#x27;"), ReplaceAll(s4b, '\'', "&#x27;");
    ReplaceAllConcat(s4a, s4b, '\'', "&#x27;");
    ReplaceAllConcat(s5a, s5b, '/', "&#x2F;");
  }

  /** One replacement applied to a one-character string. */
  lemma ReplaceOne(x: char, c: char, rep: string)
    ensures ReplaceAll([x], c, rep) == if x == c then rep else [x]
  {
    assert [x][1..] == [];
  }

  /** An entity holds no special character but `&`, so no later step touches it. */
  lemma EscapeStable(x: char, c: char, rep: string)
    requires Special(c) && c != '&'
    ensures ReplaceAll(Escape(x), c, rep) == Escape(x)
  {
    var e := Escape(x);
    assert forall i :: 0 <= i < |e| ==> e[i] != c;
    ReplaceAllAbsent(e, c, rep);
  }

  /**
   * One step of the chain on a one-character input: the character stays itself until its
   * own step turns it into its entity, which the later steps then leave alone.
   */
  lemma Advance(x: char, cur: string, c: char, rep: string, done: bool)
    requires Special(c) && rep == Escape(c)
    requires done ==> cur == Escape(x) && c != '&'
    requires !done ==> cur == [x]
    ensures done || x == c ==> ReplaceAll(cur, c, rep) == Escape(x)
    ensures !done && x != c ==> ReplaceAll(cur, c, rep) == [x]
  {
    if done {
      EscapeStable(x, c, rep);
    } else {
      ReplaceOne(x, c, rep);
    }
  }

  /** On a single character the chain is `Escape`. */
  lemma ChainChar(x: char)
    ensures Chain([x]) == Escape(x)
  {
    var s1 := ReplaceAll([x], '&', "&amp;");
    Advance(x, [x], '&', "&amp;", false);
    var d1 := x == '&';
    var s2 := ReplaceAll(s1, '<', "&lt;");
    Advance(x, s1, '<', "&lt;", d1);
    var d2 := d1 || x == '<';
    var s3 := ReplaceAll(s2, '>', "&gt;");
    Advance(x, s2, '>', "&gt;", d2);
    var d3 := d2 || x == '>';
    var s4 := ReplaceAll(s3, '"', "&quot;");
    Advance(x, s3, '"', "&quot;", d3);
    var d4 := d3 || x == '"';
    var s5 := ReplaceAll(s4, '\'', "&#x27;");
    Advance(x, s4, '\'', "&#x27;", d4);
    var d5 := d4 || x == '\'';
    Advance(x, s5, '/', "&#x2F;", d5);
  }

  /**
   * Because `&` is replaced first, the six-step chain equals the per-character map: no
   * step rewrites the entities an earlier step produced.
   */
  lemma {:induction false} ChainIsPerCharacter(s: string)
    ensures Chain(s) == EscapeAll(s)
  {
    if |s| == 0 {
    } else {
      assert s == [s[0]] + s[1..];
      ChainConcat([s[0]], s[1..]);
      ChainChar(s[0]);
      ChainIsPerCharacter(s[1..]);
    }
  }

  /** `sanitizeString` is the per-character escaping. */
  lemma SanitizeIsEscapeAll(s: string)
    ensures SanitizeString(s) == EscapeAll(s)
  {
    ChainIsPerCharacter(s);
  }

  /** The escaped text contains no `<`, `>`, `"`, `'` or `/`, and `&` only as an entity start. */
  lemma {:induction false} EscapeAllSafe(s: string)
    ensures forall i :: 0 <= i < |EscapeAll(s)| ==> EscapeAll(s)[i] == '&' || !Special(EscapeAll(s)[i])
  {
    if |s| > 0 {
      EscapeAllSafe(s[1..]);
      var e, rest := Escape(s[0]), EscapeAll(s[1..]);
      assert EscapeAll(s) == e + rest;
      forall i | 0 <= i < |e + rest| ensures (e + rest)[i] == '&' || !Special((e + rest)[i]) {
        if i >= |e| { assert (e + rest)[i] == rest[i - |e|]; }
      }
    }
  }

  /** `sanitizeString`'s output holds no `<`, `>`, `"`, `'` or `/`. */
  lemma SanitizedHasNoMarkup(s: string)
    ensures var r := SanitizeString(s);
            forall i :: 0 <= i < |r| ==> r[i] != '<' && r[i] != '>' && r[i] != '"' && r[i] != '\'' && r[i] != '/'
  {
    SanitizeIsEscapeAll(s);
    EscapeAllSafe(s);
  }

  /** Text without special characters is its own escaping. */
  lemma {:induction false} EscapeAllPlain(s: string)
    requires forall i :: 0 <= i < |s| ==> !Special(s[i])
    ensures EscapeAll(s) == s
  {
    if |s| > 0 {
      EscapeAllPlain(s[1..]);
      assert s == [s[0]] + s[1..];
    }
  }

  /** A string holding a `/` (every URL does) never comes through sanitization unchanged. */
  lemma SlashNeverSurvives(s: string)
    requires '/' in s
    ensures SanitizeString(s) != s
  {
    SanitizedHasNoMarkup(s);
  }

  /** Escaping is not idempotent: an escaped ampersand is escaped again. */
  lemma NotIdempotent()
    ensures SanitizeString("&") == "&amp;"
    ensures SanitizeString(SanitizeString("&")) == "&amp;amp;"
  {
    ChainChar('&');
    EscapedAmpersand();
  }

  lemma EscapedAmpersand()
    ensures SanitizeString("&amp;") == "&amp;amp;"
  {
    var amp, tail := "&amp;", "amp;";
    assert EscapeAll(tail) == tail by { EscapeAllPlain(tail); }
    assert EscapeAll(amp) == "&amp;amp;" by {
      assert amp[0] == '&' && amp[1..] == tail;
    }
    SanitizeIsEscapeAll(amp);
  }

  // ---------------------------------------------------------------- decoding

  /** Reads one entity at the front of `s`: its character and length. */
  function Entity(s: string): Option<(char, nat)>
  {
    if Text.StartsWith(s, "&amp;") then Some(('&', 5))
    else if Text.StartsWith(s, "&lt;") then Some(('<', 4))
    else if Text.StartsWith(s, "&gt;") then Some(('>', 4))
    else if Text.StartsWith(s, "&quot;") then Some(('"', 6))
    else if Text.StartsWith(s, "&#x27;") then Some(('\'', 6))
    else if Text.StartsWith(s, "&#x2F;") then Some(('/', 6))
    else None
  }

  /** Reads the escaped text back: each of the six entities becomes its character. */
  function Unescape(s: string): string
  {
    if |s| == 0 then ""
    else match Entity(s)
      case Some((c, n)) => (if n <= |s| then [c] + Unescape(s[n..]) else [c])
      case None => [s[0]] + Unescape(s[1..])
  }

  /** The entity `Escape(x)` is read back as `x`, whatever follows it. */
  lemma EntityOfEscape(x: char, rest: string)
    requires Special(x)
    ensures Entity(Escape(x) + rest) == Some((x, |Escape(x)|))
  {
    var e := Escape(x);
    var s := e + rest;
    assert s[..|e|] == e;
    assert s[0] == '&' && s[1] == e[1];
    if |e| >= 3 { assert s[2] == e[2]; }
    if |e| >= 4 { assert s[3] == e[3]; }
    if |e| >= 5 { assert s[4] == e[4]; }
  }

  lemma UnescapeStep(x: char, rest: string)
    ensures Unescape(Escape(x) + rest) == [x] + Unescape(rest)
  {
    var e := Escape(x);
    var s := e + rest;
    assert s[|e|..] == rest;
    if Special(x) {
      EntityOfEscape(x, rest);
    } else {
      assert s[0] == x;
      assert Entity(s).None?;
      assert s[1..] == rest;
    }
  }

  /** Escaping loses nothing: `Unescape` recovers the original text. */
  lemma {:induction false} UnescapeEscapeAll(s: string)
    ensures Unescape(EscapeAll(s)) == s
  {
    if |s| > 0 {
      UnescapeStep(s[0], EscapeAll(s[1..]));
      UnescapeEscapeAll(s[1..]);
      assert s == [s[0]] + s[1..];
    }
  }

  /** Distinct inputs stay distinct after sanitization. */
  lemma SanitizeInjective(a: string, b: string)
    requires SanitizeString(a) == SanitizeString(b)
    ensures a == b
  {
    SanitizeIsEscapeAll(a);
    SanitizeIsEscapeAll(b);
    UnescapeEscapeAll(a);
    UnescapeEscapeAll(b);
  }

  // ---------------------------------------------------------------- bodies

  /**
   * `sanitizeObject` on a parsed body: strings are sanitized, arrays element-wise, objects
   * field by field under the same keys; null, numbers and booleans are kept.
   */
  function SanitizeJson(j: Json): (r: Json)
    ensures j.JNull? || j.JBool? || j.JNum? ==> r == j
    ensures j.JStr? ==> r == JStr(SanitizeString(j.s))
    ensures j.JArr? ==> r.JArr? && |r.items| == |j.items|
                        && forall i :: 0 <= i < |j.items| ==> r.items[i] == SanitizeJson(j.items[i])
    ensures j.JObj? ==> r.JObj? && |r.fields| == |j.fields|
                        && forall i :: 0 <= i < |j.fields| ==> r.fields[i] == (j.fields[i].0, SanitizeJson(j.fields[i].1))
    decreases j
  {
    match j
    case JStr(s) => JStr(SanitizeString(s))
    case JArr(items) => JArr(seq(|items|, i requires 0 <= i < |items| => SanitizeJson(items[i])))
    case JObj(fields) => JObj(seq(|fields|, i requires 0 <= i < |fields| => (fields[i].0, SanitizeJson(fields[i].1))))
    case _ => j
  }

  /** Every string value (not key) in `j` is free of markup characters. */
  predicate Clean(j: Json)
    decreases j
  {
    match j
    case JStr(s) => forall i :: 0 <= i < |s| ==> s[i] != '<' && s[i] != '>' && s[i] != '"' && s[i] != '\'' && s[i] != '/'
    case JArr(items) => forall i :: 0 <= i < |items| ==> Clean(items[i])
    case JObj(fields) => forall i :: 0 <= i < |fields| ==> Clean(fields[i].1)
    case _ => true
  }

  /** A sanitized body is clean throughout. */
  lemma {:induction false} SanitizeJsonClean(j: Json)
    ensures Clean(SanitizeJson(j))
    decreases j
  {
    match j
    case JStr(s) => SanitizedHasNoMarkup(s);
    case JArr(items) =>
      forall i | 0 <= i < |items| ensures Clean(SanitizeJson(j).items[i]) {
        SanitizeJsonClean(items[i]);
      }
    case JObj(fields) =>
      forall i | 0 <= i < |fields| ensures Clean(SanitizeJson(j).fields[i].1) {
        SanitizeJsonClean(fields[i].1);
      }
    case _ =>
  }

  /** Lookups by key see the sanitized value of the same field: keys are kept as they were. */
  lemma {:induction false} SanitizeKeepsKeys(fields: seq<(string, Json)>, key: string)
    ensures var r := SanitizeJson(JObj(fields)).fields;
            && (Get(r, key).None? <==> Get(fields, key).None?)
            && (Get(fields, key).Some? ==> Get(r, key) == Some(SanitizeJson(Get(fields, key).value)))
    decreases |fields|
  {
    var r := SanitizeJson(JObj(fields)).fields;
    if |fields| > 0 {
      var init := fields[..|fields| - 1];
      assert SanitizeJson(JObj(init)).fields == r[..|r| - 1];
      SanitizeKeepsKeys(init, key);
    }
  }

  /**
   * `sanitizeInput`: the body the handler receives. POST, PUT and PATCH bodies that parse
   * as JSON (`body` is `None` when they do not) are sanitized; anything else is passed on
   * as it came.
   */
  function SanitizeInput(verb: string, body: Option<Json>): (r: Option<Json>)
    ensures verb !in {"POST", "PUT", "PATCH"} ==> r == body
    ensures body.None? ==> r == body
    ensures verb in {"POST", "PUT", "PATCH"} && body.Some? ==> r == Some(SanitizeJson(body.value)) && Clean(r.value)
  {
    if verb in {"POST", "PUT", "PATCH"} && body.Some? then
      SanitizeJsonClean(body.value);
      Some(SanitizeJson(body.value))
    else body
  }
}

=== FILE: security_api.dfy ===
/**
 * The API route wrappers of `src/lib/security/api.ts`: `apiSecurity`, which composes the
 * security headers, the CSRF check and input sanitization, and the in-memory `rateLimiter`.
 */
module SecurityApi {
  import opened Wrappers
  import opened Json
  import opened Http
  import Store
  import Text
  import Csrf
  import Sanitize
  import SecurityHeaders

  /** The CSRF check on a request's own `Origin`, `Referer` and `Host` headers. */
  predicate CsrfPasses(req: Request, env: string)
  {
    Csrf.Allows(req.verb, Header(req.headers, "origin"), Header(req.headers, "referer"), Header(req.headers, "host"), env)
  }

  /** The request the wrapped handler receives: the sanitized body in place of the original. */
  function Sanitized(req: Request): (r: Request)
    ensures r.verb == req.verb && r.url == req.url && r.headers == req.headers
    ensures r.body == Sanitize.SanitizeInput(req.verb, req.body)
  {
    req.(body := Sanitize.SanitizeInput(req.verb, req.body))
  }

  /**
   * `apiSecurity(handler)` on one request: the handler runs on the sanitized request when
   * the CSRF check passes, a 403 JSON reply stands in for it otherwise, and either way the
   * response leaves with the security headers.
   */
  function ApiSecurity(req: Request, env: string, handler: Request -> Response): (r: Response)
    ensures CsrfPasses(req, env) ==> r == SecurityHeaders.Overlay(handler(Sanitized(req)), env)
    ensures !CsrfPasses(req, env) ==> r == SecurityHeaders.Overlay(JsonError(403, "CSRF check failed"), env)
  {
    var inner := if CsrfPasses(req, env) then handler(Sanitized(req)) else JsonError(403, "CSRF check failed");
    SecurityHeaders.Overlay(inner, env)
  }

  /**
   * `apiSecurity` with the headers wrapper as written: the CSRF check and the handler run
   * as before, and the reply is then lost to the wrapper's TypeError.
   */
  function ApiSecurityAsWritten(req: Request, env: string, handler: Request -> Response): (r: Response)
    ensures r.status == 500
  {
    var inner := if CsrfPasses(req, env) then handler(Sanitized(req)) else JsonError(403, "CSRF check failed");
    SecurityHeaders.OverlayAsWritten(inner, env)
  }

  /**
   * As written, a request that passes the CSRF check and that the handler answers with a
   * 200 still gets a 500, where the corrected composition passes the 200 through hardened;
   * a refused request loses its 403 the same way.
   */
  lemma ApiSecurityAsWrittenFailsEveryRoute(req: Request, env: string, handler: Request -> Response)
    ensures CsrfPasses(req, env) && handler(Sanitized(req)).status == 200 ==>
              && ApiSecurityAsWritten(req, env, handler).status == 500
              && ApiSecurity(req, env, handler).status == 200
    ensures !CsrfPasses(req, env) ==>
              && ApiSecurityAsWritten(req, env, handler).status == 500
              && ApiSecurity(req, env, handler).status == 403
  {
  }

  /** A refused request gets a 403 JSON reply. */
  lemma RefusalIsJson(req: Request, env: string, handler: Request -> Response)
    requires !CsrfPasses(req, env)
    ensures var r := ApiSecurity(req, env, handler);
            r.status == 403 && "content-type" in r.headers && r.headers["content-type"] == "application/json"
  {
    SecurityHeaders.ContentTypeKept(JsonError(403, "CSRF check failed"), env);
  }

  /** Every reply, the handler's or the refusal, leaves with the hardening headers and its own status. */
  lemma AlwaysHardened(req: Request, env: string, handler: Request -> Response)
    ensures var r := ApiSecurity(req, env, handler);
            && (forall k :: k in SecurityHeaders.Hardening(env) ==> k in r.headers && r.headers[k] == SecurityHeaders.Hardening(env)[k])
            && r.status == (if CsrfPasses(req, env) then handler(Sanitized(req)).status else 403)
  {
    var inner := if CsrfPasses(req, env) then handler(Sanitized(req)) else JsonError(403, "CSRF check failed");
    assert ApiSecurity(req, env, handler) == SecurityHeaders.Overlay(inner, env);
  }

  /** A refused request never reaches the handler: its reply is the same whatever the handler does. */
  lemma RefusalIgnoresHandler(req: Request, env: string, h1: Request -> Response, h2: Request -> Response)
    requires !CsrfPasses(req, env)
    ensures ApiSecurity(req, env, h1) == ApiSecurity(req, env, h2)
  {
  }

  /** A GET reaches the handler exactly as it came; only the headers are added. */
  lemma GetPassesThrough(req: Request, env: string, handler: Request -> Response)
    requires req.verb == "GET"
    ensures ApiSecurity(req, env, handler) == SecurityHeaders.Overlay(handler(req), env)
  {
    assert Sanitized(req) == req;
  }

  /**
   * A JSON POST that passes the check reaches the handler with every string escaped: a
   * `link` field holding a URL arrives rewritten (its slashes become `&#x2F;`).
   */
  lemma PostedLinkRewritten(req: Request, env: string, fields: seq<(string, Json)>, link: string)
    requires req.verb == "POST" && req.body == Some(JObj(fields))
    requires Get(fields, "link") == Some(JStr(link)) && '/' in link
    ensures var b := Sanitized(req).body;
            b.Some? && b.value.JObj? && Get(b.value.fields, "link") == Some(JStr(Sanitize.SanitizeString(link)))
    ensures Sanitize.SanitizeString(link) != link
  {
    Sanitize.SanitizeKeepsKeys(fields, "link");
    Sanitize.SlashNeverSurvives(link);
  }

  // ---------------------------------------------------------------- rate limiting

  /** One bucket of the limiter's map: requests counted in the window that ends at `resetAt`. */
  datatype Window = Window(count: int, resetAt: int)

  /** One request through the limiter: the updated map, whether it passes, and `Retry-After` in seconds. */
  datatype Admission = Admission(table: map<string, Window>, passes: bool, retryAfter: int)

  /** The bucket key: `x-forwarded-for` (or `unknown` when it is missing or empty), a colon, the URL. */
  function RateKey(headers: map<string, string>, url: string): string
  {
    Store.Present(Header(headers, "x-forwarded-for")).GetOr("unknown") + ":" + url
  }

  /** `Math.ceil(ms / 1000)`: the whole seconds that cover `ms` milliseconds. */
  function CeilSeconds(ms: int): (r: int)
    ensures (r - 1) * 1000 < ms <= r * 1000
  {
    -((-ms) / 1000)
  }

  /**
   * The limiter's bookkeeping for one request at time `now` (milliseconds). A bucket whose
   * window has passed (`now > resetAt`), or a missing one, starts a new window of `window`
   * milliseconds; the request is always counted; it passes while the count is at most
   * `limit`.
   */
  function Admit(table: map<string, Window>, key: string, now: int, limit: int, window: int): (r: Admission)
    ensures key in r.table && r.table == table[key := r.table[key]]
    ensures key in table && now <= table[key].resetAt ==>
              r.table[key] == Window(table[key].count + 1, table[key].resetAt)
    ensures !(key in table && now <= table[key].resetAt) ==> r.table[key] == Window(1, now + window)
    ensures r.passes <==> r.table[key].count <= limit
    ensures (r.retryAfter - 1) * 1000 < r.table[key].resetAt - now <= r.retryAfter * 1000
  {
    var current := if key in table then table[key] else Window(0, now + window);
    var w := if now > current.resetAt then Window(0, now + window) else current;
    var next := Window(w.count + 1, w.resetAt);
    Admission(table[key := next], next.count <= limit, CeilSeconds(next.resetAt - now))
  }

  /** `rateLimiter(handler, {limit, window})` on one request: the new map and the response. */
  function RateLimiter(table: map<string, Window>, req: Request, now: int, limit: int, window: int,
                       handler: Request -> Response): (r: (map<string, Window>, Response))
    ensures var a := Admit(table, RateKey(req.headers, req.url), now, limit, window);
            && r.0 == a.table
            && (a.passes ==> r.1 == handler(req))
            && (!a.passes ==> r.1.status == 429 && "retry-after" in r.1.headers && r.1.headers["retry-after"] == Text.IntStr(a.retryAfter))
  {
    var a := Admit(table, RateKey(req.headers, req.url), now, limit, window);
    if a.passes then (a.table, handler(req))
    else
      var e := JsonError(429, "Rate limit exceeded");
      (a.table, e.(headers := e.headers["retry-after" := Text.IntStr(a.retryAfter)]))
  }

  /** The decisions for a run of requests on one key at the given times. */
  function Decisions(table: map<string, Window>, key: string, times: seq<int>, limit: int, window: int): (r: seq<bool>)
    ensures |r| == |times|
    decreases |times|
  {
    if |times| == 0 then []
    else
      var a := Admit(table, key, times[0], limit, window);
      [a.passes] + Decisions(a.table, key, times[1..], limit, window)
  }

  /** Inside one window the `i`-th further request passes exactly when `count + i + 1` is within the limit. */
  lemma {:induction false} DecisionsInWindow(table: map<string, Window>, key: string, times: seq<int>,
                                             limit: int, window: int)
    requires key in table
    requires forall i :: 0 <= i < |times| ==> times[i] <= table[key].resetAt
    ensures forall i :: 0 <= i < |times| ==>
              (Decisions(table, key, times, limit, window)[i] <==> table[key].count + i + 1 <= limit)
  {
    if |times| > 0 {
      var a := Admit(table, key, times[0], limit, window);
      assert a.table[key] == Window(table[key].count + 1, table[key].resetAt);
      DecisionsInWindow(a.table, key, times[1..], limit, window);
      var d := Decisions(table, key, times, limit, window);
      forall i | 0 <= i < |times| ensures d[i] <==> table[key].count + i + 1 <= limit {
        if i > 0 {
          assert d[i] == Decisions(a.table, key, times[1..], limit, window)[i - 1];
        }
      }
    }
  }

  /**
   * From a fresh bucket, a burst that stays within one window gets exactly its first
   * `limit` requests through.
   */
  lemma FirstLimitRequestsPass(table: map<string, Window>, key: string, times: seq<int>, limit: int, window: int)
    requires |times| > 0 && (key !in table || times[0] > table[key].resetAt)
    requires forall i :: 0 <= i < |times| ==> times[i] <= times[0] + window
    ensures forall i :: 0 <= i < |times| ==>
              (Decisions(table, key, times, limit, window)[i] <==> i < limit)
  {
    var a := Admit(table, key, times[0], limit, window);
    assert a.table[key] == Window(1, times[0] + window);
    DecisionsInWindow(a.table, key, times[1..], limit, window);
    var d := Decisions(table, key, times, limit, window);
    forall i | 0 <= i < |times| ensures d[i] <==> i < limit {
      if i > 0 {
        assert d[i] == Decisions(a.table, key, times[1..], limit, window)[i - 1];
      }
    }
  }

  /**
   * The bucket is chosen by the client-supplied `x-forwarded-for`: on the same URL, two
   * different values are two different buckets, so a client that changes the header starts
   * a fresh window.
   */
  lemma ForwardedForChoosesBucket(h1: map<string, string>, h2: map<string, string>, url: string)
    requires Store.Present(Header(h1, "x-forwarded-for")).GetOr("unknown") != Store.Present(Header(h2, "x-forwarded-for")).GetOr("unknown")
    ensures RateKey(h1, url) != RateKey(h2, url)
  {
    var ip1 := Store.Present(Header(h1, "x-forwarded-for")).GetOr("unknown");
    var ip2 := Store.Present(Header(h2, "x-forwarded-for")).GetOr("unknown");
    var tail := ":" + url;
    assert RateKey(h1, url) == ip1 + tail && RateKey(h2, url) == ip2 + tail;
    assert (ip1 + tail)[..|ip1|] == ip1;
    assert (ip2 + tail)[..|ip2|] == ip2;
  }
}

=== FILE: sorting.dfy ===
/**
 * Insertion sort by a caller-supplied "sorts no later than" relation. The store's
 * `orderBy` clauses (categories and services by name, credit entries by creation time,
 * newest first) are modelled with it.
 */
module Sorting {

  /** `le` is total and transitive, as every `orderBy` key comparison is. */
  ghost predicate TotalPreorder<T(!new)>(le: (T, T) -> bool)
  {
    && (forall a, b :: le(a, b) || le(b, a))
    && (forall a, b, c :: le(a, b) && le(b, c) ==> le(a, c))
  }

  predicate Sorted<T>(s: seq<T>, le: (T, T) -> bool)
  {
    forall i, j :: 0 <= i < j < |s| ==> le(s[i], s[j])
  }

  function Insert<T(!new)>(x: T, s: seq<T>, le: (T, T) -> bool): (r: seq<T>)
    requires TotalPreorder(le)
    requires Sorted(s, le)
    ensures Sorted(r, le)
    ensures multiset(r) == multiset(s) + multiset{x}
    ensures |r| == |s| + 1
  {
    if |s| == 0 then [x]
    else if le(x, s[0]) then [x] + s
    else
      var rest := Insert(x, s[1..], le);
      assert s == [s[0]] + s[1..];
      assert Sorted([s[0]] + rest, le) by {
        HeadFirst(x, s, rest, le);
        SortedCons(s[0], rest, le);
      }
      [s[0]] + rest
  }

  /** When `x` goes after the head of `s`, that head sorts no later than anything in the rest. */
  lemma HeadFirst<T(!new)>(x: T, s: seq<T>, rest: seq<T>, le: (T, T) -> bool)
    requires TotalPreorder(le) && Sorted(s, le) && |s| > 0 && !le(x, s[0])
    requires multiset(rest) == multiset(s[1..]) + multiset{x}
    ensures forall k :: 0 <= k < |rest| ==> le(s[0], rest[k])
  {
    forall k | 0 <= k < |rest| ensures le(s[0], rest[k]) {
      var y := rest[k];
      assert y in multiset(rest);
      if y in multiset(s[1..]) {
        var j :| 0 <= j < |s[1..]| && s[1..][j] == y;
        assert s[j + 1] == y;
      }
    }
  }

  lemma SortedCons<T>(h: T, rest: seq<T>, le: (T, T) -> bool)
    requires Sorted(rest, le) && forall k :: 0 <= k < |rest| ==> le(h, rest[k])
    ensures Sorted([h] + rest, le)
  {
    var r := [h] + rest;
    forall i, j | 0 <= i < j < |r| ensures le(r[i], r[j]) {
      if i == 0 { assert r[j] == rest[j - 1]; } else { assert r[i] == rest[i - 1] && r[j] == rest[j - 1]; }
    }
  }

  /** Sorts `s`; the result is an ordered permutation of `s`. */
  function Sort<T(!new)>(s: seq<T>, le: (T, T) -> bool): (r: seq<T>)
    requires TotalPreorder(le)
    ensures Sorted(r, le)
    ensures multiset(r) == multiset(s)
    ensures |r| == |s|
  {
    if |s| == 0 then []
    else
      assert s == s[..|s| - 1] + [s[|s| - 1]];
      Insert(s[|s| - 1], Sort(s[..|s| - 1], le), le)
  }
}

=== FILE: store.dfy ===
/**
 * The relational store as immutable values: one record type per table and a `Db` that
 * holds every table the core reads or writes. Generated ids, clocks and the answers of
 * external systems are parameters of the operations, never part of the state.
 */
module Store {
  import opened Wrappers

  type Id = string

  /** Order status (the five-value enum of the `Order` type). */
  datatype OrderStatus = Pending | Processing | Completed | Canceled | Failed {
    predicate Terminal()
    {
      Completed? || Canceled? || Failed?
    }
  }

  /** Payment status (`pending | completed | failed`). */
  datatype PaymentStatus = PaymentPending | PaymentCompleted | PaymentFailed

  /**
   * The `method` column (field `via`): `paypal`, `binance`, `nowpayments` for order payments,
   * `USDT_OPTIMISM` and `PAYPAL` for the two credit-purchase routes.
   */
  datatype Method = Paypal | Binance | NowPayments | UsdtOptimism | PaypalCredits

  /** A catalog entry: `id` is the store's key, `serviceId` the upstream provider's. */
  datatype Service = Service(
    id: Id,
    serviceId: int,
    name: string,
    category: string,
    kind: string,
    rate: real,
    originalRate: real,
    min: int,
    max: int,
    dripfeed: bool,
    refill: bool,
    description: Option<string>)

  datatype Category = Category(id: Id, name: string)

  /** `serviceRef` is the store key of the ordered service. */
  datatype Order = Order(
    id: Id,
    userId: Id,
    serviceRef: Id,
    link: string,
    quantity: int,
    amount: real,
    status: OrderStatus,
    apiOrderId: Option<string>)

  /** `if (order.apiOrderId)`: a stored, non-empty provider order id. */
  predicate Submitted(o: Order)
  {
    o.apiOrderId.Some? && o.apiOrderId.value != ""
  }

  datatype Payment = Payment(
    id: Id,
    userId: Id,
    orderId: Option<Id>,
    amount: real,
    via: Method,
    status: PaymentStatus,
    transactionId: Option<string>,
    creditAmount: Option<real>)

  /** The `type` column of the credit ledger; any other text is `OtherKind`. */
  datatype CreditKind = Purchase | Bonus | Usage | Refund | OtherKind(tag: string)

  datatype CreditEntry = CreditEntry(
    id: Id,
    userId: Id,
    amount: real,
    kind: CreditKind,
    orderId: Option<Id>,
    transactionId: Option<string>,
    createdAt: int)

  /** A row of the separate `creditTransaction` table written by the NOWPayments purchase route. */
  datatype CreditTransaction = CreditTransaction(
    id: Id,
    userId: Id,
    amount: real,
    kind: CreditKind,
    via: Method,
    status: PaymentStatus,
    transactionId: string)

  /** Only the nullable `credits` counter of a user is read or written by the core. */
  datatype User = User(id: Id, credits: Option<real>)

  /** `markup` is the `default_markup` setting, held as the number its stored text encodes. */
  datatype Db = Db(
    services: seq<Service>,
    categories: seq<Category>,
    markup: Option<real>,
    orders: map<Id, Order>,
    payments: seq<Payment>,
    credits: seq<CreditEntry>,
    creditTransactions: seq<CreditTransaction>,
    users: map<Id, User>)

  /** A request field after JavaScript's truthiness test: `""` counts as missing. */
  function Present(s: Option<string>): Option<string>
  {
    if s.Some? && s.value != "" then s else None
  }
}

=== FILE: tables.dfy ===
/**
 * Table access in the shape the store's queries have: `findFirst` returns the first row in
 * insertion order that matches, and an `update` whose `where` names a key rewrites the
 * matching rows and nothing else.
 */
module Tables {
  import opened Wrappers

  /** Position of the first row satisfying `p`. */
  function FirstIndex<T>(s: seq<T>, p: T -> bool): (r: Option<nat>)
    ensures r.Some? ==> r.value < |s| && p(s[r.value])
    ensures r.Some? ==> forall j :: 0 <= j < r.value ==> !p(s[j])
    ensures r.None? <==> forall j :: 0 <= j < |s| ==> !p(s[j])
  {
    if |s| == 0 then None
    else if p(s[0]) then Some(0)
    else match FirstIndex(s[1..], p)
      case None => None
      case Some(k) => Some(k + 1)
  }

  /** `findFirst({ where })` */
  function First<T>(s: seq<T>, p: T -> bool): (r: Option<T>)
    ensures r.Some? ==> r.value in s && p(r.value)
    ensures r.Some? ==> exists k :: 0 <= k < |s| && s[k] == r.value && forall j :: 0 <= j < k ==> !p(s[j])
    ensures r.None? <==> forall j :: 0 <= j < |s| ==> !p(s[j])
  {
    match FirstIndex(s, p)
    case None => None
    case Some(k) => Some(s[k])
  }

  predicate Any<T>(s: seq<T>, p: T -> bool)
  {
    exists j :: 0 <= j < |s| && p(s[j])
  }

  /** `update({ where, data })`: rows satisfying `p` become `f(row)`, the rest are kept. */
  function UpdateWhere<T>(s: seq<T>, p: T -> bool, f: T -> T): (r: seq<T>)
    ensures |r| == |s|
    ensures forall i :: 0 <= i < |s| ==> r[i] == if p(s[i]) then f(s[i]) else s[i]
  {
    seq(|s|, i requires 0 <= i < |s| => if p(s[i]) then f(s[i]) else s[i])
  }

  /** The rows satisfying `p`, in table order (`findMany({ where })`). */
  function Filter<T(!new)>(s: seq<T>, p: T -> bool): (r: seq<T>)
    ensures |r| <= |s|
    ensures forall x :: x in r <==> x in s && p(x)
  {
    if |s| == 0 then []
    else (if p(s[0]) then [s[0]] else []) + Filter(s[1..], p)
  }

  lemma {:induction false} FilterConcat<T(!new)>(a: seq<T>, b: seq<T>, p: T -> bool)
    ensures Filter(a + b, p) == Filter(a, p) + Filter(b, p)
  {
    if |a| > 0 {
      assert (a + b)[1..] == a[1..] + b;
      FilterConcat(a[1..], b, p);
    } else {
      assert a + b == b;
    }
  }
}

=== FILE: text.dfy ===
/** String helpers the request guards and URL builders rely on. Strings are `seq<char>`. */
module Text {

  /** `s.startsWith(p)` */
  predicate StartsWith(s: string, p: string)
  {
    |p| <= |s| && s[..|p|] == p
  }

  lemma StartsWithConcat(p: string, q: string)
    ensures StartsWith(p + q, p)
  {
    assert (p + q)[..|p|] == p;
  }

  /** A prefix of a prefix is a prefix. */
  lemma StartsWithTrans(s: string, p: string, q: string)
    requires StartsWith(s, p) && StartsWith(p, q)
    ensures StartsWith(s, q)
  {
    assert s[..|q|] == p[..|q|];
  }

  /** `toLowerCase` on the ASCII letters; every other character is kept as it is. */
  function LowerChar(c: char): char
  {
    if 'A' <= c <= 'Z' then (c as int + 32) as char else c
  }

  function Lower(s: string): (r: string)
    ensures |r| == |s|
    ensures forall i :: 0 <= i < |s| ==> r[i] == LowerChar(s[i])
  {
    seq(|s|, i requires 0 <= i < |s| => LowerChar(s[i]))
  }

  /** `a.toLowerCase() === b.toLowerCase()` */
  predicate EqualsIgnoreCase(a: string, b: string)
  {
    Lower(a) == Lower(b)
  }

  /** `s.split(c)[0]`: the text before the first `c`, or all of `s` when it has none. */
  function BeforeFirst(s: string, c: char): (r: string)
    ensures c !in r
    ensures StartsWith(s, r)
    ensures c in s ==> |r| < |s| && s[|r|] == c
    ensures c !in s ==> r == s
  {
    if |s| == 0 then ""
    else if s[0] == c then ""
    else [s[0]] + BeforeFirst(s[1..], c)
  }

  /** Whatever follows the first `c` does not matter to `BeforeFirst`. */
  lemma {:induction false} BeforeFirstSplit(a: string, c: char, rest: string)
    requires c !in a
    ensures BeforeFirst(a + [c] + rest, c) == a
  {
    if |a| > 0 {
      assert (a + [c] + rest)[1..] == a[1..] + [c] + rest;
      BeforeFirstSplit(a[1..], c, rest);
      assert a == [a[0]] + a[1..];
    }
  }

  /** The decimal rendering of a natural number (`n.toString()`). */
  function Decimal(n: nat): (r: string)
    ensures |r| > 0
    ensures forall i :: 0 <= i < |r| ==> '0' <= r[i] <= '9'
  {
    var d := ['0' + (n % 10) as char];
    if n < 10 then d else Decimal(n / 10) + d
  }

  /** `parseInt` of a string of decimal digits. */
  function DigitsValue(s: string): nat
    requires forall i :: 0 <= i < |s| ==> '0' <= s[i] <= '9'
  {
    if |s| == 0 then 0 else 10 * DigitsValue(s[..|s| - 1]) + (s[|s| - 1] as int - '0' as int)
  }

  /** `parseInt(n.toString()) == n`: the rendering loses nothing. */
  lemma {:induction false} DecimalRoundTrip(n: nat)
    ensures DigitsValue(Decimal(n)) == n
  {
    var d := ['0' + (n % 10) as char];
    if n >= 10 {
      DecimalRoundTrip(n / 10);
      var s := Decimal(n / 10) + d;
      assert s[..|s| - 1] == Decimal(n / 10);
    }
  }

  /** Distinct numbers render as distinct strings. */
  lemma DecimalInjective(m: nat, n: nat)
    requires Decimal(m) == Decimal(n)
    ensures m == n
  {
    DecimalRoundTrip(m);
    DecimalRoundTrip(n);
  }

  /** `${n}` for an integer: an optional minus sign and the decimal digits. */
  function IntStr(n: int): (r: string)
    ensures |r| > 0
    ensures n >= 0 ==> r == Decimal(n)
    ensures n < 0 ==> r == "-" + Decimal(-n)
  {
    if n < 0 then "-" + Decimal(-n) else Decimal(n)
  }

  /** Code-unit lexicographic order on strings: `a` sorts no later than `b`. */
  predicate StrLe(a: string, b: string)
  {
    |a| == 0 || (|b| > 0 && (a[0] < b[0] || (a[0] == b[0] && StrLe(a[1..], b[1..]))))
  }

  lemma {:induction false} StrLeTotal(a: string, b: string)
    ensures StrLe(a, b) || StrLe(b, a)
  {
    if |a| > 0 && |b| > 0 && a[0] == b[0] {
      StrLeTotal(a[1..], b[1..]);
    }
  }

  lemma {:induction false} StrLeTrans(a: string, b: string, c: string)
    requires StrLe(a, b) && StrLe(b, c)
    ensures StrLe(a, c)
  {
    if |a| > 0 && a[0] == b[0] && b[0] == c[0] {
      StrLeTrans(a[1..], b[1..], c[1..]);
    }
  }
}

=== FILE: webhooks.dfy ===
/**
 * The processors' webhook handlers: the `webhook` route under each of
 * `src/app/api/payments/{nowpayments,paypal,binance}`. Each verifies the delivery before
 * reading its body, finds the payment by order id with `findFirst`, overwrites its status
 * without looking at the old one, and moves the order on.
 */
module Webhooks {
  import opened Wrappers
  import opened Store
  import opened Tables
  import Payments
  import Orders
  import NowPaymentsClient

  /** `findFirst({ where: { orderId } })`; an undefined `orderId` is no filter at all. */
  function PaymentForOrder(db: Db, orderId: Option<Id>): (r: Option<Payment>)
    ensures r.Some? ==> r.value in db.payments && (orderId.Some? ==> r.value.orderId == orderId)
    ensures r.None? <==> (orderId.None? && |db.payments| == 0)
                         || (orderId.Some? && forall p :: p in db.payments ==> p.orderId != orderId)
    ensures orderId.None? && |db.payments| > 0 ==> r == Some(db.payments[0])
    ensures r.Some? ==> exists k :: 0 <= k < |db.payments| && db.payments[k] == r.value
                                   && forall j :: 0 <= j < k ==> db.payments[j].orderId != orderId
  {
    First(db.payments, (p: Payment) => orderId.None? || p.orderId == orderId)
  }

  /** The outcome of a delivery: status, state, and the fulfilment call made, if any. */
  datatype Handled = Handled(status: int, db: Db, sent: Option<Orders.PlaceCall>)

  // ---------------------------------------------------------------- NOWPayments

  /** The IPN fields the handler reads (`None` when absent). */
  datatype NowEvent = NowEvent(paymentId: Option<string>, orderId: Option<string>, paymentStatus: Option<string>)

  /** NOWPayments' payment status to the payment enum. */
  function MapNowStatus(s: string): (r: PaymentStatus)
    ensures r == PaymentCompleted <==> s == "finished" || s == "confirmed"
    ensures r == PaymentFailed <==> s == "failed" || s == "expired" || s == "refunded"
    ensures r == PaymentPending <==> s !in {"finished", "confirmed", "failed", "expired", "refunded"}
  {
    match s
    case "finished" => PaymentCompleted
    case "confirmed" => PaymentCompleted
    case "failed" => PaymentFailed
    case "expired" => PaymentFailed
    case "refunded" => PaymentFailed
    case _ => PaymentPending
  }

  /**
   * `POST /api/payments/nowpayments/webhook`. `headers` and `raw` are the delivery;
   * `event` is `raw` parsed (`None` when it is not JSON). `stored` is whether the payment
   * update succeeds — its result is not checked. A completed payment moves the order to
   * processing without submitting it; `orderStored` is whether that order update succeeds,
   * and when it throws the reply is 500 with the payment update already made.
   */
  function NowWebhook(db: Db, headers: map<string, string>, raw: string, event: Option<NowEvent>, stored: bool,
                      orderStored: bool): (r: Handled)
    ensures r.sent.None?
    ensures !NowPaymentsClient.Verify(headers, raw) ==> r == Handled(400, db, None)
    ensures NowPaymentsClient.Verify(headers, raw) && event.None? ==> r == Handled(500, db, None)
    ensures (&& NowPaymentsClient.Verify(headers, raw) && event.Some?
             && (Present(event.value.orderId).None? || Present(event.value.paymentStatus).None?))
            ==> r == Handled(400, db, None)
    ensures (&& NowPaymentsClient.Verify(headers, raw) && event.Some?
             && Present(event.value.orderId).Some? && Present(event.value.paymentStatus).Some?
             && PaymentForOrder(db, event.value.orderId).None?)
            ==> r == Handled(404, db, None)
    ensures var found := && NowPaymentsClient.Verify(headers, raw) && event.Some?
                         && Present(event.value.orderId).Some? && Present(event.value.paymentStatus).Some?
                         && PaymentForOrder(db, event.value.orderId).Some?;
            && (!found ==> r.db == db && r.status != 200)
            && (found ==>
                  var e := event.value;
                  var p := PaymentForOrder(db, e.orderId).value;
                  var status := MapNowStatus(e.paymentStatus.value);
                  var u := Payments.UpdatePaymentStatus(db, p.id, status, e.paymentId, stored);
                  var d := if u.Ok? then u.value.0 else db;
                  var moves := status == PaymentCompleted && e.orderId.value in db.orders;
                  && r.db.payments == d.payments
                  && (moves && orderStored ==>
                        r.db.orders == db.orders[e.orderId.value := db.orders[e.orderId.value].(status := Processing)])
                  && (!(moves && orderStored) ==> r.db.orders == db.orders)
                  && r.db == db.(payments := r.db.payments, orders := r.db.orders)
                  && r.status == (if moves && !orderStored then 500 else 200))
  {
    if !NowPaymentsClient.Verify(headers, raw) then Handled(400, db, None)
    else match event
      case None => Handled(500, db, None)
      case Some(e) =>
        if Present(e.orderId).None? || Present(e.paymentStatus).None? then Handled(400, db, None)
        else match PaymentForOrder(db, e.orderId)
          case None => Handled(404, db, None)
          case Some(p) =>
            var status := MapNowStatus(e.paymentStatus.value);
            var d := match Payments.UpdatePaymentStatus(db, p.id, status, e.paymentId, stored)
                     case Ok((d, _)) => d
                     case Err(_) => db;
            var oid := e.orderId.value;
            if status == PaymentCompleted && oid in d.orders then
              if orderStored then Handled(200, d.(orders := d.orders[oid := d.orders[oid].(status := Processing)]), None)
              else Handled(500, d, None)
            else Handled(200, d, None)
  }

  /**
   * The signature is never checked against the body: under any non-empty signature, the
   * reply to a delivery does not depend on the raw body at all, and a 400 then only ever
   * means a missing field.
   */
  lemma NowRawBodyIgnored(db: Db, sig: string, raw1: string, raw2: string, event: Option<NowEvent>, stored: bool,
                          orderStored: bool)
    requires sig != ""
    ensures var h := map["x-nowpayments-sig" := sig];
            && NowWebhook(db, h, raw1, event, stored, orderStored) == NowWebhook(db, h, raw2, event, stored, orderStored)
            && (NowWebhook(db, h, raw1, event, stored, orderStored).status == 400 ==>
                  event.Some? && (Present(event.value.orderId).None? || Present(event.value.paymentStatus).None?))
  {
  }

  /**
   * No transition guard: a later `expired` overwrites a completed payment.
   */
  lemma NowExpiredOverwritesCompleted(db: Db, headers: map<string, string>, raw: string, paymentId: Option<string>, oid: Id)
    requires NowPaymentsClient.Verify(headers, raw) && oid != ""
    requires PaymentForOrder(db, Some(oid)).Some? && PaymentForOrder(db, Some(oid)).value.status == PaymentCompleted
    ensures var p := PaymentForOrder(db, Some(oid)).value;
            var r := NowWebhook(db, headers, raw, Some(NowEvent(paymentId, Some(oid), Some("expired"))), true, true);
            && r.status == 200
            && Payments.GetPaymentById(r.db, p.id).Ok?
            && Payments.GetPaymentById(r.db, p.id).value.status == PaymentFailed
  {
    assert MapNowStatus("expired") == PaymentFailed;
    NowStatusRecorded(db, headers, raw, paymentId, oid, "expired", true);
  }

  /** A found payment reads back with the mapped status after the delivery, whatever the reply. */
  lemma NowStatusRecorded(db: Db, headers: map<string, string>, raw: string, paymentId: Option<string>, oid: Id,
                          st: string, orderStored: bool)
    requires NowPaymentsClient.Verify(headers, raw) && oid != "" && st != ""
    requires PaymentForOrder(db, Some(oid)).Some?
    ensures var p := PaymentForOrder(db, Some(oid)).value;
            var r := NowWebhook(db, headers, raw, Some(NowEvent(paymentId, Some(oid), Some(st))), true, orderStored);
            && Payments.GetPaymentById(r.db, p.id).Ok?
            && Payments.GetPaymentById(r.db, p.id).value.status == MapNowStatus(st)
  {
    var p := PaymentForOrder(db, Some(oid)).value;
    var k :| 0 <= k < |db.payments| && db.payments[k] == p;
    assert Payments.HasPayment(db, p.id);
    var d := Payments.UpdatePaymentStatus(db, p.id, MapNowStatus(st), paymentId, true).value.0;
    var r := NowWebhook(db, headers, raw, Some(NowEvent(paymentId, Some(oid), Some(st))), true, orderStored);
    NowPaymentsWritten(db, headers, raw, NowEvent(paymentId, Some(oid), Some(st)), orderStored);
    Payments.UpdateThenGet(db, p.id, MapNowStatus(st), paymentId);
    SamePaymentsSameLookup(r.db, d, p.id);
  }

  /** A delivery that finds its payment leaves the payment table the status update wrote. */
  lemma NowPaymentsWritten(db: Db, headers: map<string, string>, raw: string, e: NowEvent, orderStored: bool)
    requires NowPaymentsClient.Verify(headers, raw)
    requires Present(e.orderId).Some? && Present(e.paymentStatus).Some? && PaymentForOrder(db, e.orderId).Some?
    ensures var u := Payments.UpdatePaymentStatus(db, PaymentForOrder(db, e.orderId).value.id, MapNowStatus(e.paymentStatus.value),
                                                  e.paymentId, true);
            u.Ok? ==> NowWebhook(db, headers, raw, Some(e), true, orderStored).db.payments == u.value.0.payments
  {
  }

  lemma SamePaymentsSameLookup(d1: Db, d2: Db, id: Id)
    requires d1.payments == d2.payments
    ensures Payments.GetPaymentById(d1, id) == Payments.GetPaymentById(d2, id)
  {
  }

  /** A redelivered `finished` pulls a completed order back to processing. */
  lemma NowFinishedReopensCompleted(db: Db, headers: map<string, string>, raw: string, paymentId: Option<string>,
                                    oid: Id, stored: bool)
    requires NowPaymentsClient.Verify(headers, raw) && oid != ""
    requires PaymentForOrder(db, Some(oid)).Some?
    requires oid in db.orders && db.orders[oid].status == Completed
    ensures var r := NowWebhook(db, headers, raw, Some(NowEvent(paymentId, Some(oid), Some("finished"))), stored, true);
            r.status == 200 && r.db.orders[oid].status == Processing
  {
  }

  /**
   * A failed order update after a completing delivery answers 500, yet the payment is
   * already completed: the order stays where it was while its payment reads completed.
   */
  lemma NowOrderFailureKeepsPayment(db: Db, headers: map<string, string>, raw: string, paymentId: Option<string>, oid: Id)
    requires NowPaymentsClient.Verify(headers, raw) && oid != ""
    requires PaymentForOrder(db, Some(oid)).Some? && oid in db.orders
    ensures var p := PaymentForOrder(db, Some(oid)).value;
            var r := NowWebhook(db, headers, raw, Some(NowEvent(paymentId, Some(oid), Some("finished"))), true, false);
            && r.status == 500
            && r.db.orders == db.orders
            && Payments.GetPaymentById(r.db, p.id).Ok?
            && Payments.GetPaymentById(r.db, p.id).value.status == PaymentCompleted
  {
    assert MapNowStatus("finished") == PaymentCompleted;
    NowStatusRecorded(db, headers, raw, paymentId, oid, "finished", false);
  }

  // ---------------------------------------------------------------- PayPal

  /** The capture resource of the event: its `id` and first purchase unit's `reference_id`. */
  datatype Resource = Resource(id: Option<string>, referenceId: Option<string>)

  datatype PaypalEvent = PaypalEvent(eventType: Option<string>, resource: Option<Resource>)

  /**
   * `POST /api/payments/paypal/webhook`. `remote` is PayPal's verification status for the
   * delivery (see `Payments.PaypalVerify`), `event` the parsed body, `stored` whether the
   * payment update succeeds and `reply` the fulfilment provider's answer.
   */
  function PaypalWebhook(db: Db, remote: Option<string>, event: Option<PaypalEvent>, stored: bool,
                         reply: Orders.ProviderReply): (r: Handled)
    ensures !Payments.PaypalVerify(remote) ==> r == Handled(401, db, None)
    ensures Payments.PaypalVerify(remote) && event.Some? && event.value.eventType != Some("PAYMENT.CAPTURE.COMPLETED") ==>
              r == Handled(200, db, None)
    ensures r.sent.Some? ==> r.status == 200
    ensures r.status != 200 ==> r.db == db
    ensures var completing := Payments.PaypalVerify(remote) && event.Some? && event.value.eventType == Some("PAYMENT.CAPTURE.COMPLETED")
                              && event.value.resource.Some? && Present(event.value.resource.value.referenceId).Some?;
            completing ==>
              var e := event.value.resource.value;
              var oid := e.referenceId.value;
              && (PaymentForOrder(db, Some(oid)).None? ==> r == Handled(404, db, None))
              && (PaymentForOrder(db, Some(oid)).Some? ==>
                    var u := Payments.UpdatePaymentStatus(db, PaymentForOrder(db, Some(oid)).value.id, PaymentCompleted, e.id, stored);
                    && (u.Err? ==> r == Handled(500, db, None))
                    && (u.Ok? ==> var s := Orders.SubmitOrder(u.value.0, oid, reply);
                                  r == Handled(200, s.db, s.sent)))
  {
    if !Payments.PaypalVerify(remote) then Handled(401, db, None)
    else match event
      case None => Handled(500, db, None)
      case Some(ev) =>
        if ev.eventType != Some("PAYMENT.CAPTURE.COMPLETED") then Handled(200, db, None)
        else match ev.resource
          case None => Handled(500, db, None)
          case Some(res) =>
            if Present(res.referenceId).None? then Handled(400, db, None)
            else
              var oid := res.referenceId.value;
              match PaymentForOrder(db, Some(oid))
              case None => Handled(404, db, None)
              case Some(p) =>
                match Payments.UpdatePaymentStatus(db, p.id, PaymentCompleted, res.id, stored)
                case Err(_) => Handled(500, db, None)
                case Ok((d, _)) =>
                  var s := Orders.SubmitOrder(d, oid, reply);
                  Handled(200, s.db, s.sent)
  }

  /**
   * Only a delivery PayPal verifies as `SUCCESS` acts: any other verification answer, for
   * any event, leaves the store as it was and calls no provider.
   */
  lemma PaypalOnlySuccessActs(db: Db, remote: Option<string>, event: Option<PaypalEvent>, stored: bool,
                              reply: Orders.ProviderReply)
    ensures var r := PaypalWebhook(db, remote, event, stored, reply);
            (r.db != db || r.sent.Some? || r.status == 200) ==> remote == Some("SUCCESS")
  {
  }

  /**
   * Redelivery: once a delivery has submitted the order, delivering the same event again
   * answers 200 and marks the payment again, but the `apiOrderId` guard keeps the
   * provider from being called a second time.
   */
  lemma PaypalRedeliverySubmitsOnce(db: Db, remote: Option<string>, ev: PaypalEvent, r1: Orders.ProviderReply,
                                    r2: Orders.ProviderReply)
    requires PaypalWebhook(db, remote, Some(ev), true, r1).sent.Some? && r1.Placed?
    ensures var d := PaypalWebhook(db, remote, Some(ev), true, r1).db;
            var again := PaypalWebhook(d, remote, Some(ev), true, r2);
            again.status == 200 && again.sent.None?
  {
    var res := ev.resource.value;
    var oid := res.referenceId.value;
    var p := PaymentForOrder(db, Some(oid)).value;
    var u := Payments.UpdatePaymentStatus(db, p.id, PaymentCompleted, res.id, true).value.0;
    var d := Orders.SubmitOrder(u, oid, r1).db;
    assert d.payments == u.payments;
    UpdateKeepsOrderLinks(db, p.id, PaymentCompleted, res.id, oid);
    var p2 := PaymentForOrder(d, Some(oid)).value;
    assert Payments.HasPayment(d, p2.id);
  }

  /** Updating a payment never removes a payment of an order, nor touches the orders. */
  lemma UpdateKeepsOrderLinks(db: Db, id: Id, status: PaymentStatus, tx: Option<string>, oid: Id)
    requires Payments.HasPayment(db, id)
    requires PaymentForOrder(db, Some(oid)).Some?
    ensures var d := Payments.UpdatePaymentStatus(db, id, status, tx, true).value.0;
            PaymentForOrder(d, Some(oid)).Some? && d.orders == db.orders
  {
    var d := Payments.UpdatePaymentStatus(db, id, status, tx, true).value.0;
    var p := PaymentForOrder(db, Some(oid)).value;
    var k :| 0 <= k < |db.payments| && db.payments[k] == p;
    assert d.payments[k].orderId == Some(oid);
  }

  // ---------------------------------------------------------------- Binance Pay

  /** The `data` object of a Binance Pay notification. */
  datatype BizData = BizData(merchantTradeNo: Option<string>, transactionId: Option<string>)

  datatype BinanceEvent = BinanceEvent(bizType: Option<string>, bizStatus: Option<string>, data: Option<BizData>)

  /** `data.bizType === 'PAY' && data.bizStatus === 'PAY_SUCCESS'` */
  predicate PaySuccess(e: BinanceEvent)
  {
    e.bizType == Some("PAY") && e.bizStatus == Some("PAY_SUCCESS")
  }

  /**
   * `POST /api/payments/binance/webhook`. The delivery is verified with the HMAC `hmac`
   * before `event` (the parsed `raw`) is read. A notification without `merchantTradeNo`
   * matches the first payment of all, and its submission fails inside `submitOrderToAPI`.
   */
  function BinanceWebhook(db: Db, headers: map<string, string>, raw: string, hmac: string -> string,
                          event: Option<BinanceEvent>, stored: bool, reply: Orders.ProviderReply): (r: Handled)
    ensures !Payments.BinanceVerify(headers, raw, hmac) ==> r == Handled(401, db, None)
    ensures Payments.BinanceVerify(headers, raw, hmac) && event.Some? && !PaySuccess(event.value) ==> r == Handled(200, db, None)
    ensures r.status != 200 ==> r.db == db
    ensures r.sent.Some? ==> r.status == 200 && event.Some? && event.value.data.Some? && event.value.data.value.merchantTradeNo.Some?
    ensures (Payments.BinanceVerify(headers, raw, hmac) && event.Some? && PaySuccess(event.value) && event.value.data.Some?) ==>
              var t := event.value.data.value;
              && (PaymentForOrder(db, t.merchantTradeNo).None? ==> r == Handled(404, db, None))
              && (PaymentForOrder(db, t.merchantTradeNo).Some? ==>
                    var u := Payments.UpdatePaymentStatus(db, PaymentForOrder(db, t.merchantTradeNo).value.id, PaymentCompleted, t.transactionId, stored);
                    && (u.Err? ==> r == Handled(500, db, None))
                    && (u.Ok? && t.merchantTradeNo.None? ==> r == Handled(200, u.value.0, None))
                    && (u.Ok? && t.merchantTradeNo.Some? ==>
                          var s := Orders.SubmitOrder(u.value.0, t.merchantTradeNo.value, reply);
                          r == Handled(200, s.db, s.sent)))
  {
    if !Payments.BinanceVerify(headers, raw, hmac) then Handled(401, db, None)
    else match event
      case None => Handled(500, db, None)
      case Some(ev) =>
        if !PaySuccess(ev) then Handled(200, db, None)
        else match ev.data
          case None => Handled(500, db, None)
          case Some(t) =>
            match PaymentForOrder(db, t.merchantTradeNo)
            case None => Handled(404, db, None)
            case Some(p) =>
              match Payments.UpdatePaymentStatus(db, p.id, PaymentCompleted, t.transactionId, stored)
              case Err(_) => Handled(500, db, None)
              case Ok((d, _)) =>
                match t.merchantTradeNo
                case None => Handled(200, d, None)
                case Some(oid) =>
                  var s := Orders.SubmitOrder(d, oid, reply);
                  Handled(200, s.db, s.sent)
  }

  /**
   * A verified success notification without `merchantTradeNo` completes the first
   * payment on record, whichever order it belongs to.
   */
  lemma BinanceMissingTradeNoCompletesFirst(db: Db, headers: map<string, string>, raw: string, hmac: string -> string,
                                            tx: Option<string>, reply: Orders.ProviderReply)
    requires Payments.BinanceVerify(headers, raw, hmac) && |db.payments| > 0
    ensures var r := BinanceWebhook(db, headers, raw, hmac, Some(BinanceEvent(Some("PAY"), Some("PAY_SUCCESS"), Some(BizData(None, tx)))), true, reply);
            r.status == 200 && r.db.payments[0].status == PaymentCompleted && r.sent.None?
  {
    var d := Payments.UpdatePaymentStatus(db, db.payments[0].id, PaymentCompleted, tx, true);
    assert Payments.HasPayment(db, db.payments[0].id);
  }
}

=== FILE: wrappers.dfy ===
/** Failure-compatible result types shared by every module of the model. */
module Wrappers {

  /** A value that may be absent: a nullable column, an optional header or body field. */
  datatype Option<+T> = None | Some(value: T) {

    /** The carried value, or `default` when absent (JavaScript's `x || default` on a non-falsy x). */
    function GetOr(default: T): T
    {
      match this
      case Some(v) => v
      case None => default
    }
  }

  /** The `{ success, data | message }` envelope the library functions return. */
  datatype Result<+T> = Ok(value: T) | Err(message: string)
}
